=== FILE: README.md ===
# OpenPilot AHRS, receiver failsafe and ground-station control logic in Dafny

This project models the deterministic decision logic of several OpenPilot
components and proves properties of the model.

**AHRS coprocessor firmware** (`flight/AHRS/ahrs.c`):
- the decimation filter `downsample_data`, which turns an oversampled ADC block into one filtered accelerometer and gyro sample;
- the stationary calibration `calibrate_sensors`, which computes mean and naive variance per axis;
- `reset_values` and `converge_insgps`;
- the main loop: pending calibration, magnetometer poll, `uint32_t` idle/running tick accounting, and the INS/GPS and SIMPLE branches with the fusion policy that picks one correction per cycle;
- the SPI link service `process_spi_request`, which gates on the link state, dispatches requests, updates the calibration, algorithm, GPS and barometer globals, and re-arms the receive buffer.

**Receiver task** (`flight/modules/Receiver/receiver.c`): one loop iteration. When the ground station holds control and its link has timed out, the command takes the failsafe channel values.

**Ground-station manual control gadget** (`gcscontrolgadget.cpp`):
- the stick-mode remapping in both directions and the throttle conversions;
- which axes buttons lock;
- the clamps `constrain`, `bound` and `wrap`;
- the UDP datagram parser and how it applies values;
- the joystick dead zone and the `axesValues` guard.

**Gamepad poller** (`sdlgamepad.cpp`): the axis and button tables, gamepad selection, start-up, the axis dead band, and button edge detection.

**Monitor map content** (`mapcontent.cpp`): coordinate sanitising, the home position, the UAV heading normalised to [0, 360), the mode and cursor button sets, and the zoom counters.

**Monitor content provider** (`monitorcontentprovider.cpp`): the slot table that gives each unique content (satellite map, navigation map, GPS, camera) to at most one monitor. It swaps contents between monitors and creates EMPTY content afresh for each request.

One Dafny module per component. `Common` holds the shared types:
- `Option` and `Result`;
- `Vec3`;
- `Float`, a number or NaN, used where the code tests `x != x`;
- `uint32_t` wrap-around;
- C's truncating integer division.

Floats are modelled as reals. Code outside the model is seen only through inputs and recorded calls:
- The INS/GPS estimator appears as the sequence of calls it receives. Its attitude and navigation output are inputs.
- The trigonometry is supplied as function parameters.
- The link-layer driver's state and the decoded request are inputs. The calls made on the driver are recorded.
- SDL's replies are inputs.

Where the documented behaviour and the code differ, the model follows the code:
- The ALGORITHM and NORTH replies carry no payload. The code only initialises the reply, so it does not echo the request.
- The command-to-stick throttle conversion converts a throttle between -1 and 0 without clamping, so the stick is placed below its travel. Only values at or below -1 and above 1 are pinned.

For each defect listed under Findings, an as-written member models the code and a separately named corrected member carries the intended property. The link service and the main loop, `readUDPCommand` and the point overload of `setHome` are built on the as-written helpers.

## Model

| member | source | states |
|---|---|---|
| AhrsTypes.ResetValues | flight/AHRS/ahrs.c:655-683 | The power-on calibration gives every sensor a positive variance and nonzero accelerometer and gyro scales; the magnetometer starts with unit scale and zero bias. |
| AhrsTypes.MagToBody | flight/AHRS/ahrs.c:324-328 | The remap from the chip's (left, backward, up) registers to (forward, right, down) loses nothing: negating and swapping back recovers the sensor vector. |
| AhrsTypes.VarianceToBody | flight/AHRS/ahrs.c:645 | The magnetometer variance is reordered by the same x/y swap, without sign change; swapping back gives the stored variance. |
| AhrsTypes.ConvergeCalls | flight/AHRS/ahrs.c:643-650 | Estimator start-up is exactly four calls: initialise, accelerometer variance, gyro variance, and the magnetometer variance with x and y exchanged into body order. |
| AhrsDownsample.Boxcar | flight/AHRS/ahrs.c:229-232 | The start-up filter is a valid filter: unit taps over the oversampling window and normaliser equal to the window length. |
| AhrsDownsample.Downsample | flight/AHRS/ahrs.c:492-537 | The six filtered axes, wired accelerometer x/y/z to channels 2/0/4 and gyro x/y/z to 1/3/5: under a filter whose taps sum to its normaliser, a block holding steady channel values gives exactly those values times scale plus bias. |
| AhrsDownsample.BoxcarUnitGain | flight/AHRS/ahrs.c:229-232 | The boxcar set-up of `main` has unit DC gain: its taps sum to its normaliser. |
| AhrsDownsample.ConstantFirSum | flight/AHRS/ahrs.c:497-499 | The weighted sum over a channel that holds one value is that value times the sum of the taps. |
| AhrsDownsample.SteadyChannels | flight/AHRS/ahrs.c:492-537 | Each of the six axes of a steady block decimates, under a unit-gain filter, to the calibrated value of the channel wired to it. |
| AhrsDownsample.FlattenIndex | flight/AHRS/ahrs.c:499 | Entry `c + i * PIOS_ADC_NUM_PINS` of the flat ADC buffer is channel c of frame i. |
| AhrsDownsample.FlatSumIsFirSum | flight/AHRS/ahrs.c:497-499 | The accumulation indexed as the firmware does over the flat buffer equals the frame-wise weighted sum. |
| AhrsDownsample.AccumulateChannel | flight/AHRS/ahrs.c:497-500 | The accumulation loop ends with the coefficient-weighted sum of the channel over the first k frames. |
| AhrsDownsample.DownsampleBlock | flight/AHRS/ahrs.c:492-537 | The six per-channel loops together produce exactly the filtered sample of the reference definition: weighted sum over normaliser, times scale, plus bias, per axis. |
| AhrsDownsample.UnitTapsSum | flight/AHRS/ahrs.c:230-231 | With unit taps the weighted sum equals the plain sum of the channel's samples. |
| AhrsDownsample.BoxcarIsMean | flight/AHRS/ahrs.c:229-232 | Under the boxcar set-up every filtered axis is the mean of its channel's samples times scale plus bias. |
| AhrsDownsample.BoxcarConstantBlock | flight/AHRS/ahrs.c:492-537 | A block in which a channel holds a constant v filters to v times scale plus bias under the boxcar set-up. |
| AhrsDownsample.ChannelMap | flight/AHRS/ahrs.c:492-537 | The filtered sample equals, axis by axis, the normalised weighted sum of `valid_data_buffer[ch + i * PIOS_ADC_NUM_PINS]` for the channel the board wires to that axis (2/0/4 accelerometer, 1/3/5 gyro), times scale plus bias. |
| AhrsCalibration.Zeroed | flight/AHRS/ahrs.c:558-576 | While sampling, every bias and variance is zero and the scales are kept. |
| AhrsCalibration.SampleCycle | flight/AHRS/ahrs.c:579-594 | After cycle i the accelerometer and gyro sums and sums of squares cover exactly the first i+1 filtered samples. |
| AhrsCalibration.MagCycle | flight/AHRS/ahrs.c:596-611 | Only a cycle with fresh magnetometer data adds to the sums; `j` counts exactly the fresh readings so far. The kept reading is the most recent fresh one, since every fresh reading overwrites the registers. |
| AhrsCalibration.LastReading | flight/AHRS/ahrs.c:597-601 | The registers after a series of polls hold no reading exactly when no poll had fresh data. |
| AhrsCalibration.LastReadingIsLatest | flight/AHRS/ahrs.c:597-601 | Otherwise they hold a fresh reading after which no poll had fresh data, since each fresh reading overwrites the registers. |
| AhrsCalibration.LastReadingIsLastSample | flight/AHRS/ahrs.c:597-608 | The reading the registers keep exists exactly when the magnetometer mean has a sample, and scaled it is the last sample averaged. |
| AhrsCalibration.FinishIsStats | flight/AHRS/ahrs.c:615-634 | Sum over n and sum of squares over n minus the squared bias are the arithmetic mean and the naive variance of the samples. |
| AhrsCalibration.Calibrate | flight/AHRS/ahrs.c:550-635 | After 250 cycles the accelerometer and gyro calibrations are the mean and naive variance of the 250 filtered samples (scales kept). The magnetometer calibration is the mean and variance of the readings that arrived, or an error exactly when none arrived. The last filtered sample and the last fresh magnetometer reading (`LastReading`) stay behind. |
| AhrsCalibration.ApplyRun | flight/AHRS/ahrs.c:615-634 | The stored calibration takes the new accelerometer and gyro values, and the magnetometer values when any reading arrived; otherwise the magnetometer keeps the zeroed bias and variance. |
| AhrsCalibration.ConstantInputCalibration | flight/AHRS/ahrs.c:615-631 | A stationary, noise-free input v calibrates to bias v and variance zero on every axis. |
| AhrsCalibration.ConstantBlocksCalibrate | flight/AHRS/ahrs.c:578-631 | ADC blocks whose sensor channels are constant yield, through the boxcar filter, an accelerometer bias of the channel values times scale (x/y/z from channels 2/0/4) and variance zero. |
| AhrsFusion.SelectCorrection | flight/AHRS/ahrs.c:334-374 | Exactly one correction per cycle by fixed precedence: the full correction if and only if the GPS data is fresh with quality exactly 1; the magnetometer-only one only with fresh magnetometer data and a fix ever seen; otherwise the zero-velocity barometric one. |
| AhrsFusion.ApplyCorrection | flight/AHRS/ahrs.c:334-374 | The last estimator call is the correction `SelectCorrection` picks, each in both directions. A good fix sets variance 0.004, then fuses the body-order magnetometer, the GPS position, the velocity from ground speed and heading, and the barometric altitude. The magnetometer-only arm makes that one call. The indoor arm sets variance 0.1, zeroes the velocity and fuses it with the altitude. A consumed flag is cleared, an unconsumed one stays pending, and nothing else changes. |
| AhrsFusion.MagTrustedOnlyOutdoors | flight/AHRS/ahrs.c:360-363 | With no GPS fix ever seen the estimator never receives the magnetometer, however fresh the reading, and the magnetometer flag stays set. |
| AhrsFusion.VerticalVelocityStaysZero | flight/AHRS/ahrs.c:336-369 | Starting from zero vertical velocity, the loop velocity and every velocity handed to the estimator keep a zero z component. |
| AhrsFusion.GoodFixConsumedOnce | flight/AHRS/ahrs.c:334-359 | A good GPS fix is fused exactly once: a second correction with no new data does not run the full correction again. |
| AhrsFusion.SimpleAttitude | flight/AHRS/ahrs.c:380-400 | The SIMPLE branch changes only the attitude: roll is the tilt of the accelerometer's gravity in the (right, down) plane, pitch in the (forward, down) plane, and yaw the heading of the magnetometer field in the body axes the INS branch uses. |
| AhrsFusion.LevelBoardAttitude | flight/AHRS/ahrs.c:380-400 | On a level board (no fore-aft or sideways acceleration) the SIMPLE attitude has zero roll and pitch, and its yaw is the heading of the magnetometer field in the body axes the INS branch uses. |
| AhrsFusion.SimpleAttitudeInputs | flight/AHRS/ahrs.c:385-396 | The SIMPLE attitude depends only on the filtered accelerometer and the raw magnetometer registers. |
| AhrsLink.LoadPercent | flight/AHRS/ahrs.c:906-909 | The load is undefined exactly when the `uint32_t` tick sum is zero. Without wrap-around it lies in [0, 100]: 100 with no idle ticks, 0 with no running ticks. |
| AhrsLink.SetCalibrationCallsAsWritten | flight/AHRS/ahrs.c:787-791 | As written, a SET zeroes the gyro bias and hands the estimator the magnetometer variance in sensor order. |
| AhrsLink.SetCalibrationCalls | flight/AHRS/ahrs.c:787-791 | Corrected: after zeroing the gyro bias, a SET makes the same variance calls as start-up convergence, with the magnetometer variance in body order. |
| AhrsLink.SetMagVarOrderDiffers | flight/AHRS/ahrs.c:788-791 | For a magnetometer variance (1, 2, 3) the SET as written and start-up convergence give the estimator different variances. |
| AhrsLink.SetMagVarOrderAgreesIffSymmetric | flight/AHRS/ahrs.c:787-791 | The code as written and the corrected SET agree if and only if the magnetometer's x and y variances are equal. |
| AhrsLink.HandleCalibration | flight/AHRS/ahrs.c:748-808 | MEASURE raises the calibration flag. SET stores all 27 values and makes the estimator calls as written, with the magnetometer variance in sensor order. Other modes keep the calibration and the flag. Every mode echoes the variances now in force and leaves samples, attitude, velocity and load alone. |
| AhrsLink.HandleAttitudeRaw | flight/AHRS/ahrs.c:809-866 | The raw-attitude reply reports the raw magnetometer, the raw gyro channels 1/3/5 and accelerometer channels 0/2/4 of the first frame, the filtered sample and the temperature channels 6 and 7. It changes no modelled state and calls nothing. |
| AhrsLink.HandleUpdate | flight/AHRS/ahrs.c:867-917 | Barometer and GPS data are each copied only when their own flag is set, and copied GPS data is marked fresh. The reply carries the attitude held before, the estimator's position and velocity, the dropped-update count, the load, and the idle and running ticks in whole 100 µs units (the floor of ticks over ticks per 100 µs). |
| AhrsLink.Dispatch | flight/AHRS/ahrs.c:726-924 | RESET never returns. Every other kind ends with the receive buffer re-armed and the driver released, after exactly one reply for known kinds and none for unknown ones. Only CALIBRATION, ALGORITHM and UPDATE change the firmware, and only MEASURE raises the calibration flag. SERIAL replies with the serial number, ATTITUDERAW with its sample, and an unknown kind does nothing else. The estimator is configured only by a SET's calls as written and by NORTH's single `INSSetMagNorth`. |
| AhrsLink.ProcessSpiRequest | flight/AHRS/ahrs.c:696-925 | Only a user-busy link dispatches. An inactive link re-arms and releases. A stopped link binds the buffers. Any other state does nothing. The service never touches samples, attitude, velocity or load. It changes the firmware only for CALIBRATION, ALGORITHM and UPDATE, and calls the estimator only for a SET (calls as written) and for NORTH (one `INSSetMagNorth`). |
| AhrsLink.MeasureOnlySchedules | flight/AHRS/ahrs.c:749-751 | A MEASURE request only sets the calibration flag and echoes the current variances; no estimator call is made. |
| AhrsLink.SetStoresAndEchoes | flight/AHRS/ahrs.c:752-807 | A SET request stores the given calibration and echoes its variances. The estimator receives the accelerometer and gyro variances start-up convergence would give, and the magnetometer variance unswapped. |
| AhrsLink.SetIdempotent | flight/AHRS/ahrs.c:752-807 | Repeating a SET gives the same state, the same reply and the same estimator calls. |
| AhrsLink.OtherModeOnlyEchoes | flight/AHRS/ahrs.c:748-808 | A calibration request in any other mode changes nothing and still echoes the current variances. |
| AhrsLink.UpdateCopiesOnlyFresh | flight/AHRS/ahrs.c:871-887 | An UPDATE copies the barometer and the GPS block each exactly when its own flag is set; nothing else in the state changes. |
| AhrsLink.UpdateReply | flight/AHRS/ahrs.c:888-915 | The UPDATE reply reports the previous attitude and the estimator's position and velocity. Without tick wrap-around the load lies in [0, 100], and it is missing exactly when both tick counts are zero. |
| AhrsLink.AlgorithmStored | flight/AHRS/ahrs.c:738-742 | ALGORITHM stores the requested code, whatever it is, and replies without payload. |
| AhrsLink.PassiveRequestsKeepState | flight/AHRS/ahrs.c:726-924 | SERIAL, NORTH, ATTITUDERAW and unknown requests leave the firmware as it was; only NORTH calls the estimator, once, with the field it carries. |
| AhrsLink.OnlyUserBusyActs | flight/AHRS/ahrs.c:700-724 | Only a user-busy link lets the service reset the board, change the state or call the estimator. |
| AhrsMain.Boot | flight/AHRS/ahrs.c:188-238 | Start-up establishes the loop invariant: INS/GPS algorithm, no GPS fix, nothing fresh, power-on calibration, no pending calibration. The estimator receives exactly the convergence calls. |
| AhrsMain.TimeCycle | flight/AHRS/ahrs.c:300-308 | The wait's start and end are recorded. Without wrap-around the running time is the time from the previous wait's end to this wait's start, and the idle time is this wait's length. |
| AhrsMain.TicksAccounted | flight/AHRS/ahrs.c:300-308 | Idle plus running ticks equal, modulo 2^32, the time between successive post-wait snapshots, even when the timer wraps. |
| Common.SubU32 | flight/AHRS/ahrs.c:300-308 | A `uint32_t` difference lies in [0, 2^32) and is congruent to the true difference. |
| Common.AddU32 | flight/AHRS/ahrs.c:907-909 | A `uint32_t` sum lies in [0, 2^32) and is congruent to the true sum. |
| AhrsMain.ReadMagnetometer | flight/AHRS/ahrs.c:290-296 | A new reading replaces the raw registers, is marked fresh, and gives each scaled axis as the reading times the axis scale plus the axis bias. Without one the magnetometer data is unchanged. |
| AhrsMain.MagCalibrationInvertible | flight/AHRS/ahrs.c:292-294 | With nonzero scales, the raw registers can be recovered from the scaled reading and the calibration. |
| AhrsMain.AfterCalibration | flight/AHRS/ahrs.c:284-287 | After a pending calibration the new calibration and the last sample are in force and the flag is cleared. The magnetometer registers hold the run's last reading, scaled with the zeroed bias, or are unchanged when none arrived. The fresh flag is untouched, and nothing else changes. |
| AhrsMain.InsBranch | flight/AHRS/ahrs.c:315-379 | The INS/GPS branch first predicts from the fresh sample and ends with exactly the calls of the selected correction, so the final measurement update is the one the fusion policy picks. Its link actions are those of one link service. The attitude is the estimator's. Sample and load are kept, and zero vertical velocity is preserved. A reset request ends the loop. |
| AhrsMain.AfterLinkService | flight/AHRS/ahrs.c:330-374 | After the link service, the branch predicts from the fresh sample, then runs the link's configuration calls and the covariance prediction. It ends with exactly the calls of the correction chosen on the firmware the link left. A full correction leaves no fresh GPS or magnetometer data; the GPS/baro-only fallback leaves a zero velocity. |
| AhrsMain.InsCallsShape | flight/AHRS/ahrs.c:330-374 | Prediction, the link's configuration calls, covariance prediction and a correction form a call sequence with exactly one measurement update, at the end. |
| AhrsMain.SimpleBranch | flight/AHRS/ahrs.c:380-402 | The SIMPLE branch sets the attitude from the accelerometer and magnetometer. The estimator is only configured, by the link. Sample, load, velocity and magnetometer are kept. |
| AhrsMain.CalibrateIfPending | flight/AHRS/ahrs.c:284-287 | A calibration runs exactly when one is pending. Its accelerometer and gyro results are the means and naive variances of the filtered calibration blocks, its kept reading is the last fresh one, and its globals are stored. Without a pending calibration nothing changes. |
| AhrsMain.Prepare | flight/AHRS/ahrs.c:284-312 | Before the branch, the pending calibration runs if and only if it was requested and its result is stored. A fresh magnetometer reading replaces the registers, scaled with the calibration in force. Without one, the registers are those the calibration run left, or unchanged. The ticks are accounted and the block is filtered with the calibration in force. GPS, altitude, attitude, velocity and algorithm are untouched, and the loop invariant is preserved. |
| AhrsMain.RunAlgorithm | flight/AHRS/ahrs.c:315-405 | The algorithm switch: only INS/GPS and SIMPLE service the link, so only they can reset or request a calibration. An unknown algorithm code leaves the firmware as it is and makes no calls. Under INS/GPS the final measurement update is the one the fusion policy selects on the GPS and magnetometer state the link service leaves. The loop invariant and the tick accounting are kept. |
| AhrsMain.Cycle | flight/AHRS/ahrs.c:278-405 | One iteration preserves the loop invariant and accounts the ticks. Calibration runs exactly when pending. Before the branch only the calibration, sample, magnetometer and ticks change, and the magnetometer is unchanged without a reading or a run. A reset happens exactly on a RESET request in an algorithm branch. An unknown algorithm neither estimates nor services the link. INS/GPS ends with the one measurement update the fusion policy selects on the state after the link service: a full correction leaves no fresh GPS or magnetometer data, an indoor one a zero velocity. SIMPLE takes its attitude from the sensors. |
| Receiver.FailsafeCommand | flight/modules/Receiver/receiver.c:186-208 | Every stick channel takes its failsafe value. Thrust follows the failsafe throttle or collective, per the thrust type, and is kept for any other type. The flight mode is overridden only by an in-range failsafe position. |
| Receiver.ReceiverStep | flight/modules/Receiver/receiver.c:160-222 | The failsafe level is FAILSAFE1 exactly when GCS control is on and its link has timed out, and NONE otherwise. The final alarm is a warning in failsafe and cleared otherwise. Outside failsafe the command is unchanged. In failsafe it takes the failsafe values, and the metadata is rewritten exactly when it was read-only. |
| Receiver.FailsafeStable | flight/modules/Receiver/receiver.c:174-211 | Failsafe is a fixed point: a further iteration under the same conditions publishes the same command and status and leaves the metadata alone. |
| Receiver.RecoveryKeepsCommand | flight/modules/Receiver/receiver.c:213-222 | When the link returns the level drops to NONE and the alarm clears, but the command keeps the failsafe values. |
| Receiver.FlightModeStaysInRange | flight/modules/Receiver/receiver.c:206-208 | A flight-mode position within the configured modes stays within them. |
| GcsControl.ThrottleToStick | ground/openpilotgcs/src/plugins/gcscontrol/gcscontrolgadget.cpp:105-116 | A throttle in (-1, 1] maps to a stick position whose inverse conversion gives the throttle back. Values outside are pinned to the nearer end. A throttle in [0, 1] stays on the stick, while one in (-1, 0) falls below its travel. |
| GcsControl.StickToThrottle | ground/openpilotgcs/src/plugins/gcscontrol/gcscontrolgadget.cpp:212-219 | The motor-off value -1 is produced exactly in the bottom band of the stick. Otherwise the throttle exceeds 0.01 and, when it is at most 1, converts back to the same stick position. |
| GcsControl.SticksFromCommand | ground/openpilotgcs/src/plugins/gcscontrol/gcscontrolgadget.cpp:98-137 | Sticks are shown exactly for modes 1 to 4, with the throttle stick carrying the converted throttle. |
| GcsControl.RpytFromSticks | ground/openpilotgcs/src/plugins/gcscontrol/gcscontrolgadget.cpp:155-185 | For known modes the throttle is read from the mode's throttle stick; an unknown mode reads all zero. |
| GcsControl.RemapInverts | ground/openpilotgcs/src/plugins/gcscontrol/gcscontrolgadget.cpp:119-185 | For each mode 1 to 4 the local remapping of the remote remapping gives back the command's roll, pitch and yaw, and the throttle as its stick position. |
| GcsControl.SticksChangedLocally | ground/openpilotgcs/src/plugins/gcscontrol/gcscontrolgadget.cpp:142-240 | Nothing is written unless GCS control is on and UDP control is off. Otherwise the command is published exactly when a control differs. A button-locked axis is never written, thrust follows a written throttle, and a publication marks the command connected. |
| GcsControl.EchoIsQuiet | ground/openpilotgcs/src/plugins/gcscontrol/gcscontrolgadget.cpp:98-240 | Showing a command with an in-band throttle and handing the same sticks back publishes nothing: the remote-to-local remapping is inverted by the local one. |
| GcsControl.SticksRoundTrip | ground/openpilotgcs/src/plugins/gcscontrol/gcscontrolgadget.cpp:98-240 | Stick positions written to the command and shown again come back unchanged, unless the throttle stick is in the motor-off band. |
| GcsControl.LowStickStopsMotors | ground/openpilotgcs/src/plugins/gcscontrol/gcscontrolgadget.cpp:216-219 | A throttle stick at the bottom of its travel commands -1 for throttle and thrust. |
| GcsControl.Constrain | ground/openpilotgcs/src/plugins/gcscontrol/gcscontrolgadget.cpp:330-339 | The result lies in [-1, 1], equals the input inside it and the nearer end outside. |
| GcsControl.Bound | ground/openpilotgcs/src/plugins/gcscontrol/gcscontrolgadget.cpp:489-498 | The result lies in [-1, 1], equals the input inside it and the nearer end outside. |
| GcsControl.ConstrainIsBound | ground/openpilotgcs/src/plugins/gcscontrol/gcscontrolgadget.cpp:489-498 | `bound` and `constrain` agree on every input. |
| GcsControl.Wrap | ground/openpilotgcs/src/plugins/gcscontrol/gcscontrolgadget.cpp:500-509 | The result lies in [-1, 1], differs from the input by a whole number of turns of 2, and equals the input when it is already in range. |
| GcsControl.ParseTail | ground/openpilotgcs/src/plugins/gcscontrol/gcscontrolgadget.cpp:292-296 | Once the four values are read the parser keeps them. The rest of the datagram is rejected exactly when it is non-empty and is not a single end marker. |
| GcsControl.ParseStep | ground/openpilotgcs/src/plugins/gcscontrol/gcscontrolgadget.cpp:267-296 | One value turns the datagram bad exactly on a wrong start marker or a wrong or non-final end marker, and bad stays bad. A good value before the end marker advances the state by one; the markers carry no value. |
| GcsControl.ParseFrom | ground/openpilotgcs/src/plugins/gcscontrol/gcscontrolgadget.cpp:264-297 | A bad datagram is read no further. One that stays good has advanced once per value, up to the end-marker state, and after the four values nothing overwrites them. |
| GcsControl.ParseDatagram | ground/openpilotgcs/src/plugins/gcscontrol/gcscontrolgadget.cpp:262-298 | As written, a datagram is rejected exactly when its first value is not 42 or it reaches a sixth value that is not a final 36; its leading values overwrite as many of the carried-over four as it holds. |
| GcsControl.ParseDatagramAccepts | ground/openpilotgcs/src/plugins/gcscontrol/gcscontrolgadget.cpp:262-298 | The parser as written rejects a datagram exactly when its first value is not 42, or when it reaches a sixth value that is not a final 36. A datagram starting with 42 overwrites as many of the four values as it holds. |
| GcsControl.TruncatedDatagramAccepted | ground/openpilotgcs/src/plugins/gcscontrol/gcscontrolgadget.cpp:264-298 | The parser as written accepts the empty datagram and the lone start marker, neither well framed, and applies the carried-over values. |
| GcsControl.ParseFrame | ground/openpilotgcs/src/plugins/gcscontrol/gcscontrolgadget.cpp:262-298 | Corrected parser: accepts exactly the well-framed six-value datagrams, whose values it returns. |
| GcsControl.ApplyUdp | ground/openpilotgcs/src/plugins/gcscontrol/gcscontrolgadget.cpp:299-324 | The command is published exactly when some received value differs from it. A differing control is stored clamped to [-1, 1] and an in-range one exactly. Thrust follows a written throttle, and a publication marks the command connected. |
| GcsControl.ApplyUdpIdempotent | ground/openpilotgcs/src/plugins/gcscontrol/gcscontrolgadget.cpp:303-319 | Applying the same in-range values twice publishes only once. |
| GcsControl.OutOfRangeRepublishes | ground/openpilotgcs/src/plugins/gcscontrol/gcscontrolgadget.cpp:303-319 | An out-of-range value is stored clamped and so never matches what was sent: each repeat publishes again. |
| GcsControl.ReadUdpCommand | ground/openpilotgcs/src/plugins/gcscontrol/gcscontrolgadget.cpp:250-328 | As written: each pending datagram publishes at most once, and without UDP control the command is untouched. A last datagram that is well framed with in-range values decides the command, and any accepted last datagram, short ones included, leaves its values in the command when in range. |
| GcsControl.ReadUdpCommandFramed | ground/openpilotgcs/src/plugins/gcscontrol/gcscontrolgadget.cpp:250-328 | Corrected reader, with the framing check: the same publication bound, the same no-control case, and the last well-framed in-range datagram decides the command. |
| GcsControl.RejectedTrafficIgnored | ground/openpilotgcs/src/plugins/gcscontrol/gcscontrolgadget.cpp:257-325 | For either datagram check, traffic whose every datagram is rejected neither changes nor publishes the command. |
| GcsControl.ReadersAgreeOnFullDatagrams | ground/openpilotgcs/src/plugins/gcscontrol/gcscontrolgadget.cpp:264-298 | The readers as written and corrected give the same outcome on traffic whose every datagram holds six values or more. |
| GcsControl.LastFrameWins | ground/openpilotgcs/src/plugins/gcscontrol/gcscontrolgadget.cpp:257-325 | When the last datagram is well framed with in-range values, both readers end with exactly those values in the command. |
| GcsControl.MalformedTrafficIgnored | ground/openpilotgcs/src/plugins/gcscontrol/gcscontrolgadget.cpp:257-325 | The corrected reader ignores traffic without a well-framed datagram. The reader as written ignores only traffic it rejects outright, which excludes datagrams cut short after the start marker. |
| GcsControl.EmptyDatagramZeroesCommand | ground/openpilotgcs/src/plugins/gcscontrol/gcscontrolgadget.cpp:252-299 | As written, an empty datagram turns a motor-off throttle of -1 into 0 and publishes it; the corrected parser rejects it. |
| GcsControl.ApplyDeadZone | ground/openpilotgcs/src/plugins/gcscontrol/gcscontrolgadget.cpp:431-440 | Readings within 0.15 × 32767 give 0. Readings beyond it keep their sign. Full deflection ±32767 maps to ±32767. |
| GcsControl.DeadZoneOdd | ground/openpilotgcs/src/plugins/gcscontrol/gcscontrolgadget.cpp:434-440 | The dead zone treats both directions alike. |
| GcsControl.DeadZoneRange | ground/openpilotgcs/src/plugins/gcscontrol/gcscontrolgadget.cpp:434-440 | Over [-32767, 32767] the result stays within full scale, while the reading -32768 goes beyond it. |
| GcsControl.AxesRead | ground/openpilotgcs/src/plugins/gcscontrol/gcscontrolgadget.cpp:452-458 | The reads always end with the trigger axes 4 and 5, and every axis read lies in 0..5. |
| GcsControl.FirstMissing | ground/openpilotgcs/src/plugins/gcscontrol/gcscontrolgadget.cpp:446-458 | A missing axis is reported exactly when one of the axes read is beyond the pad's count, and the reported one is among them. |
| GcsControl.StickOf | ground/openpilotgcs/src/plugins/gcscontrol/gcscontrolgadget.cpp:452-455 | A reading within the dead zone gives 0, one beyond it keeps its sign, full deflection ±32767 gives ±1, and readings within ±32767 stay within [-1, 1]. |
| GcsControl.Arrange | ground/openpilotgcs/src/plugins/gcscontrol/gcscontrolgadget.cpp:462-485 | Sticks are produced exactly for modes 1 to 4, and in-range values give in-range sticks. Read back through the mode's layout the sticks give roll, pitch and yaw unchanged and the throttle negated, taken from the triggers in mode 2. |
| GcsControl.AxesToSticks | ground/openpilotgcs/src/plugins/gcscontrol/gcscontrolgadget.cpp:452-485 | A full set of axes gives stick positions exactly for the known modes. Read back, each control is the dead-banded reading of its fixed axis when a channel is configured and 0 otherwise; the throttle is negated, and mode 2 takes it from the halved trigger difference. |
| Common.DivTrunc | ground/openpilotgcs/src/plugins/gcscontrol/gcscontrolgadget.cpp:458 | Integer division truncates toward zero, as in C: the quotient is never larger in magnitude than the exact one, and it is non-negative when the signs agree. |
| GcsControl.AxesValuesAsWritten | ground/openpilotgcs/src/plugins/gcscontrol/gcscontrolgadget.cpp:442-486 | As written the guard checks only the configured channels. A pad that passes it yet lacks an axis among those read is read out of range, at an index beyond its axis count. |
| GcsControl.AxesValues | ground/openpilotgcs/src/plugins/gcscontrol/gcscontrolgadget.cpp:442-486 | Corrected guard: a pad lacking a configured channel or any of axes 0..5 is ignored. Otherwise the rate-limit timer restarts once 50 ms have elapsed, and the sticks are sent then for the known modes. |
| GcsControl.FourAxisPadReadOutOfRange | ground/openpilotgcs/src/plugins/gcscontrol/gcscontrolgadget.cpp:446-458 | A four-axis pad configured on its four axes passes the guard as written and is read at axis 4. |
| GcsControl.AxesValuesAgree | ground/openpilotgcs/src/plugins/gcscontrol/gcscontrolgadget.cpp:442-486 | For a pad with six or more axes the corrected guard behaves exactly like the code as written. |
| GcsControl.AxesStayOnSticks | ground/openpilotgcs/src/plugins/gcscontrol/gcscontrolgadget.cpp:452-482 | Axis readings within ±32767 give stick positions within [-1, 1]. |
| GcsControl.ScaledAxisRange | ground/openpilotgcs/src/plugins/gcscontrol/gcscontrolgadget.cpp:452-455 | One dead-banded axis scaled to stick units stays in [-1, 1]. |
| GcsControl.TriggerRange | ground/openpilotgcs/src/plugins/gcscontrol/gcscontrolgadget.cpp:458 | The halved trigger difference scaled to stick units stays in [-1, 1]. |
| SdlGamepad.MapAxes | ground/openpilotgcs/src/libs/sdlgamepad/sdlgamepad.cpp:141-158 | Every result is a pad axis 0..9. Axes 4..9 map to themselves and anything unknown reads axis 4. |
| SdlGamepad.MapAxesPermutes | ground/openpilotgcs/src/libs/sdlgamepad/sdlgamepad.cpp:144-156 | On the ten known axes the map is a permutation, inverted in both directions by the reverse table. |
| SdlGamepad.MapButtons | ground/openpilotgcs/src/libs/sdlgamepad/sdlgamepad.cpp:183-203 | The range is {0..5, 8..14} for the thirteen named buttons, and 15 for exactly the unknown ones. |
| SdlGamepad.MapButtonsInjective | ground/openpilotgcs/src/libs/sdlgamepad/sdlgamepad.cpp:186-201 | No two named buttons share a pad button. |
| SdlGamepad.SetGamepad | ground/openpilotgcs/src/libs/sdlgamepad/sdlgamepad.cpp:101-132 | The current index is refused without change. Success comes exactly for a new index whose device opens with at least four axes, and records its index and counts. A refusal sets index, axes and buttons to -1. |
| SdlGamepad.SetGamepadConsistent | ground/openpilotgcs/src/libs/sdlgamepad/sdlgamepad.cpp:101-132 | Selection keeps the poller consistent: an accepted pad is open with four or more axes, and with none accepted the counts read -1. |
| SdlGamepad.RefusedPadStaysOpen | ground/openpilotgcs/src/libs/sdlgamepad/sdlgamepad.cpp:108-122 | A pad refused for too few axes keeps its handle open, with negative counts. |
| SdlGamepad.Init | ground/openpilotgcs/src/libs/sdlgamepad/sdlgamepad.cpp:66-88 | Start-up succeeds exactly when SDL starts, a joystick exists and joystick 0 is accepted. It then appends one released state per button and starts the loop. A consistent poller stays consistent, and a fresh one ends with one state per button. |
| SdlGamepad.DeadBand | ground/openpilotgcs/src/libs/sdlgamepad/sdlgamepad.cpp:170-172 | No result lies strictly inside the band except 0, readings outside pass unchanged, and any change is a reading inside the band set to 0. |
| SdlGamepad.DeadBandShape | ground/openpilotgcs/src/libs/sdlgamepad/sdlgamepad.cpp:170-172 | After the dead band no reading lies strictly inside it except 0, readings outside pass unchanged, and applying it twice changes nothing. |
| SdlGamepad.UpdateAxes | ground/openpilotgcs/src/libs/sdlgamepad/sdlgamepad.cpp:160-179 | With an open pad, exactly one dead-banded value per accepted axis is emitted, in axis order; without one, nothing is emitted. |
| SdlGamepad.UpdateButtons | ground/openpilotgcs/src/libs/sdlgamepad/sdlgamepad.cpp:205-225 | With an open pad the events are the changed buttons in order, and the stored states take the readings. The loop faults exactly when the stored states are fewer than the buttons, at the first index past them, after the events for the buttons before it. Without a pad nothing changes. |
| SdlGamepad.SwitchOutgrowsButtonStates | ground/openpilotgcs/src/libs/sdlgamepad/sdlgamepad.cpp:101-132 | The fault is reachable: switching a consistent poller to a new pad with more buttons keeps the old states, fewer than the new count. |
| SdlGamepad.Edges | ground/openpilotgcs/src/libs/sdlgamepad/sdlgamepad.cpp:210-223 | At most one event per button considered, each naming one of those buttons. |
| SdlGamepad.EdgesSound | ground/openpilotgcs/src/libs/sdlgamepad/sdlgamepad.cpp:210-223 | Every event names a button whose reading changed, with pressed meaning the reading is positive. Each button is reported at most once, in increasing order. |
| SdlGamepad.EdgesComplete | ground/openpilotgcs/src/libs/sdlgamepad/sdlgamepad.cpp:210-223 | Every button whose reading changed is reported. |
| SdlGamepad.SteadyButtonsQuiet | ground/openpilotgcs/src/libs/sdlgamepad/sdlgamepad.cpp:214-222 | Unchanged readings produce no events. |
| SdlGamepad.PollTwice | ground/openpilotgcs/src/libs/sdlgamepad/sdlgamepad.cpp:205-225 | With enough stored states, polling the same readings twice reports each change once: the first poll reports the changes and the second is silent. |
| MapContent.ClampLat | ground/openpilotgcs/src/plugins/monitor/mapcontent/mapcontent.cpp:543-547 | Latitude lands in [-90, 90], unchanged inside, pinned to the nearer pole outside. |
| MapContent.ClampLon | ground/openpilotgcs/src/plugins/monitor/mapcontent/mapcontent.cpp:549-553 | Longitude lands in [-180, 180], unchanged inside, pinned to the nearer end outside. |
| MapContent.SanitizeLat | ground/openpilotgcs/src/plugins/monitor/mapcontent/mapcontent.cpp:299-305 | A NaN latitude reads as 0; any other is clamped; the result is always a valid latitude. |
| MapContent.SanitizeLon | ground/openpilotgcs/src/plugins/monitor/mapcontent/mapcontent.cpp:307-313 | A NaN longitude reads as 0; any other is clamped; the result is always a valid longitude. |
| MapContent.SanitizeIsProjection | ground/openpilotgcs/src/plugins/monitor/mapcontent/mapcontent.cpp:299-313 | Sanitising is a projection onto valid coordinates: valid ones pass unchanged and sanitising twice changes nothing. |
| MapContent.GetUavPosition | ground/openpilotgcs/src/plugins/monitor/mapcontent/mapcontent.cpp:260-319 | At the NED origin the raw GPS fix, in 1e-7 degrees, is reported. Otherwise the converted position is sanitised to valid coordinates, with a NaN altitude read as 0. |
| MapContent.EstimatePassesThrough | ground/openpilotgcs/src/plugins/monitor/mapcontent/mapcontent.cpp:281-317 | A converted position that is NaN-free and valid reaches the map unchanged. |
| MapContent.GpsPathUnclamped | ground/openpilotgcs/src/plugins/monitor/mapcontent/mapcontent.cpp:271-279 | The raw-GPS path is not clamped: a sensor latitude of 100 degrees reaches the map as is. |
| MapContent.SetPosition | ground/openpilotgcs/src/plugins/monitor/mapcontent/mapcontent.cpp:532-556 | Without a map or with a NaN coordinate nothing changes. Otherwise the map is centred on the clamped point, latitude from y and longitude from x, and nothing else changes. |
| MapContent.SetHomePosition | ground/openpilotgcs/src/plugins/monitor/mapcontent/mapcontent.cpp:614-638 | The same conventions for the map's home marker; the content's recorded home position is untouched. |
| MapContent.ConfigurationPositionsAgree | ground/openpilotgcs/src/plugins/monitor/mapcontent/mapcontent.cpp:179-181 | Applying the configuration's point to both puts the map centre and the home marker at the same valid place. |
| MapContent.SetHomeAsWritten | ground/openpilotgcs/src/plugins/monitor/mapcontent/mapcontent.cpp:487-518 | As written a NaN coordinate is ignored. Otherwise the code faults exactly when there is no map, and it never moves the marker of an existing map. |
| MapContent.SetHome | ground/openpilotgcs/src/plugins/monitor/mapcontent/mapcontent.cpp:487-518 | Corrected: a NaN coordinate is ignored. Otherwise the clamped, valid home position and altitude are recorded, and an existing map's marker is moved there. Kind and zoom are untouched. |
| MapContent.HomeMarkerNotMoved | ground/openpilotgcs/src/plugins/monitor/mapcontent/mapcontent.cpp:510-517 | With a map, the code as written records the new home but leaves the marker elsewhere; the corrected version puts the marker on the home. |
| MapContent.SetHomeAgreesOnRecord | ground/openpilotgcs/src/plugins/monitor/mapcontent/mapcontent.cpp:510-511 | Whenever the code as written does not fault, both versions record the same home position. |
| MapContent.SetHomePoint | ground/openpilotgcs/src/plugins/monitor/mapcontent/mapcontent.cpp:467-485 | Corrected point overload: latitude from x, longitude from y, a NaN longitude read as 0, altitude 0, a NaN latitude ignored, and an existing map's marker moved to the home. |
| MapContent.SetHomePointAsWritten | ground/openpilotgcs/src/plugins/monitor/mapcontent/mapcontent.cpp:467-485 | As written: a NaN latitude changes nothing. Otherwise it faults exactly without a map, never moves the marker, and records the clamped home at altitude 0. |
| MapContent.SetHomePointAgreesOnRecord | ground/openpilotgcs/src/plugins/monitor/mapcontent/mapcontent.cpp:467-518 | Where the point overload as written does not fault, it records the same home as the corrected one. |
| MapContent.SwappedPointsAgree | ground/openpilotgcs/src/plugins/monitor/mapcontent/mapcontent.cpp:467-485 | With the coordinates swapped, the corrected point overload puts the home marker where `setPosition` centres the map. |
| MapContent.PointConventionsDiffer | ground/openpilotgcs/src/plugins/monitor/mapcontent/mapcontent.cpp:467-470 | The same point centres the map at one latitude and sets the home at another: the two point overloads use opposite axis conventions. |
| MapContent.GetUavYaw | ground/openpilotgcs/src/plugins/monitor/mapcontent/mapcontent.cpp:321-340 | The heading lies in [0, 360) and differs from the yaw by whole turns. It is the yaw itself when already in range, and 0 for NaN or without an object manager. |
| MapContent.GetModeButtons | ground/openpilotgcs/src/plugins/monitor/mapcontent/mapcontent.cpp:191-201 | Exactly the buttons of the two inactive follow modes are offered, and never the fourth or fifth. |
| MapContent.GetCursorButtons | ground/openpilotgcs/src/plugins/monitor/mapcontent/mapcontent.cpp:234-238 | All five cursor buttons are offered exactly in the free mode, none otherwise. |
| MapContent.SelectMode | ground/openpilotgcs/src/plugins/monitor/mapcontent/mapcontent.cpp:203-220 | The selected button's follow mode becomes active. The map is interactive exactly in the free mode, and its rotation is reset except in the rotating mode. Nothing else changes. |
| MapContent.ModeButtonsFollowSelection | ground/openpilotgcs/src/plugins/monitor/mapcontent/mapcontent.cpp:191-238 | After pressing a mode button it is no longer offered and the other two are. The cursor buttons appear exactly after choosing the free mode. |
| MapContent.DefaultZoom | ground/openpilotgcs/src/plugins/monitor/mapcontent/mapcontent.cpp:108-115 | The navigation map starts at zoom 15 and the satellite map at 19. |
| MapContent.ZoomIn | ground/openpilotgcs/src/plugins/monitor/mapcontent/mapcontent.cpp:222-224 | The zoom level rises by exactly one and the map shows it; nothing else changes. |
| MapContent.ZoomOut | ground/openpilotgcs/src/plugins/monitor/mapcontent/mapcontent.cpp:230-232 | The zoom level falls by exactly one and the map shows it; nothing else changes. |
| MapContent.ZoomReset | ground/openpilotgcs/src/plugins/monitor/mapcontent/mapcontent.cpp:226-228 | The zoom level returns to the default and the map shows it; nothing else changes. |
| MapContent.ZoomLaws | ground/openpilotgcs/src/plugins/monitor/mapcontent/mapcontent.cpp:222-232 | Zooming in and out are inverse, with no bound on the level. Reset is idempotent and forgets earlier zooming. |
| MonitorProvider.Init | ground/openpilotgcs/src/plugins/monitor/monitorcontentprovider.cpp:45-52 | The provider starts valid with no content created, used or held. |
| MonitorProvider.RemoveContent | ground/openpilotgcs/src/plugins/monitor/monitorcontentprovider.cpp:164-179 | Corrected: returns the monitor's content type and leaves the monitor showing nothing. A unique content is stopped and released; EMPTY and nothing leave the slot table alone. |
| MonitorProvider.RemoveContentAsWritten | ground/openpilotgcs/src/plugins/monitor/monitorcontentprovider.cpp:164-179 | As written, removal faults exactly when the monitor shows EMPTY, by indexing one past the content array; otherwise it is the corrected removal. |
| MonitorProvider.FreeContent | ground/openpilotgcs/src/plugins/monitor/monitorcontentprovider.cpp:186-203 | The content is stopped. The monitor that held it, if any, is returned and loses it, and the slot becomes free. Other slots are unchanged. |
| MonitorProvider.ApplyContent | ground/openpilotgcs/src/plugins/monitor/monitorcontentprovider.cpp:151-158 | The monitor shows the content, which becomes used, held by that monitor and started; other slots are unchanged. |
| MonitorProvider.Place | ground/openpilotgcs/src/plugins/monitor/monitorcontentprovider.cpp:90-145 | A content is created, and reported, exactly when EMPTY or a not-yet-existing unique content is requested. |
| MonitorProvider.SetContent | ground/openpilotgcs/src/plugins/monitor/monitorcontentprovider.cpp:70-146 | A missing monitor or an invalid type changes nothing and returns null. Otherwise the monitor ends up showing the requested type. A new content is returned exactly when EMPTY or a not-yet-existing unique content is requested. |
| MonitorProvider.PlaceShows | ground/openpilotgcs/src/plugins/monitor/monitorcontentprovider.cpp:94-140 | The requesting monitor always ends up showing the requested content, also when the old content is handed over. |
| MonitorProvider.SetContentAsWritten | ground/openpilotgcs/src/plugins/monitor/monitorcontentprovider.cpp:70-146 | As written, an accepted request faults exactly when the requesting monitor shows EMPTY; otherwise it is the corrected request. |
| MonitorProvider.EmptyMonitorFaults | ground/openpilotgcs/src/plugins/monitor/monitorcontentprovider.cpp:164-167 | Any request from a monitor that shows EMPTY faults as written, while the corrected version serves it. |
| MonitorProvider.SetContentValid | ground/openpilotgcs/src/plugins/monitor/monitorcontentprovider.cpp:70-146 | Every request preserves the invariant. A slot is used exactly when held, and its holder shows it. Every monitor showing a unique content is its holder, so no content is shown twice. A content runs exactly while used. |
| MonitorProvider.RemoveContentValid | ground/openpilotgcs/src/plugins/monitor/monitorcontentprovider.cpp:164-179 | Removal preserves the invariant and leaves the released unique content created and unused. |
| MonitorProvider.PlaceValid | ground/openpilotgcs/src/plugins/monitor/monitorcontentprovider.cpp:90-145 | Placing the new content and handing the old one over preserves the invariant. |
| MonitorProvider.FreeContentValid | ground/openpilotgcs/src/plugins/monitor/monitorcontentprovider.cpp:186-203 | Freeing preserves the invariant, leaves the content unused and its former holder showing nothing. |
| MonitorProvider.ApplyContentValid | ground/openpilotgcs/src/plugins/monitor/monitorcontentprovider.cpp:151-158 | Applying an unused content to a monitor that shows nothing preserves the invariant. |
| MonitorProvider.SetContentSwaps | ground/openpilotgcs/src/plugins/monitor/monitorcontentprovider.cpp:141-144 | Requesting a content another monitor shows swaps the two monitors' unique contents, and nothing is created. |
| MonitorProvider.SetContentTakesFromNonUnique | ground/openpilotgcs/src/plugins/monitor/monitorcontentprovider.cpp:141-144 | If the requester showed EMPTY or nothing, the monitor the content was taken from is left showing nothing. |
| MonitorProvider.SetContentLocal | ground/openpilotgcs/src/plugins/monitor/monitorcontentprovider.cpp:70-146 | Monitors other than the requester keep their content, unless they held the requested unique content. |
| MonitorProvider.EmptyNeverStored | ground/openpilotgcs/src/plugins/monitor/monitorcontentprovider.cpp:113-138 | A request for EMPTY creates a fresh content. It does not change which unique contents exist, and the monitor is recorded in no slot. |
| MonitorProvider.ReselectKeepsShown | ground/openpilotgcs/src/plugins/monitor/monitorcontentprovider.cpp:87-98 | Requesting the unique content a monitor already shows changes what no monitor shows and creates nothing. |

## Left out

- Hardware and driver plumbing is not modelled: the ADC, SPI, I2C and magnetometer drivers, interrupt masking, the busy waits on the ADC state, the timer start, and the LED toggles. Their readings are inputs.
- The `DUMP_RAW`, `DUMP_EKF` and `DUMP_FRIENDLY` debug paths of `ahrs.c` are compiled out in normal builds.
- The INS/GPS estimator maths, `Nav`, `RPY2Quaternion`, `atan2`, `sin`, `cos` and `pow` are not modelled. Estimator calls are recorded and its outputs are inputs. Trigonometry is supplied by the caller.
- Float rounding, infinities and single- versus double-precision differences are not modelled, because reals model floats. NaN is modelled only where the code tests for it.
- AhrsCalibration.Calibrate: the calibration loop services the link once per cycle (`ahrs.c:613`); the model runs the 250 cycles without those services and models the link service on its own, so it does not show what a request arriving mid-run does in the code. A MEASURE is lost, because `calibration_pending` is cleared after `calibrate_sensors` returns (`ahrs.c:285-286`). A SET is overwritten by the final divisions (`ahrs.c:615-634`); it also replaces the variance sums the loop accumulates in place and the scales later samples use. A RESET reboots the board mid-run.
- AhrsCalibration.Calibrate: a run that sees no magnetometer reading divides by `j == 0` in the code (`ahrs.c:621-623`, `ahrs.c:632-634`), storing NaN bias and variance. The model reports `NoMagnetometerSamples` instead, because reals have no NaN.
- AhrsCalibration.ApplyRun: on `NoMagnetometerSamples` the magnetometer keeps the zeroed bias and variance, where the code stores NaN.
- AhrsMain.AfterCalibration: inherits the zeroed magnetometer bias and variance of AhrsCalibration.ApplyRun after a run without magnetometer readings, where the code stores NaN.
- AhrsLink.HandleAttitudeRaw: the code also copies the raw ADC channels and temperatures into globals (`ahrs.c:814-823`). Only this reply reads them, so the model keeps them in the reply alone.
- The `GpsBaroCorrection` arm (`ahrs.c:351-355`) is unreachable: its guard repeats the enclosing test. `AhrsFusion.ApplyCorrection` proves it is never called.
- The serial-number content of the SERIAL reply and the payload of the NORTH request are inputs, because they come from the driver and the estimator.
- AhrsLink.LoadPercent, AhrsLink.UpdateReply: the load is proved within [0, 100] only when the idle and running counts do not wrap. A wrapped `uint32_t` sum can make the ratio exceed 100%, as in the code.
- The idle and running times in the UPDATE reply divide by `TIMER_RATE / 10000`. That value is an input (`ticksPer100us`), because the timer rate is a board constant outside the model.
- SdlGamepad.UpdateButtons, SdlGamepad.UpdateAxes, SdlGamepad.Init: the `qint8` loop counters in `sdlgamepad.cpp` are modelled as unbounded integers, because a counter past 127 overflows in the code, so a pad with more than 127 buttons or axes is not modelled as the code behaves.
- `NULL_RANGE` of the gamepad dead band is a parameter, because its value is defined outside the modelled file.
- The SDL calls themselves and the `run` thread loop are not modelled. Their results are inputs.
- `GCSControlGadget::buttonState` (button actions that step or toggle axes) and `gamepads` are not modelled. They concern UI button wiring; only their effect of locking an axis is modelled (`AxisLocked`).
- `loadConfiguration` and the UDP socket set-up are not modelled; the configuration is an input. `QDataStream` decoding is modelled as already-decoded doubles, and a partial trailing value is not modelled.
- The UAVObject getters, setters and metadata calls are modelled as plain record reads and writes.
- The failsafe manager and failsafe modes are not modelled. They are incomplete and not called by the receiver loop.
- `MapContent::updatePosition`, `homePositionUpdated`, `getGPSPositionSensor`, the constructor's widget set-up, and the map provider, cache and OpenGL setters are not modelled. They drive the map widget and the object manager, which are outside the model.
- `NED2LLA_HomeLLA` is supplied by the caller.
- `MapContent::moveUp`, `moveDown`, `moveLeft`, `moveRight` and `doReturn` have empty bodies, so there is nothing to model.
- `MonitorContentProvider::setConfiguration` and the destructor are not modelled. `setConfiguration` restarts every created content, including unused ones, so a content's timer could then run while no monitor shows it. The model's invariant ties running to use.
- The singleton instance, the message boxes and content object construction are not modelled. A created content is recorded by type.
- MapContent.ZoomIn, MapContent.ZoomOut: the bounds the map widget itself applies to a zoom level are not modelled, because they belong to the map widget library.
- GcsControl.Wrap, MapContent.GetUavYaw: the number of whole turns is a ghost output, so the congruence with the input is stated through a ghost value.

## Findings

| source | as written | input that shows it | evidently intended | confidence | as-written member | corrected member |
|---|---|---|---|---|---|---|
| ground/openpilotgcs/src/plugins/monitor/monitorcontentprovider.cpp:167 | `removeContent` calls `m_content[type]->stop()` for every type but INVALID, including EMPTY, which equals `MAX_CONTENT` and is one past the end of the array | a monitor showing EMPTY asks for any content, including EMPTY again | only a unique content is stopped; EMPTY content is just deleted | not executed | MonitorProvider.RemoveContentAsWritten, MonitorProvider.SetContentAsWritten, MonitorProvider.EmptyMonitorFaults | MonitorProvider.RemoveContent, MonitorProvider.SetContent |
| ground/openpilotgcs/src/plugins/monitor/mapcontent/mapcontent.cpp:513 | `if (!m_map)` guards the update of the map's home marker | a map exists and the home moves: the recorded home changes but the marker stays; with no map, the null map is dereferenced | `if (m_map)`: move the marker when there is a map | not executed | MapContent.SetHomeAsWritten, MapContent.SetHomePointAsWritten, MapContent.HomeMarkerNotMoved | MapContent.SetHome, MapContent.SetHomePoint |
| ground/openpilotgcs/src/plugins/gcscontrol/gcscontrolgadget.cpp:446-458 | the guard checks only the configured channel indices, but the reads use fixed axes 0..5 | a four-axis pad (the minimum the gamepad library accepts) with channels 0..3: the guard passes and axis 4 is read | ignore a pad that lacks any axis read | not executed | GcsControl.AxesValuesAsWritten, GcsControl.FourAxisPadReadOutOfRange | GcsControl.AxesValues |
| flight/AHRS/ahrs.c:791 | a calibration SET hands the estimator the magnetometer variance in sensor order | a SET with magnetometer variance (1, 2, 3): the estimator gets x variance 1, while start-up convergence with the same stored values gives it 2 | swap x and y into body order, as `converge_insgps` does at line 645 | not executed | AhrsLink.SetCalibrationCallsAsWritten, AhrsLink.HandleCalibration, AhrsLink.SetMagVarOrderDiffers | AhrsLink.SetCalibrationCalls |
| ground/openpilotgcs/src/plugins/gcscontrol/gcscontrolgadget.cpp:264-298 | the parser flags a datagram bad only on a wrong first value or a wrong or non-final sixth value, so one that ends early is accepted | an empty datagram, or one holding only 42: it is accepted and the carried-over values (zero at the start of a read) are applied, turning a motor-off throttle of -1 into 0 | accept only complete six-value frames | not executed | GcsControl.ParseDatagram, GcsControl.ReadUdpCommand, GcsControl.TruncatedDatagramAccepted, GcsControl.EmptyDatagramZeroesCommand | GcsControl.ParseFrame, GcsControl.ReadUdpCommandFramed |

=== FILE: ahrs_calibration.dfy ===
/** `calibrate_sensors` (flight/AHRS/ahrs.c): with the board stationary, average
    250 filtered samples to obtain each sensor's bias and (naive) variance. The
    magnetometer is sampled only when it has new data, and its statistics are
    taken over the `j` readings that actually arrived. */
module AhrsCalibration {
  import opened Common
  import opened AhrsTypes
  import opened AhrsDownsample

  /** Number of filtered samples the calibration averages. */
  const CalibrationCycles: nat := 250

  /** Running sums of values and of their squares. */
  datatype Acc = Acc(sum: Vec3, sq: Vec3)

  function AccStep(a: Acc, v: Vec3): Acc
  {
    Acc(Add3(a.sum, v), Add3(a.sq, Square3(v)))
  }

  function AccOf(xs: seq<Vec3>): Acc
  {
    if |xs| == 0 then Acc(Zero3, Zero3) else AccStep(AccOf(xs[..|xs| - 1]), xs[|xs| - 1])
  }

  /** The per-axis arithmetic mean. */
  function Mean(xs: seq<Vec3>): Vec3
    requires |xs| > 0
  {
    Div3(AccOf(xs).sum, |xs| as real)
  }

  /** The per-axis naive variance: mean of squares minus square of the mean. */
  function NaiveVariance(xs: seq<Vec3>): Vec3
    requires |xs| > 0
  {
    Sub3(Div3(AccOf(xs).sq, |xs| as real), Square3(Mean(xs)))
  }

  datatype CalError = NoMagnetometerSamples

  /** The outcome of one calibration run: new accel/gyro calibration, the
      magnetometer calibration or the error of having seen no magnetometer
      reading, and the last filtered sample and magnetometer reading, which
      stay in the firmware's globals. */
  datatype CalibrationRun = CalibrationRun(
    accel: Calibration,
    gyro: Calibration,
    mag: Result<Calibration, CalError>,
    magSamples: nat,
    lastSample: Sample,
    lastMagRaw: Option<Vec3>)

  /** The calibration in force while sampling: every bias and variance zeroed,
      the scales kept. */
  function Zeroed(c: Calibration): (z: Calibration)
    ensures z.scale == c.scale && z.bias == Zero3 && z.variance == Zero3
  {
    Calibration(Zero3, c.scale, Zero3)
  }

  ghost predicate ValidBlocks(blocks: seq<seq<seq<int>>>, f: Fir)
  {
    ValidFir(f) && forall i :: 0 <= i < |blocks| ==> ValidBlock(blocks[i], f)
  }

  /** The filtered samples the loop sees: each block downsampled with the
      zeroed calibration. */
  function Samples(blocks: seq<seq<seq<int>>>, f: Fir, cal: SensorCalibrations): (s: seq<Sample>)
    requires ValidBlocks(blocks, f)
    ensures |s| == |blocks|
  {
    seq(|blocks|, i requires 0 <= i < |blocks| =>
      Downsample(blocks[i], f, Zeroed(cal.accel), Zeroed(cal.gyro)))
  }

  function Accels(s: seq<Sample>): (xs: seq<Vec3>)
    ensures |xs| == |s| && forall i :: 0 <= i < |s| ==> xs[i] == s[i].accel
  {
    seq(|s|, i requires 0 <= i < |s| => s[i].accel)
  }

  function Gyros(s: seq<Sample>): (xs: seq<Vec3>)
    ensures |xs| == |s| && forall i :: 0 <= i < |s| ==> xs[i] == s[i].gyro
  {
    seq(|s|, i requires 0 <= i < |s| => s[i].gyro)
  }

  /** The magnetometer readings that arrived, scaled with zero bias. */
  function MagReadings(mags: seq<Option<Vec3>>, scale: Vec3): seq<Vec3>
  {
    if |mags| == 0 then []
    else
      var prefix := MagReadings(mags[..|mags| - 1], scale);
      match mags[|mags| - 1]
      case None => prefix
      case Some(raw) => prefix + [Mul3(raw, scale)]
  }

  /** The most recent fresh reading among the polls, if any: the value the
      magnetometer registers hold once the polls are over. */
  function LastReading(mags: seq<Option<Vec3>>): (r: Option<Vec3>)
    ensures r.None? <==> forall k :: 0 <= k < |mags| ==> mags[k].None?
  {
    if |mags| == 0 then None
    else if mags[|mags| - 1].Some? then mags[|mags| - 1]
    else LastReading(mags[..|mags| - 1])
  }

  /** The reading kept is a fresh one with no fresh reading after it. */
  lemma {:induction false} LastReadingIsLatest(mags: seq<Option<Vec3>>)
    requires LastReading(mags).Some?
    ensures exists k :: 0 <= k < |mags| && mags[k] == LastReading(mags) && forall l :: k < l < |mags| ==> mags[l].None?
  {
    var n := |mags| - 1;
    if mags[n].None? {
      var earlier := mags[..n];
      LastReadingIsLatest(earlier);
      var k :| 0 <= k < n && earlier[k] == LastReading(earlier) && forall l :: k < l < n ==> earlier[l].None?;
      assert mags[k] == LastReading(mags);
      assert forall l :: k < l < |mags| ==> mags[l].None? by {
        forall l | k < l < |mags|
          ensures mags[l].None?
        {
          if l < n {
            assert mags[l] == earlier[l];
          }
        }
      }
    }
  }

  /** A fresh reading replaces the last one; a missed poll keeps it. */
  lemma LastReadingStep(mags: seq<Option<Vec3>>, i: nat)
    requires i < |mags|
    ensures LastReading(mags[..i + 1]) == if mags[i].Some? then mags[i] else LastReading(mags[..i])
  {
    assert mags[..i + 1][..i] == mags[..i];
  }

  /** The registers a run leaves behind hold the reading the magnetometer
      mean took last: it exists exactly when some reading was averaged. */
  lemma {:induction false} LastReadingIsLastSample(mags: seq<Option<Vec3>>, scale: Vec3)
    ensures LastReading(mags).Some? <==> |MagReadings(mags, scale)| > 0
    ensures LastReading(mags).Some? ==>
      MagReadings(mags, scale)[|MagReadings(mags, scale)| - 1] == Mul3(LastReading(mags).value, scale)
  {
    if |mags| > 0 && mags[|mags| - 1].None? {
      LastReadingIsLastSample(mags[..|mags| - 1], scale);
    }
  }

  lemma SamplesStep(s: seq<Sample>, i: nat)
    requires i < |s|
    ensures AccOf(Accels(s[..i + 1])) == AccStep(AccOf(Accels(s[..i])), s[i].accel)
    ensures AccOf(Gyros(s[..i + 1])) == AccStep(AccOf(Gyros(s[..i])), s[i].gyro)
  {
    assert Accels(s[..i + 1])[..i] == Accels(s[..i]);
    assert Gyros(s[..i + 1])[..i] == Gyros(s[..i]);
  }

  lemma MagStep(mags: seq<Option<Vec3>>, i: nat, scale: Vec3)
    requires i < |mags|
    ensures var before := MagReadings(mags[..i], scale);
      var after := MagReadings(mags[..i + 1], scale);
      && (mags[i].None? ==> after == before)
      && (mags[i].Some? ==> after == before + [Mul3(mags[i].value, scale)]
                            && AccOf(after) == AccStep(AccOf(before), Mul3(mags[i].value, scale)))
  {
    assert mags[..i + 1][..i] == mags[..i];
    var after := MagReadings(mags[..i + 1], scale);
    if mags[i].Some? {
      assert after[..|after| - 1] == MagReadings(mags[..i], scale);
    }
  }

  /** The statistics of one sensor from its accumulated sums over `n` samples. */
  function Finish(a: Acc, n: nat, scale: Vec3): (c: Calibration)
    requires n > 0
  {
    var bias := Div3(a.sum, n as real);
    Calibration(bias, scale, Sub3(Div3(a.sq, n as real), Square3(bias)))
  }

  /** One cycle of the accelerometer and gyro accumulation. */
  method SampleCycle(cal: SensorCalibrations, f: Fir, blocks: seq<seq<seq<int>>>, ghost s: seq<Sample>, i: nat,
                     accelAcc: Acc, gyroAcc: Acc)
    returns (accelAcc': Acc, gyroAcc': Acc, last: Sample)
    requires ValidBlocks(blocks, f) && s == Samples(blocks, f, cal) && i < |blocks|
    requires accelAcc == AccOf(Accels(s[..i])) && gyroAcc == AccOf(Gyros(s[..i]))
    ensures accelAcc' == AccOf(Accels(s[..i + 1])) && gyroAcc' == AccOf(Gyros(s[..i + 1]))
    ensures last == s[i]
  {
    last := DownsampleBlock(blocks[i], f, Zeroed(cal.accel), Zeroed(cal.gyro));
    SamplesStep(s, i);
    accelAcc' := AccStep(accelAcc, last.accel);
    gyroAcc' := AccStep(gyroAcc, last.gyro);
  }

  /** One cycle of the magnetometer accumulation: only a fresh reading counts. */
  method MagCycle(mags: seq<Option<Vec3>>, i: nat, scale: Vec3, magAcc: Acc, j: nat, lastMag: Option<Vec3>)
    returns (magAcc': Acc, j': nat, lastMag': Option<Vec3>)
    requires i < |mags|
    requires magAcc == AccOf(MagReadings(mags[..i], scale)) && j == |MagReadings(mags[..i], scale)|
    requires lastMag.Some? <==> exists k :: 0 <= k < i && mags[k].Some?
    requires lastMag == LastReading(mags[..i])
    ensures magAcc' == AccOf(MagReadings(mags[..i + 1], scale)) && j' == |MagReadings(mags[..i + 1], scale)|
    ensures lastMag'.Some? <==> exists k :: 0 <= k < i + 1 && mags[k].Some?
    ensures lastMag' == LastReading(mags[..i + 1])
  {
    MagStep(mags, i, scale);
    LastReadingStep(mags, i);
    magAcc', j', lastMag' := magAcc, j, lastMag;
    if mags[i].Some? {
      magAcc' := AccStep(magAcc, Mul3(mags[i].value, scale));
      j' := j + 1;
      lastMag' := mags[i];
    }
  }

  /** The final divisions of the running sums give the mean and the naive
      variance of the samples, with the scale kept. */
  lemma FinishIsStats(xs: seq<Vec3>, scale: Vec3)
    requires |xs| > 0
    ensures Finish(AccOf(xs), |xs|, scale) == Calibration(Mean(xs), scale, NaiveVariance(xs))
  {
  }

  /** `calibrate_sensors`: `blocks[i]` is the ADC block of cycle `i` and
      `mags[i]` the magnetometer registers if the chip had new data in that cycle. */
  method Calibrate(cal: SensorCalibrations, f: Fir, blocks: seq<seq<seq<int>>>, mags: seq<Option<Vec3>>)
    returns (run: CalibrationRun)
    requires |blocks| == CalibrationCycles && |mags| == CalibrationCycles
    requires ValidBlocks(blocks, f)
    ensures var s := Samples(blocks, f, cal);
      && run.accel == Calibration(Mean(Accels(s)), cal.accel.scale, NaiveVariance(Accels(s)))
      && run.gyro == Calibration(Mean(Gyros(s)), cal.gyro.scale, NaiveVariance(Gyros(s)))
      && run.lastSample == s[CalibrationCycles - 1]
    ensures var m := MagReadings(mags, cal.mag.scale);
      && run.magSamples == |m|
      && (|m| == 0 <==> run.mag.Failure?)
      && (|m| > 0 ==> run.mag == Success(Calibration(Mean(m), cal.mag.scale, NaiveVariance(m))))
    ensures run.lastMagRaw.Some? <==> exists i :: 0 <= i < |mags| && mags[i].Some?
    ensures run.lastMagRaw == LastReading(mags)
  {
    ghost var s := Samples(blocks, f, cal);
    var accelAcc := Acc(Zero3, Zero3);
    var gyroAcc := Acc(Zero3, Zero3);
    var magAcc := Acc(Zero3, Zero3);
    var j: nat := 0;
    var last := Sample(Zero3, Zero3);
    var lastMag: Option<Vec3> := None;
    var i := 0;
    while i < CalibrationCycles
      invariant 0 <= i <= CalibrationCycles
      invariant accelAcc == AccOf(Accels(s[..i]))
      invariant gyroAcc == AccOf(Gyros(s[..i]))
      invariant magAcc == AccOf(MagReadings(mags[..i], cal.mag.scale))
      invariant j == |MagReadings(mags[..i], cal.mag.scale)|
      invariant i > 0 ==> last == s[i - 1]
      invariant lastMag.Some? <==> exists k :: 0 <= k < i && mags[k].Some?
      invariant lastMag == LastReading(mags[..i])
    {
      accelAcc, gyroAcc, last := SampleCycle(cal, f, blocks, s, i, accelAcc, gyroAcc);
      magAcc, j, lastMag := MagCycle(mags, i, cal.mag.scale, magAcc, j, lastMag);
      i := i + 1;
    }
    assert s[..CalibrationCycles] == s;
    assert mags[..CalibrationCycles] == mags;
    assert lastMag == LastReading(mags);
    FinishIsStats(Accels(s), cal.accel.scale);
    FinishIsStats(Gyros(s), cal.gyro.scale);
    if j > 0 {
      FinishIsStats(MagReadings(mags, cal.mag.scale), cal.mag.scale);
    }
    var accel := Finish(accelAcc, CalibrationCycles, cal.accel.scale);
    var gyro := Finish(gyroAcc, CalibrationCycles, cal.gyro.scale);
    var mag: Result<Calibration, CalError>;
    if j == 0 {
      mag := Failure(NoMagnetometerSamples);
    } else {
      mag := Success(Finish(magAcc, j, cal.mag.scale));
    }
    run := CalibrationRun(accel, gyro, mag, j, last, lastMag);
  }

  /** The calibration left in the globals after a run. Where the firmware
      divides by `j == 0` and stores NaN, the model keeps the zeroed bias and
      variance and the run reports the error instead. */
  function ApplyRun(cal: SensorCalibrations, run: CalibrationRun): (c: SensorCalibrations)
    ensures c.accel == run.accel && c.gyro == run.gyro
    ensures run.mag.Success? ==> c.mag == run.mag.value
    ensures run.mag.Failure? ==> c.mag == Zeroed(cal.mag)
  {
    SensorCalibrations(run.accel, run.gyro,
      match run.mag
      case Success(m) => m
      case Failure(_) => Zeroed(cal.mag))
  }

  /** The sums of `n` copies of `v`. */
  function Repeated(n: nat, v: Vec3): Acc
  {
    if n == 0 then Acc(Zero3, Zero3) else AccStep(Repeated(n - 1, v), v)
  }

  lemma {:induction false} ConstantAcc(xs: seq<Vec3>, v: Vec3)
    requires forall i :: 0 <= i < |xs| ==> xs[i] == v
    ensures AccOf(xs) == Repeated(|xs|, v)
  {
    if |xs| > 0 {
      ConstantAcc(xs[..|xs| - 1], v);
    }
  }

  /** `n` times `v`, per axis. */
  function Times3(n: nat, v: Vec3): Vec3
  {
    Vec3(n as real * v.x, n as real * v.y, n as real * v.z)
  }

  lemma {:induction false} RepeatedSums(n: nat, v: Vec3)
    ensures Repeated(n, v) == Acc(Times3(n, v), Times3(n, Square3(v)))
  {
    if n > 0 {
      RepeatedSums(n - 1, v);
      OneMore(n - 1, v);
      OneMore(n - 1, Square3(v));
    }
  }

  lemma OneMore(m: nat, v: Vec3)
    ensures Add3(Times3(m, v), v) == Times3(m + 1, v)
  {
    var r := m as real;
    assert r * v.x + v.x == (r + 1.0) * v.x;
    assert r * v.y + v.y == (r + 1.0) * v.y;
    assert r * v.z + v.z == (r + 1.0) * v.z;
  }

  /** A stationary, noise-free sensor calibrates to bias `v` and variance 0. */
  lemma ConstantInputCalibration(xs: seq<Vec3>, v: Vec3)
    requires |xs| > 0
    requires forall i :: 0 <= i < |xs| ==> xs[i] == v
    ensures Mean(xs) == v
    ensures NaiveVariance(xs) == Zero3
  {
    ConstantAcc(xs, v);
    RepeatedSums(|xs|, v);
    ConstantMoments(AccOf(xs), |xs|, v);
  }

  /** The moments of `n` copies of `v`: mean `v`, naive variance zero. */
  lemma ConstantMoments(acc: Acc, n: nat, v: Vec3)
    requires n > 0 && acc == Acc(Times3(n, v), Times3(n, Square3(v)))
    ensures Div3(acc.sum, n as real) == v
    ensures Sub3(Div3(acc.sq, n as real), Square3(Div3(acc.sum, n as real))) == Zero3
  {
    ScaleBack(n, v);
    ScaleBack(n, Square3(v));
  }

  /** Dividing `n` copies of a vector by `n` gives it back. */
  lemma ScaleBack(n: nat, v: Vec3)
    requires n > 0
    ensures Div3(Times3(n, v), n as real) == v
  {
    var r := n as real;
    assert r * v.x / r == v.x;
    assert r * v.y / r == v.y;
    assert r * v.z / r == v.z;
  }

  /** A block whose accelerometer and gyro channels are constant yields a
      constant filtered sample under the boxcar set-up. */
  lemma ConstantBlocksCalibrate(cal: SensorCalibrations, blocks: seq<seq<seq<int>>>, k: nat, v: seq<int>)
    requires 1 <= k < FirCapacity && |blocks| > 0 && ValidBlocks(blocks, Boxcar(k))
    requires |v| == 6
    requires forall b, i, ch :: 0 <= b < |blocks| && 0 <= i < k && 0 <= ch < 6 ==> blocks[b][i][ch] == v[ch]
    ensures var s := Samples(blocks, Boxcar(k), cal);
      var a := Vec3(v[2] as real * cal.accel.scale.x, v[0] as real * cal.accel.scale.y, v[4] as real * cal.accel.scale.z);
      && Mean(Accels(s)) == a && NaiveVariance(Accels(s)) == Zero3
  {
    var s := Samples(blocks, Boxcar(k), cal);
    var a := Vec3(v[2] as real * cal.accel.scale.x, v[0] as real * cal.accel.scale.y, v[4] as real * cal.accel.scale.z);
    forall b | 0 <= b < |blocks| ensures Accels(s)[b] == a {
      BoxcarConstantBlock(blocks[b], k, 2, v[2], cal.accel.scale.x, 0.0);
      BoxcarConstantBlock(blocks[b], k, 0, v[0], cal.accel.scale.y, 0.0);
      BoxcarConstantBlock(blocks[b], k, 4, v[4], cal.accel.scale.z, 0.0);
    }
    ConstantInputCalibration(Accels(s), a);
  }
}

=== FILE: ahrs_downsample.dfy ===
/** `downsample_data` (flight/AHRS/ahrs.c): the decimation filter that turns one
    oversampled ADC block into one filtered accelerometer and gyro sample.

    The firmware's buffer interleaves PIOS_ADC_NUM_PINS channels: sample `i` of
    channel `c` is `valid_data_buffer[c + i * PIOS_ADC_NUM_PINS]`. The model
    holds the same data as a sequence of frames, `frames[i][c]`. Channels 0/2/4 are accel y/x/z and
    1/3/5 gyro x/y/z; 6 and 7 are the gyro temperature pair. */
module AhrsDownsample {
  import opened Common
  import opened AhrsTypes

  /** Capacity of `fir_coeffs`. */
  const FirCapacity: nat := 50

  /** Channels per frame that the model reads (PIOS_ADC_NUM_PINS is at least this). */
  const ChannelCount: nat := 8

  /** The oversampling factor the firmware is built with (`adc_oversampling`). */
  const Oversampling: nat := 25

  /** `fir_coeffs` together with the oversampling factor `k`: taps
      `coeffs[0..k)` and the normaliser `coeffs[k]`. */
  datatype Fir = Fir(coeffs: seq<int>, k: nat)

  ghost predicate ValidFir(f: Fir)
  {
    |f.coeffs| == FirCapacity && f.k < FirCapacity && f.coeffs[f.k] != 0
  }

  /** The block holds at least `k` complete frames, each with every channel. */
  ghost predicate ValidBlock(frames: seq<seq<int>>, f: Fir)
  {
    1 <= f.k <= |frames| && forall i :: 0 <= i < |frames| ==> |frames[i]| >= ChannelCount
  }

  /** The set-up `main` performs: unit taps and normaliser `k` (a boxcar);
      entries past `k` keep their zero initialisation. */
  function Boxcar(k: nat): (f: Fir)
    requires 1 <= k < FirCapacity
    ensures ValidFir(f) && f.k == k
    ensures forall i :: 0 <= i < k ==> f.coeffs[i] == 1
    ensures f.coeffs[k] == k
  {
    Fir(seq(FirCapacity, i => if i < k then 1 else if i == k then k else 0), k)
  }

  /** Sum over the first `n` frames of `frames[i][ch] * coeffs[i]`. */
  function FirSum(frames: seq<seq<int>>, coeffs: seq<int>, ch: nat, n: nat): int
    requires n <= |frames| && n <= |coeffs|
    requires forall i :: 0 <= i < n ==> ch < |frames[i]|
  {
    if n == 0 then 0
    else FirSum(frames, coeffs, ch, n - 1) + frames[n - 1][ch] * coeffs[n - 1]
  }

  /** The samples of channel `ch` in the first `n` frames, an independent
      reference for the boxcar property. */
  function ChannelSamples(frames: seq<seq<int>>, ch: nat, n: nat): (xs: seq<int>)
    requires n <= |frames|
    requires forall i :: 0 <= i < n ==> ch < |frames[i]|
    ensures |xs| == n
    ensures forall i :: 0 <= i < n ==> xs[i] == frames[i][ch]
  {
    seq(n, i requires 0 <= i < n => frames[i][ch])
  }

  function SumInts(xs: seq<int>): int
  {
    if |xs| == 0 then 0 else SumInts(xs[..|xs| - 1]) + xs[|xs| - 1]
  }

  /** The decimated channel before calibration: the weighted sum divided by
      the normaliser. */
  function Decimate(frames: seq<seq<int>>, f: Fir, ch: nat): real
    requires ValidFir(f) && ValidBlock(frames, f) && ch < ChannelCount
  {
    FirSum(frames, f.coeffs, ch, f.k) as real / f.coeffs[f.k] as real
  }

  /** One filtered axis: `decimated * scale + bias`. */
  function FilterAxis(frames: seq<seq<int>>, f: Fir, ch: nat, scale: real, bias: real): real
    requires ValidFir(f) && ValidBlock(frames, f) && ch < ChannelCount
  {
    Scaled(FirSum(frames, f.coeffs, ch, f.k), f.coeffs[f.k] as real, scale, bias)
  }

  /** The taps sum to the normaliser: the filter passes a constant signal unchanged. */
  ghost predicate UnitDcGain(f: Fir)
    requires ValidFir(f)
  {
    SumInts(f.coeffs[..f.k]) == f.coeffs[f.k]
  }

  /** Every channel holds one value throughout the first `k` frames. */
  ghost predicate SteadyBlock(frames: seq<seq<int>>, k: nat)
    requires k <= |frames| && forall i :: 0 <= i < |frames| ==> |frames[i]| >= ChannelCount
  {
    forall i, c :: 0 <= i < k && 0 <= c < ChannelCount ==> frames[i][c] == frames[0][c]
  }

  /** `downsample_data`, with the fixed channel wiring: accelerometer x, y, z
      on channels 2, 0, 4 and gyro x, y, z on 1, 3, 5. A filter of unit DC
      gain turns a steady block into the calibrated reading of its channels. */
  function Downsample(frames: seq<seq<int>>, f: Fir, accel: Calibration, gyro: Calibration): (s: Sample)
    requires ValidFir(f) && ValidBlock(frames, f)
    ensures UnitDcGain(f) && SteadyBlock(frames, f.k) ==>
      var v := frames[0];
      s == Sample(
        Vec3(v[2] as real * accel.scale.x + accel.bias.x,
             v[0] as real * accel.scale.y + accel.bias.y,
             v[4] as real * accel.scale.z + accel.bias.z),
        Vec3(v[1] as real * gyro.scale.x + gyro.bias.x,
             v[3] as real * gyro.scale.y + gyro.bias.y,
             v[5] as real * gyro.scale.z + gyro.bias.z))
  {
    SteadyChannels(frames, f, accel, gyro);
    Sample(
      Vec3(FilterAxis(frames, f, 2, accel.scale.x, accel.bias.x),
           FilterAxis(frames, f, 0, accel.scale.y, accel.bias.y),
           FilterAxis(frames, f, 4, accel.scale.z, accel.bias.z)),
      Vec3(FilterAxis(frames, f, 1, gyro.scale.x, gyro.bias.x),
           FilterAxis(frames, f, 3, gyro.scale.y, gyro.bias.y),
           FilterAxis(frames, f, 5, gyro.scale.z, gyro.bias.z)))
  }

  /** The accumulation loop of `downsample_data` for one channel. */
  method AccumulateChannel(frames: seq<seq<int>>, f: Fir, ch: nat) returns (acc: int)
    requires ValidFir(f) && ValidBlock(frames, f) && ch < ChannelCount
    ensures acc == FirSum(frames, f.coeffs, ch, f.k)
  {
    acc := 0;
    var i: nat := 0;
    while i < f.k
      invariant i <= f.k
      invariant acc == FirSum(frames, f.coeffs, ch, i)
    {
      acc := acc + frames[i][ch] * f.coeffs[i];
      i := i + 1;
    }
  }

  /** The whole filter, computed channel by channel as the firmware does. */
  method DownsampleBlock(frames: seq<seq<int>>, f: Fir, accel: Calibration, gyro: Calibration)
    returns (s: Sample)
    requires ValidFir(f) && ValidBlock(frames, f)
    ensures s == Downsample(frames, f, accel, gyro)
  {
    var ay := AccumulateChannel(frames, f, 0);
    var ax := AccumulateChannel(frames, f, 2);
    var az := AccumulateChannel(frames, f, 4);
    var gx := AccumulateChannel(frames, f, 1);
    var gy := AccumulateChannel(frames, f, 3);
    var gz := AccumulateChannel(frames, f, 5);
    var norm := f.coeffs[f.k] as real;
    s := Sample(
      Vec3(Scaled(ax, norm, accel.scale.x, accel.bias.x),
           Scaled(ay, norm, accel.scale.y, accel.bias.y),
           Scaled(az, norm, accel.scale.z, accel.bias.z)),
      Vec3(Scaled(gx, norm, gyro.scale.x, gyro.bias.x),
           Scaled(gy, norm, gyro.scale.y, gyro.bias.y),
           Scaled(gz, norm, gyro.scale.z, gyro.bias.z)));
  }

  function Scaled(acc: int, norm: real, scale: real, bias: real): real
    requires norm != 0.0
  {
    acc as real / norm * scale + bias
  }

  /** With unit taps the weighted sum is the plain sum of the channel's samples. */
  lemma {:induction false} UnitTapsSum(frames: seq<seq<int>>, coeffs: seq<int>, ch: nat, n: nat)
    requires n <= |frames| && n <= |coeffs|
    requires forall i :: 0 <= i < n ==> ch < |frames[i]|
    requires forall i :: 0 <= i < n ==> coeffs[i] == 1
    ensures FirSum(frames, coeffs, ch, n) == SumInts(ChannelSamples(frames, ch, n))
  {
    if n > 0 {
      UnitTapsSum(frames, coeffs, ch, n - 1);
      var xs := ChannelSamples(frames, ch, n);
      assert xs[..n - 1] == ChannelSamples(frames, ch, n - 1);
    }
  }

  /** The boxcar set-up turns every axis into `mean * scale + bias`. */
  lemma BoxcarIsMean(frames: seq<seq<int>>, k: nat, ch: nat, scale: real, bias: real)
    requires 1 <= k < FirCapacity && ch < ChannelCount && ValidBlock(frames, Boxcar(k))
    ensures FilterAxis(frames, Boxcar(k), ch, scale, bias)
         == (SumInts(ChannelSamples(frames, ch, k)) as real / k as real) * scale + bias
  {
    UnitTapsSum(frames, Boxcar(k).coeffs, ch, k);
  }

  lemma {:induction false} ConstantSum(xs: seq<int>, v: int)
    requires forall i :: 0 <= i < |xs| ==> xs[i] == v
    ensures SumInts(xs) == |xs| * v
  {
    if |xs| > 0 {
      ConstantSum(xs[..|xs| - 1], v);
    }
  }

  /** A block whose channel holds the constant `v` filters to `v * scale + bias`
      under the boxcar set-up. */
  lemma BoxcarConstantBlock(frames: seq<seq<int>>, k: nat, ch: nat, v: int, scale: real, bias: real)
    requires 1 <= k < FirCapacity && ch < ChannelCount && ValidBlock(frames, Boxcar(k))
    requires forall i :: 0 <= i < k ==> frames[i][ch] == v
    ensures FilterAxis(frames, Boxcar(k), ch, scale, bias) == v as real * scale + bias
  {
    BoxcarIsMean(frames, k, ch, scale, bias);
    ConstantSum(ChannelSamples(frames, ch, k), v);
    MulDivCancel(k, v);
  }

  lemma MulDivCancel(k: nat, v: int)
    requires k > 0
    ensures (k * v) as real / k as real == v as real
  {
  }

  /** A weighted sum over a channel that is constant: the value times the sum of the taps. */
  lemma {:induction false} ConstantFirSum(frames: seq<seq<int>>, coeffs: seq<int>, ch: nat, n: nat, v: int)
    requires n <= |frames| && n <= |coeffs|
    requires forall i :: 0 <= i < n ==> ch < |frames[i]| && frames[i][ch] == v
    ensures FirSum(frames, coeffs, ch, n) == v * SumInts(coeffs[..n])
  {
    if n > 0 {
      ConstantFirSum(frames, coeffs, ch, n - 1, v);
      assert coeffs[..n][..n - 1] == coeffs[..n - 1];
    }
  }

  /** One axis of a steady block under a unit-gain filter. */
  lemma SteadyAxis(frames: seq<seq<int>>, f: Fir, ch: nat, scale: real, bias: real)
    requires ValidFir(f) && ValidBlock(frames, f) && ch < ChannelCount
    requires UnitDcGain(f) && SteadyBlock(frames, f.k)
    ensures FilterAxis(frames, f, ch, scale, bias) == frames[0][ch] as real * scale + bias
  {
    var v := frames[0][ch];
    ConstantFirSum(frames, f.coeffs, ch, f.k, v);
    MulDivCancelBy(f.coeffs[f.k], v);
  }

  /** Every axis of a steady block, when the filter has unit DC gain,
      decimates to the calibrated steady value of its channel. */
  lemma SteadyChannels(frames: seq<seq<int>>, f: Fir, accel: Calibration, gyro: Calibration)
    requires ValidFir(f) && ValidBlock(frames, f)
    ensures UnitDcGain(f) && SteadyBlock(frames, f.k) ==>
      && FilterAxis(frames, f, 2, accel.scale.x, accel.bias.x) == frames[0][2] as real * accel.scale.x + accel.bias.x
      && FilterAxis(frames, f, 0, accel.scale.y, accel.bias.y) == frames[0][0] as real * accel.scale.y + accel.bias.y
      && FilterAxis(frames, f, 4, accel.scale.z, accel.bias.z) == frames[0][4] as real * accel.scale.z + accel.bias.z
      && FilterAxis(frames, f, 1, gyro.scale.x, gyro.bias.x) == frames[0][1] as real * gyro.scale.x + gyro.bias.x
      && FilterAxis(frames, f, 3, gyro.scale.y, gyro.bias.y) == frames[0][3] as real * gyro.scale.y + gyro.bias.y
      && FilterAxis(frames, f, 5, gyro.scale.z, gyro.bias.z) == frames[0][5] as real * gyro.scale.z + gyro.bias.z
  {
    if UnitDcGain(f) && SteadyBlock(frames, f.k) {
      SteadyAxis(frames, f, 2, accel.scale.x, accel.bias.x);
      SteadyAxis(frames, f, 0, accel.scale.y, accel.bias.y);
      SteadyAxis(frames, f, 4, accel.scale.z, accel.bias.z);
      SteadyAxis(frames, f, 1, gyro.scale.x, gyro.bias.x);
      SteadyAxis(frames, f, 3, gyro.scale.y, gyro.bias.y);
      SteadyAxis(frames, f, 5, gyro.scale.z, gyro.bias.z);
    }
  }

  lemma MulDivCancelBy(d: int, v: int)
    requires d != 0
    ensures (v * d) as real / d as real == v as real
  {
  }

  /** The boxcar set-up `main` uses has unit DC gain. */
  lemma BoxcarUnitGain(k: nat)
    requires 1 <= k < FirCapacity
    ensures UnitDcGain(Boxcar(k))
  {
    var f := Boxcar(k);
    ConstantSum(f.coeffs[..k], 1);
  }

  /** The firmware's `valid_data_buffer`: the frames of a block laid end to
      end, each holding `pins` (PIOS_ADC_NUM_PINS) channels. */
  function Flatten(frames: seq<seq<int>>, pins: nat): (buf: seq<int>)
    requires forall i :: 0 <= i < |frames| ==> |frames[i]| == pins
    ensures |buf| == |frames| * pins
  {
    if |frames| == 0 then []
    else
      var n := |frames|;
      assert (n - 1) * pins + pins == n * pins;
      Flatten(frames[..n - 1], pins) + frames[n - 1]
  }

  /** Entry `c + i * pins` of the flat buffer is channel `c` of frame `i`. */
  lemma {:induction false} FlattenIndex(frames: seq<seq<int>>, pins: nat, i: nat, c: nat)
    requires forall j :: 0 <= j < |frames| ==> |frames[j]| == pins
    requires i < |frames| && c < pins
    ensures c + i * pins < |frames| * pins
    ensures Flatten(frames, pins)[c + i * pins] == frames[i][c]
  {
    var n := |frames|;
    var pre := frames[..n - 1];
    assert Flatten(frames, pins) == Flatten(pre, pins) + frames[n - 1];
    if i < n - 1 {
      FlattenIndex(pre, pins, i, c);
      assert c + i * pins < (n - 1) * pins;
      assert pre[i] == frames[i];
    } else {
      assert c + i * pins == (n - 1) * pins + c;
    }
  }

  /** The accumulation of `downsample_data` as the firmware indexes it:
      `buf[ch + i * pins] * coeffs[i]` over the first `n` samples. */
  function FlatSum(buf: seq<int>, coeffs: seq<int>, ch: nat, pins: nat, n: nat): int
    requires ch < pins && n * pins <= |buf| && n <= |coeffs|
  {
    if n == 0 then 0
    else
      assert (n - 1) * pins + pins == n * pins;
      FlatSum(buf, coeffs, ch, pins, n - 1) + buf[ch + (n - 1) * pins] * coeffs[n - 1]
  }

  /** The flat-buffer sum is the frame-wise sum the model filters with. */
  lemma {:induction false} FlatSumIsFirSum(frames: seq<seq<int>>, coeffs: seq<int>, ch: nat, pins: nat, n: nat)
    requires forall i :: 0 <= i < |frames| ==> |frames[i]| == pins
    requires ch < pins && n <= |frames| && n <= |coeffs|
    ensures n * pins <= |frames| * pins
    ensures FlatSum(Flatten(frames, pins), coeffs, ch, pins, n) == FirSum(frames, coeffs, ch, n)
  {
    if n > 0 {
      FlatSumIsFirSum(frames, coeffs, ch, pins, n - 1);
      FlattenIndex(frames, pins, n - 1, ch);
    }
  }

  /** The channel wiring against the firmware's flat buffer: each axis is the
      normalised weighted sum of `valid_data_buffer[ch + i * PIOS_ADC_NUM_PINS]`
      for the channel the board routes to it, then calibrated. */
  lemma ChannelMap(frames: seq<seq<int>>, f: Fir, accel: Calibration, gyro: Calibration, pins: nat)
    requires ValidFir(f) && ValidBlock(frames, f)
    requires ChannelCount <= pins && forall i :: 0 <= i < |frames| ==> |frames[i]| == pins
    ensures f.k * pins <= |frames| * pins
    ensures var s := Downsample(frames, f, accel, gyro);
      var buf := Flatten(frames, pins);
      var norm := f.coeffs[f.k] as real;
      && s.accel.x == Scaled(FlatSum(buf, f.coeffs, 2, pins, f.k), norm, accel.scale.x, accel.bias.x)
      && s.accel.y == Scaled(FlatSum(buf, f.coeffs, 0, pins, f.k), norm, accel.scale.y, accel.bias.y)
      && s.accel.z == Scaled(FlatSum(buf, f.coeffs, 4, pins, f.k), norm, accel.scale.z, accel.bias.z)
      && s.gyro.x == Scaled(FlatSum(buf, f.coeffs, 1, pins, f.k), norm, gyro.scale.x, gyro.bias.x)
      && s.gyro.y == Scaled(FlatSum(buf, f.coeffs, 3, pins, f.k), norm, gyro.scale.y, gyro.bias.y)
      && s.gyro.z == Scaled(FlatSum(buf, f.coeffs, 5, pins, f.k), norm, gyro.scale.z, gyro.bias.z)
  {
    var s := Downsample(frames, f, accel, gyro);
    assert s.accel == Vec3(FilterAxis(frames, f, 2, accel.scale.x, accel.bias.x),
                           FilterAxis(frames, f, 0, accel.scale.y, accel.bias.y),
                           FilterAxis(frames, f, 4, accel.scale.z, accel.bias.z));
    assert s.gyro == Vec3(FilterAxis(frames, f, 1, gyro.scale.x, gyro.bias.x),
                          FilterAxis(frames, f, 3, gyro.scale.y, gyro.bias.y),
                          FilterAxis(frames, f, 5, gyro.scale.z, gyro.bias.z));
    FlatAxis(frames, f, 2, accel.scale.x, accel.bias.x, pins);
    FlatAxis(frames, f, 0, accel.scale.y, accel.bias.y, pins);
    FlatAxis(frames, f, 4, accel.scale.z, accel.bias.z, pins);
    FlatAxis(frames, f, 1, gyro.scale.x, gyro.bias.x, pins);
    FlatAxis(frames, f, 3, gyro.scale.y, gyro.bias.y, pins);
    FlatAxis(frames, f, 5, gyro.scale.z, gyro.bias.z, pins);
  }

  /** One filtered axis read from the flat buffer. */
  lemma FlatAxis(frames: seq<seq<int>>, f: Fir, ch: nat, scale: real, bias: real, pins: nat)
    requires ValidFir(f) && ValidBlock(frames, f) && ch < ChannelCount
    requires ChannelCount <= pins && forall i :: 0 <= i < |frames| ==> |frames[i]| == pins
    ensures f.k * pins <= |frames| * pins
    ensures FilterAxis(frames, f, ch, scale, bias)
         == Scaled(FlatSum(Flatten(frames, pins), f.coeffs, ch, pins, f.k), f.coeffs[f.k] as real, scale, bias)
  {
    FlatSumIsFirSum(frames, f.coeffs, ch, pins, f.k);
  }
}

=== FILE: ahrs_fusion.dfy ===
/** The per-cycle fusion policy of the AHRS main loop (`flight/AHRS/ahrs.c`,
    `main`): which correction the INS/GPS estimator receives, which data flags
    it consumes, and the SIMPLE attitude from accelerometer and magnetometer.
    The estimator itself is not part of this model; it is seen only through the
    calls it receives. */
module AhrsFusion {
  import opened Common
  import opened AhrsTypes

  /** The C library's trigonometry in degrees, and `RPY2Quaternion`; none of
      them is part of this model, so they are supplied by the caller. */
  datatype Maths = Maths(
    cosDeg: real -> real,
    sinDeg: real -> real,
    atan2Deg: (real, real) -> real,
    rpyToQuaternion: Vec3 -> Quaternion)

  /** Position/velocity variance when a good GPS fix is fused. */
  const OutdoorPosVelVar: real := 0.004

  /** Position/velocity variance for the indoor zero-velocity update. */
  const IndoorPosVelVar: real := 0.1

  /** GPS quality value meaning "no fix was ever received" (set once in `main`). */
  const NoFix: real := -1.0

  datatype Correction = Full | MagOnly | VelBaro

  /** The correction chosen after the prediction steps. */
  function SelectCorrection(gps: GpsData, magUpdated: bool): (c: Correction)
    ensures c == Full <==> gps.updated && gps.quality == 1.0
    ensures c == MagOnly ==> magUpdated && gps.quality != NoFix
    ensures c == VelBaro ==> !(gps.updated && gps.quality == 1.0) && (gps.quality == NoFix || !magUpdated)
  {
    if gps.updated && gps.quality == 1.0 then Full
    else if gps.quality != NoFix && magUpdated then MagOnly
    else VelBaro
  }

  /** The firmware after a correction, with the estimator calls it made. */
  datatype Corrected = Corrected(fw: Firmware, calls: seq<EstimatorCall>)

  predicate UsesMagnetometer(c: EstimatorCall)
  {
    c.FullCorrection? || c.MagCorrection?
  }

  /** The correction branch of the INS cycle. `vel` is the loop-carried velocity:
      a good fix overwrites its x and y from heading and ground speed, the
      indoor branch zeroes it. */
  function ApplyCorrection(fw: Firmware, maths: Maths): (r: Corrected)
    // exactly one measurement update, always the last call, never the GPS/baro-only one
    ensures 1 <= |r.calls| <= 2 && IsMeasurementUpdate(r.calls[|r.calls| - 1])
    ensures forall i :: 0 <= i < |r.calls| - 1 ==> r.calls[i].SetPosVelVar?
    ensures forall i :: 0 <= i < |r.calls| ==> !r.calls[i].GpsBaroCorrection?
    // the magnetometer is fed to the estimator in body order, and only on the two
    // branches that may use it
    ensures forall i :: 0 <= i < |r.calls| && r.calls[i].FullCorrection? ==>
      r.calls[i].mag == MagToBody(fw.mag.scaled) && r.calls[i].ned == fw.gps.ned
    ensures forall i :: 0 <= i < |r.calls| && r.calls[i].MagCorrection? ==> r.calls[i].mag == MagToBody(fw.mag.scaled)
    // flags: a consumed reading is cleared, an unconsumed one stays pending
    ensures r.fw.gps.updated == (fw.gps.updated && !(fw.gps.quality == 1.0))
    ensures r.fw.mag.updated == (fw.mag.updated && SelectCorrection(fw.gps, fw.mag.updated) == VelBaro)
    // the vertical velocity fed to the estimator is never invented
    ensures r.fw.vel.z == fw.vel.z || r.fw.vel == Zero3
    // nothing else changes
    ensures r.fw == fw.(gps := r.fw.gps, mag := r.fw.mag, vel := r.fw.vel)
    ensures r.fw.gps == fw.gps.(updated := r.fw.gps.updated) && r.fw.mag == fw.mag.(updated := r.fw.mag.updated)
    // the measurement update is the one the policy selects
    ensures var sel := SelectCorrection(fw.gps, fw.mag.updated); var last := r.calls[|r.calls| - 1];
      && (last.FullCorrection? <==> sel == Full)
      && (last.MagCorrection? <==> sel == MagOnly)
      && (last.VelBaroCorrection? <==> sel == VelBaro)
    // a good fix: outdoor variance, then position, heading velocity and barometric altitude
    ensures SelectCorrection(fw.gps, fw.mag.updated) == Full ==>
      && r.fw.vel == Vec3(fw.gps.groundspeed * maths.cosDeg(fw.gps.heading),
                          fw.gps.groundspeed * maths.sinDeg(fw.gps.heading), fw.vel.z)
      && r.calls == [SetPosVelVar(OutdoorPosVelVar),
                     FullCorrection(MagToBody(fw.mag.scaled), fw.gps.ned, r.fw.vel, fw.altitude.altitude)]
    // outdoors without a fresh fix: the magnetometer alone
    ensures SelectCorrection(fw.gps, fw.mag.updated) == MagOnly ==>
      r.calls == [MagCorrection(MagToBody(fw.mag.scaled))] && r.fw.vel == fw.vel
    // indoors: indoor variance, then zero velocity and barometric altitude
    ensures SelectCorrection(fw.gps, fw.mag.updated) == VelBaro ==>
      r.calls == [SetPosVelVar(IndoorPosVelVar), VelBaroCorrection(Zero3, fw.altitude.altitude)] && r.fw.vel == Zero3
  {
    var magBody := MagToBody(fw.mag.scaled);
    match SelectCorrection(fw.gps, fw.mag.updated)
    case Full =>
      var heading := fw.gps.heading;
      var vel := Vec3(fw.gps.groundspeed * maths.cosDeg(heading), fw.gps.groundspeed * maths.sinDeg(heading), fw.vel.z);
      Corrected(
        fw.(gps := fw.gps.(updated := false), mag := fw.mag.(updated := false), vel := vel),
        [SetPosVelVar(OutdoorPosVelVar), FullCorrection(magBody, fw.gps.ned, vel, fw.altitude.altitude)])
    case MagOnly =>
      Corrected(fw.(mag := fw.mag.(updated := false)), [MagCorrection(magBody)])
    case VelBaro =>
      Corrected(fw.(vel := Zero3), [SetPosVelVar(IndoorPosVelVar), VelBaroCorrection(Zero3, fw.altitude.altitude)])
  }

  /** "Only trust mags if outdoors": with no GPS fix ever seen, the correction
      never hands the magnetometer to the estimator, however fresh the reading. */
  lemma MagTrustedOnlyOutdoors(fw: Firmware, maths: Maths)
    requires fw.gps.quality == NoFix
    ensures var r := ApplyCorrection(fw, maths);
      && (forall i :: 0 <= i < |r.calls| ==> !UsesMagnetometer(r.calls[i]))
      && r.fw.mag.updated == fw.mag.updated
  {
  }

  /** The vertical velocity is zero when `main` starts, so it stays zero in
      every cycle: the estimator never receives an invented climb rate. */
  lemma VerticalVelocityStaysZero(fw: Firmware, maths: Maths)
    requires fw.vel.z == 0.0
    ensures var r := ApplyCorrection(fw, maths);
      && r.fw.vel.z == 0.0
      && forall i :: 0 <= i < |r.calls| ==>
           (r.calls[i].FullCorrection? ==> r.calls[i].vel.z == 0.0) && (r.calls[i].VelBaroCorrection? ==> r.calls[i].vel == Zero3)
  {
  }

  /** A good GPS fix is fused exactly once: running the correction again on the
      result, with nothing new arriving, does not fuse it a second time. */
  lemma GoodFixConsumedOnce(fw: Firmware, maths: Maths)
    requires fw.gps.updated && fw.gps.quality == 1.0
    ensures var r := ApplyCorrection(fw, maths);
      var again := ApplyCorrection(r.fw, maths);
      && r.calls[|r.calls| - 1].FullCorrection?
      && forall i :: 0 <= i < |again.calls| ==> !again.calls[i].FullCorrection?
  {
  }

  /** The SIMPLE algorithm's roll, pitch and yaw, in degrees. Yaw comes from the
      raw (uncalibrated) magnetometer registers. */
  function SimpleRpy(fw: Firmware, maths: Maths): (rpy: Vec3)
  {
    Vec3(maths.atan2Deg(fw.sample.accel.y, fw.sample.accel.z),
         maths.atan2Deg(fw.sample.accel.x, fw.sample.accel.z),
         maths.atan2Deg(fw.mag.raw.x, -fw.mag.raw.y))
  }

  /** The SIMPLE branch: the attitude quaternion from `SimpleRpy`; nothing else
      changes and the estimator is not called. Roll is the tilt of gravity in
      the (right, down) plane, pitch its tilt in the (forward, down) plane, and
      yaw the heading of the magnetometer field in the body axes the INS
      branch uses. */
  function SimpleAttitude(fw: Firmware, maths: Maths): (r: Firmware)
    ensures r == fw.(attitude := r.attitude)
    ensures var a := fw.sample.accel; var body := MagToBody(fw.mag.raw);
      r.attitude == maths.rpyToQuaternion(Vec3(maths.atan2Deg(a.y, a.z), maths.atan2Deg(a.x, a.z), maths.atan2Deg(-body.y, body.x)))
  {
    fw.(attitude := maths.rpyToQuaternion(SimpleRpy(fw, maths)))
  }

  /** The SIMPLE yaw is the heading of the horizontal field in the body axes
      (forward, right) the INS branch feeds the estimator, so a level board
      (no sideways or fore-aft acceleration, and an `atan2` that gives zero for
      a zero numerator over this vertical reading) has zero roll and pitch and
      only that heading. */
  lemma LevelBoardAttitude(fw: Firmware, maths: Maths)
    requires fw.sample.accel.x == 0.0 && fw.sample.accel.y == 0.0
    requires maths.atan2Deg(0.0, fw.sample.accel.z) == 0.0
    ensures var body := MagToBody(fw.mag.raw);
      SimpleAttitude(fw, maths).attitude == maths.rpyToQuaternion(Vec3(0.0, 0.0, maths.atan2Deg(-body.y, body.x)))
  {
  }

  /** The SIMPLE attitude depends only on the filtered accelerometer and the raw
      magnetometer: calibration, GPS, flags and the previous attitude play no part. */
  lemma SimpleAttitudeInputs(a: Firmware, b: Firmware, maths: Maths)
    requires a.sample.accel == b.sample.accel && a.mag.raw == b.mag.raw
    ensures SimpleAttitude(a, maths).attitude == SimpleAttitude(b, maths).attitude
  {
  }
}

=== FILE: ahrs_link.dfy ===
/** `process_spi_request` (`flight/AHRS/ahrs.c`): one service of the SPI link to
    the flight board. The link state machine and its buffers belong to the
    link-layer driver, which is not part of this model; the model records the
    calls made on it as `LinkAction`s and receives its state and the pending
    request as inputs. */
module AhrsLink {
  import opened Common
  import opened AhrsTypes
  import opened AhrsDownsample

  /** `lfsm_get_state()`: the three stable states this code reacts to, or any
      other (transitional) state. */
  datatype LinkState = UserBusy | Inactive | Stopped | Transitional(code: int)

  /** Calls into the link-layer driver. */
  datatype LinkAction =
    | BindLinkBuffers        // lfsm_set_link_proto_v1
    | SetRx                  // lfsm_user_set_rx_v1: queue the receive buffer
    | SetTx(rsp: Response)   // lfsm_user_set_tx_v1
    | UserDone               // lfsm_user_done

  /** `measure_var` of a calibration request. */
  datatype CalibrationMode = Measure | SetValues | OtherMode(code: int)

  datatype BaroUpdate = BaroUpdate(altitude: real, updated: bool)

  datatype GpsUpdate = GpsUpdate(ned: Vec3, heading: real, groundspeed: real, quality: real, updated: bool)

  /** The decoded request in the receive buffer. A calibration request carries
      all 27 values (variance, scale and bias of three sensors). */
  datatype Request =
    | ReqReset(delayMs: int)
    | ReqSerial
    | ReqAlgorithm(algorithm: Algorithm)
    | ReqNorth(be: Vec3)
    | ReqCalibration(mode: CalibrationMode, values: SensorCalibrations)
    | ReqAttitudeRaw
    | ReqUpdate(baro: BaroUpdate, gps: GpsUpdate)
    | ReqOther(kind: int)

  datatype RawTriple = RawTriple(x: int, y: int, z: int)

  datatype RawAttitude = RawAttitude(
    mags: Vec3,
    gyros: RawTriple,
    gyrosFiltered: Vec3,
    gyroTempXY: int,
    gyroTempZ: int,
    accels: RawTriple,
    accelsFiltered: Vec3)

  /** The response placed in the transmit buffer. The algorithm and north
      responses carry no payload. */
  datatype Response =
    | RspSerial(serial: seq<int>)
    | RspAlgorithm
    | RspNorth
    | RspCalibration(accelVar: Vec3, gyroVar: Vec3, magVar: Vec3)
    | RspAttitudeRaw(raw: RawAttitude)
    | RspUpdate(quaternion: Quaternion, ned: Vec3, vel: Vec3, load: Option<real>,
                idleTime: int, runTime: int, droppedUpdates: int)

  /** What the link service sees of the world outside the modelled globals:
      the driver's state, the received request, the first frame of the ADC
      block, the serial number, the estimator's navigation output, the
      dropped-update counter and `TIMER_RATE / 10000`. */
  datatype LinkEnv = LinkEnv(
    state: LinkState,
    request: Request,
    frame0: seq<int>,
    serial: seq<int>,
    nav: NavOutput,
    ekfTooSlow: int,
    ticksPer100us: int)

  ghost predicate ValidEnv(e: LinkEnv)
  {
    |e.frame0| >= ChannelCount && e.ticksPer100us > 0
  }

  /** A reset request never returns; every other service does. */
  datatype LinkOutcome =
    | Serviced(fw: Firmware, actions: seq<LinkAction>, calls: seq<EstimatorCall>)
    | HardReset(delayMs: int)

  /** The load percentage: running ticks over the `uint32_t` sum of idle and
      running ticks. A zero sum is a float division by zero, which the model
      reports as `None`. */
  function LoadPercent(idle: int, running: int): (p: Option<real>)
    requires 0 <= idle < Word32 && 0 <= running < Word32
    ensures p.None? <==> AddU32(idle, running) == 0
    ensures p.Some? && idle + running < Word32 ==> 0.0 <= p.value <= 100.0
    ensures p.Some? && idle + running < Word32 && idle == 0 ==> p.value == 100.0
    ensures p.Some? && idle + running < Word32 && running == 0 ==> p.value == 0.0
  {
    var total := AddU32(idle, running);
    if total == 0 then None
    else
      RatioBounds(running as real, total as real, idle + running < Word32);
      Some(running as real / total as real * 100.0)
  }

  /** Integer division of a tick count rounds down. */
  lemma FloorDivBounds(x: int, d: int)
    requires d > 0
    ensures (x / d) * d <= x < (x / d + 1) * d
  {
  }

  lemma RatioBounds(part: real, whole: real, covers: bool)
    requires 0.0 <= part && 0.0 < whole
    requires covers ==> part <= whole
    ensures 0.0 <= part / whole
    ensures covers ==> part / whole <= 1.0
    ensures part == whole ==> part / whole == 1.0
  {
    if covers {
      assert part / whole * whole == part;
    }
  }

  /** The estimator calls of a calibration SET as the code writes them: the
      magnetometer variance goes in sensor order. */
  function SetCalibrationCallsAsWritten(c: SensorCalibrations): (calls: seq<EstimatorCall>)
    ensures |calls| == 4 && calls[0] == SetGyroBias(Zero3)
    ensures calls[3] == SetMagVar(c.mag.variance)
  {
    [SetGyroBias(Zero3), SetAccelVar(c.accel.variance), SetGyroVar(c.gyro.variance), SetMagVar(c.mag.variance)]
  }

  /** The calls of a calibration SET with the magnetometer variance swapped to
      body order, as `converge_insgps` does. */
  function SetCalibrationCalls(c: SensorCalibrations): (calls: seq<EstimatorCall>)
    ensures |calls| == 4 && calls[0] == SetGyroBias(Zero3)
    ensures calls[1..] == ConvergeCalls(c)[1..]
  {
    [SetGyroBias(Zero3), SetAccelVar(c.accel.variance), SetGyroVar(c.gyro.variance), SetMagVar(VarianceToBody(c.mag.variance))]
  }

  /** As written, a SET with unequal x and y magnetometer variances hands the
      estimator a different variance than the next convergence with the same
      stored calibration does. */
  lemma SetMagVarOrderDiffers()
    ensures var c := SensorCalibrations(
        ResetValues().accel, ResetValues().gyro,
        Calibration(Zero3, Vec3(1.0, 1.0, 1.0), Vec3(1.0, 2.0, 3.0)));
      SetCalibrationCallsAsWritten(c)[3] != ConvergeCalls(c)[3]
  {
    var c := SensorCalibrations(
        ResetValues().accel, ResetValues().gyro,
        Calibration(Zero3, Vec3(1.0, 1.0, 1.0), Vec3(1.0, 2.0, 3.0)));
    assert SetCalibrationCallsAsWritten(c)[3].magVar.x == 1.0;
    assert ConvergeCalls(c)[3].magVar.x == 2.0;
  }

  /** The two orders agree exactly when the x and y variances are equal. */
  lemma SetMagVarOrderAgreesIffSymmetric(c: SensorCalibrations)
    ensures SetCalibrationCallsAsWritten(c) == SetCalibrationCalls(c) <==> c.mag.variance.x == c.mag.variance.y
  {
    if SetCalibrationCallsAsWritten(c) == SetCalibrationCalls(c) {
      assert SetCalibrationCallsAsWritten(c)[3] == SetCalibrationCalls(c)[3];
    }
  }

  /** A handled request: the firmware afterwards, the reply and the estimator calls. */
  datatype Handled = Handled(fw: Firmware, rsp: Response, calls: seq<EstimatorCall>)

  /** The firmware state no request handler touches. */
  ghost predicate KeepsSensorState(a: Firmware, b: Firmware)
  {
    a.sample == b.sample && a.mag == b.mag && a.attitude == b.attitude && a.vel == b.vel && a.load == b.load
  }

  /** CALIBRATION: MEASURE schedules a run, SET stores the 27 values and
      re-initialises the estimator's noise model; every mode echoes the
      variances now in force. */
  function HandleCalibration(fw: Firmware, mode: CalibrationMode, values: SensorCalibrations): (h: Handled)
    ensures KeepsSensorState(h.fw, fw) && h.fw.algorithm == fw.algorithm
    ensures h.fw.calibrationPending <==> fw.calibrationPending || mode == Measure
    ensures h.fw.cal == (if mode == SetValues then values else fw.cal)
    ensures h.rsp == RspCalibration(h.fw.cal.accel.variance, h.fw.cal.gyro.variance, h.fw.cal.mag.variance)
    ensures forall k :: 0 <= k < |h.calls| ==> IsConfiguration(h.calls[k])
    // only SET reconfigures the estimator, with the stored variances in sensor order
    ensures h.calls == (if mode == SetValues then SetCalibrationCallsAsWritten(values) else [])
  {
    var fw' := match mode
      case Measure => fw.(calibrationPending := true)
      case SetValues => fw.(cal := values)
      case OtherMode(_) => fw;
    var calls := if mode.SetValues? then SetCalibrationCallsAsWritten(values) else [];
    Handled(fw', RspCalibration(fw'.cal.accel.variance, fw'.cal.gyro.variance, fw'.cal.mag.variance), calls)
  }

  /** ATTITUDERAW: one raw sample from the first frame of the block, the raw
      magnetometer, and the filtered sample. The raw accelerometer triple is
      reported in channel order (0, 2, 4), unlike the filtered one. The raw and
      temperature globals the handler fills are read only by this reply, so the
      model keeps them in the reply alone. */
  function HandleAttitudeRaw(fw: Firmware, frame0: seq<int>): (h: Handled)
    requires |frame0| >= ChannelCount
    ensures h.fw == fw && h.calls == [] && h.rsp.RspAttitudeRaw?
    ensures h.rsp.raw.accelsFiltered == fw.sample.accel && h.rsp.raw.gyrosFiltered == fw.sample.gyro
    ensures h.rsp.raw.mags == fw.mag.raw
    ensures h.rsp.raw.gyroTempXY == frame0[6] && h.rsp.raw.gyroTempZ == frame0[7]
    // gyro channels are the odd ones below 6, accelerometer channels the even ones
    ensures h.rsp.raw.gyros == RawTriple(frame0[1], frame0[3], frame0[5])
    ensures h.rsp.raw.accels == RawTriple(frame0[0], frame0[2], frame0[4])
  {
    var raw := RawAttitude(
      fw.mag.raw,
      RawTriple(frame0[1], frame0[3], frame0[5]),
      fw.sample.gyro,
      frame0[6], frame0[7],
      RawTriple(frame0[0], frame0[2], frame0[4]),
      fw.sample.accel);
    Handled(fw, RspAttitudeRaw(raw), [])
  }

  /** UPDATE: take in the fresh barometer and GPS data, then report attitude,
      navigation output and the processor load. */
  function HandleUpdate(fw: Firmware, env: LinkEnv, baro: BaroUpdate, gps: GpsUpdate): (h: Handled)
    requires ValidEnv(env)
    ensures h.fw == fw.(altitude := h.fw.altitude, gps := h.fw.gps) && h.calls == []
    ensures h.fw.altitude == (if baro.updated then AltitudeData(baro.altitude, true) else fw.altitude)
    ensures h.fw.gps == (if gps.updated then GpsData(gps.ned, gps.heading, gps.groundspeed, gps.quality, true) else fw.gps)
    ensures h.rsp.RspUpdate? && h.rsp.quaternion == fw.attitude && h.rsp.ned == env.nav.pos && h.rsp.vel == env.nav.vel
    ensures h.rsp.droppedUpdates == env.ekfTooSlow
    ensures ValidLoad(fw.load) ==> h.rsp.load == LoadPercent(fw.load.idle, fw.load.running)
    // idle and running ticks converted to units of 100 microseconds, rounded down
    ensures ValidLoad(fw.load) ==>
      && h.rsp.idleTime * env.ticksPer100us <= fw.load.idle < (h.rsp.idleTime + 1) * env.ticksPer100us
      && h.rsp.runTime * env.ticksPer100us <= fw.load.running < (h.rsp.runTime + 1) * env.ticksPer100us
  {
    var altitude := if baro.updated then AltitudeData(baro.altitude, baro.updated) else fw.altitude;
    var gpsData := if gps.updated then GpsData(gps.ned, gps.heading, gps.groundspeed, gps.quality, true) else fw.gps;
    var l := fw.load;
    var load := if 0 <= l.idle < Word32 && 0 <= l.running < Word32 then LoadPercent(l.idle, l.running) else None;
    var rsp := RspUpdate(fw.attitude, env.nav.pos, env.nav.vel, load,
                         l.idle / env.ticksPer100us, l.running / env.ticksPer100us, env.ekfTooSlow);
    FloorDivBounds(l.idle, env.ticksPer100us);
    FloorDivBounds(l.running, env.ticksPer100us);
    Handled(fw.(altitude := altitude, gps := gpsData), rsp, [])
  }

  /** Handling of a request once the driver is in the user-busy state. The
      reply is queued, then the receive buffer is re-armed and the driver
      released, for every request kind including unknown ones. */
  function Dispatch(fw: Firmware, env: LinkEnv): (o: LinkOutcome)
    requires ValidEnv(env)
    ensures o.HardReset? <==> env.request.ReqReset?
    ensures o.Serviced? ==> |o.actions| >= 2 && o.actions[|o.actions| - 2..] == [SetRx, UserDone]
    ensures o.Serviced? ==>
      (if env.request.ReqOther? then o.actions == [SetRx, UserDone] else |o.actions| == 3 && o.actions[0].SetTx?)
    ensures o.Serviced? ==> KeepsSensorState(o.fw, fw)
    ensures o.Serviced? ==> (o.fw.calibrationPending <==> fw.calibrationPending || IsMeasure(env.request))
    ensures o.Serviced? ==> forall k :: 0 <= k < |o.calls| ==> IsConfiguration(o.calls[k])
    // only CALIBRATION, ALGORITHM and UPDATE change the firmware state
    ensures o.Serviced? && !env.request.ReqCalibration? && !env.request.ReqAlgorithm? && !env.request.ReqUpdate? ==> o.fw == fw
    // per kind: the reply, and the estimator calls made
    ensures env.request.ReqOther? ==> o == Serviced(fw, [SetRx, UserDone], [])
    ensures env.request.ReqSerial? ==> o == Serviced(fw, [SetTx(RspSerial(env.serial)), SetRx, UserDone], [])
    ensures env.request.ReqNorth? ==> o == Serviced(fw, [SetTx(RspNorth), SetRx, UserDone], [SetMagNorth(env.request.be)])
    ensures env.request.ReqAttitudeRaw? ==> o.Serviced? && o.fw == fw && o.calls == [] && o.actions[0].rsp.RspAttitudeRaw?
    ensures env.request.ReqAlgorithm? ==> o == Serviced(fw.(algorithm := env.request.algorithm), [SetTx(RspAlgorithm), SetRx, UserDone], [])
    ensures env.request.ReqUpdate? ==> o.Serviced? && o.calls == [] && o.fw.cal == fw.cal && o.fw.algorithm == fw.algorithm
    ensures env.request.ReqCalibration? ==>
      && o.Serviced?
      && o.calls == (if env.request.mode == SetValues then SetCalibrationCallsAsWritten(env.request.values) else [])
  {
    var rearm := [SetRx, UserDone];
    var h := match env.request
      case ReqReset(_) => Handled(fw, RspNorth, [])
      case ReqSerial => Handled(fw, RspSerial(env.serial), [])
      case ReqAlgorithm(a) => Handled(fw.(algorithm := a), RspAlgorithm, [])
      case ReqNorth(be) => Handled(fw, RspNorth, [SetMagNorth(be)])
      case ReqCalibration(mode, values) => HandleCalibration(fw, mode, values)
      case ReqAttitudeRaw => HandleAttitudeRaw(fw, env.frame0)
      case ReqUpdate(baro, gps) => HandleUpdate(fw, env, baro, gps)
      case ReqOther(_) => Handled(fw, RspNorth, []);
    match env.request
    case ReqReset(delay) => HardReset(delay)
    case ReqOther(_) => Serviced(fw, rearm, [])
    case _ => Serviced(h.fw, [SetTx(h.rsp)] + rearm, h.calls)
  }

  predicate IsMeasure(r: Request)
  {
    r.ReqCalibration? && r.mode == Measure
  }

  /** One link service: act only in a stable driver state, and only the
      user-busy state carries a request to handle. */
  function ProcessSpiRequest(fw: Firmware, env: LinkEnv): (o: LinkOutcome)
    requires ValidEnv(env)
    ensures o.HardReset? <==> env.state == UserBusy && env.request.ReqReset?
    ensures env.state == Inactive ==> o == Serviced(fw, [SetRx, UserDone], [])
    ensures env.state == Stopped ==> o == Serviced(fw, [BindLinkBuffers], [])
    ensures env.state.Transitional? ==> o == Serviced(fw, [], [])
    // a handled request always ends by re-arming the receive buffer and releasing the driver
    ensures env.state == UserBusy && o.Serviced? ==>
      |o.actions| >= 2 && o.actions[|o.actions| - 2..] == [SetRx, UserDone]
    // at most one reply, and one exactly for the kinds the code answers
    ensures env.state == UserBusy && o.Serviced? ==>
      (if env.request.ReqOther? then o.actions == [SetRx, UserDone] else |o.actions| == 3 && o.actions[0].SetTx?)
    // the service never touches the sensor samples, the attitude, the loop velocity or the load counters
    ensures o.Serviced? ==> KeepsSensorState(o.fw, fw)
    // only a MEASURE request raises the calibration flag, and nothing lowers it
    ensures o.Serviced? ==> (o.fw.calibrationPending <==> fw.calibrationPending || (env.state == UserBusy && IsMeasure(env.request)))
    // the link only configures the estimator; it never predicts or corrects
    ensures o.Serviced? ==> forall k :: 0 <= k < |o.calls| ==> IsConfiguration(o.calls[k])
    // the estimator is configured only by a SET, with its calls as written, and by NORTH
    ensures env.state == UserBusy && env.request.ReqCalibration? ==>
      o.calls == (if env.request.mode == SetValues then SetCalibrationCallsAsWritten(env.request.values) else [])
    ensures env.state == UserBusy && env.request.ReqNorth? ==> o.calls == [SetMagNorth(env.request.be)]
    ensures !(env.state == UserBusy && (env.request.ReqCalibration? || env.request.ReqNorth?)) && o.Serviced? ==> o.calls == []
    // only CALIBRATION, ALGORITHM and UPDATE change the firmware state
    ensures o.Serviced? && !(env.state == UserBusy && (env.request.ReqCalibration? || env.request.ReqAlgorithm? || env.request.ReqUpdate?)) ==>
      o.fw == fw
    // SERIAL and unknown requests: a serial-number reply, or none, and nothing else
    ensures env.state == UserBusy && env.request.ReqSerial? ==> o == Serviced(fw, [SetTx(RspSerial(env.serial)), SetRx, UserDone], [])
    ensures env.state == UserBusy && env.request.ReqOther? ==> o == Serviced(fw, [SetRx, UserDone], [])
  {
    match env.state
    case UserBusy => Dispatch(fw, env)
    case Inactive => Serviced(fw, [SetRx, UserDone], [])
    case Stopped => Serviced(fw, [BindLinkBuffers], [])
    case Transitional(_) => Serviced(fw, [], [])
  }

  function WithRequest(env: LinkEnv, r: Request): LinkEnv
  {
    env.(state := UserBusy, request := r)
  }

  /** A MEASURE request only schedules a calibration; the calibration runs at
      the top of the next loop iteration. */
  lemma MeasureOnlySchedules(fw: Firmware, env: LinkEnv, values: SensorCalibrations)
    requires ValidEnv(env)
    ensures var o := ProcessSpiRequest(fw, WithRequest(env, ReqCalibration(Measure, values)));
      && o.Serviced? && o.fw == fw.(calibrationPending := true) && o.calls == []
      && o.actions[0] == SetTx(RspCalibration(fw.cal.accel.variance, fw.cal.gyro.variance, fw.cal.mag.variance))
  {
  }

  /** A SET request stores all 27 values, echoes the stored variances and
      re-initialises the estimator's noise model with them: the accelerometer
      and gyro variances as a convergence would, the magnetometer variance in
      sensor order. */
  lemma SetStoresAndEchoes(fw: Firmware, env: LinkEnv, values: SensorCalibrations)
    requires ValidEnv(env)
    ensures var o := ProcessSpiRequest(fw, WithRequest(env, ReqCalibration(SetValues, values)));
      && o.Serviced? && o.fw == fw.(cal := values)
      && o.actions[0] == SetTx(RspCalibration(values.accel.variance, values.gyro.variance, values.mag.variance))
      && o.calls == SetCalibrationCallsAsWritten(values)
      && o.calls[1..3] == ConvergeCalls(values)[1..3]
      && o.calls[3] == SetMagVar(values.mag.variance)
  {
  }

  /** Sending the same SET twice leaves the same calibration and the same reply
      as sending it once. */
  lemma SetIdempotent(fw: Firmware, env: LinkEnv, values: SensorCalibrations)
    requires ValidEnv(env)
    ensures var env' := WithRequest(env, ReqCalibration(SetValues, values));
      var once := ProcessSpiRequest(fw, env');
      once.Serviced? &&
      var twice := ProcessSpiRequest(once.fw, env');
      twice.Serviced? && twice.fw == once.fw && twice.actions == once.actions && twice.calls == once.calls
  {
  }

  /** Any other calibration mode changes nothing and still echoes the current
      variances. */
  lemma OtherModeOnlyEchoes(fw: Firmware, env: LinkEnv, code: int, values: SensorCalibrations)
    requires ValidEnv(env)
    ensures var o := ProcessSpiRequest(fw, WithRequest(env, ReqCalibration(OtherMode(code), values)));
      && o.Serviced? && o.fw == fw && o.calls == []
      && o.actions[0] == SetTx(RspCalibration(fw.cal.accel.variance, fw.cal.gyro.variance, fw.cal.mag.variance))
  {
  }

  /** An UPDATE copies the barometer and the GPS block each only when its own
      `updated` flag is set; a copied GPS block is marked fresh for the fusion
      policy. */
  lemma UpdateCopiesOnlyFresh(fw: Firmware, env: LinkEnv, baro: BaroUpdate, gps: GpsUpdate)
    requires ValidEnv(env)
    ensures var o := ProcessSpiRequest(fw, WithRequest(env, ReqUpdate(baro, gps)));
      && o.Serviced?
      && (baro.updated ==> o.fw.altitude == AltitudeData(baro.altitude, true))
      && (!baro.updated ==> o.fw.altitude == fw.altitude)
      && (gps.updated ==> o.fw.gps == GpsData(gps.ned, gps.heading, gps.groundspeed, gps.quality, true))
      && (!gps.updated ==> o.fw.gps == fw.gps)
      && o.fw == fw.(altitude := o.fw.altitude, gps := o.fw.gps)
  {
  }

  /** The UPDATE reply reports the attitude held before the request, the
      estimator's position and velocity, and a load within 0..100 percent
      whenever the tick counts do not wrap. */
  lemma UpdateReply(fw: Firmware, env: LinkEnv, baro: BaroUpdate, gps: GpsUpdate)
    requires ValidEnv(env) && ValidLoad(fw.load)
    requires fw.load.idle + fw.load.running < Word32
    ensures var o := ProcessSpiRequest(fw, WithRequest(env, ReqUpdate(baro, gps)));
      && o.Serviced? && o.actions[0].SetTx? && o.actions[0].rsp.RspUpdate?
      && var rsp := o.actions[0].rsp;
      && rsp.quaternion == fw.attitude && rsp.ned == env.nav.pos && rsp.vel == env.nav.vel
      && (rsp.load.Some? ==> 0.0 <= rsp.load.value <= 100.0)
      && (rsp.load.None? <==> fw.load.idle == 0 && fw.load.running == 0)
      && rsp.droppedUpdates == env.ekfTooSlow
  {
  }

  /** ALGORITHM stores the requested code whatever it is; the next main-loop
      iteration branches on it. */
  lemma AlgorithmStored(fw: Firmware, env: LinkEnv, a: Algorithm)
    requires ValidEnv(env)
    ensures var o := ProcessSpiRequest(fw, WithRequest(env, ReqAlgorithm(a)));
      && o.Serviced? && o.fw == fw.(algorithm := a) && o.actions[0] == SetTx(RspAlgorithm) && o.calls == []
  {
  }

  /** SERIAL, NORTH, ATTITUDERAW and unknown requests leave the firmware state
      as it was; of them only NORTH calls the estimator, once, with the field
      it carries. */
  lemma PassiveRequestsKeepState(fw: Firmware, env: LinkEnv, r: Request)
    requires ValidEnv(env)
    requires r.ReqSerial? || r.ReqNorth? || r.ReqAttitudeRaw? || r.ReqOther?
    ensures var o := ProcessSpiRequest(fw, WithRequest(env, r));
      && o.Serviced? && o.fw == fw
      && o.calls == (if r.ReqNorth? then [SetMagNorth(r.be)] else [])
  {
  }

  /** Only a user-busy driver makes the service change the firmware or call the
      estimator. */
  lemma OnlyUserBusyActs(fw: Firmware, env: LinkEnv)
    requires ValidEnv(env)
    ensures var o := ProcessSpiRequest(fw, env);
      o.HardReset? || o.fw != fw || o.calls != [] ==> env.state == UserBusy
  {
  }
}

=== FILE: ahrs_main.dfy ===
/** The AHRS main loop (`flight/AHRS/ahrs.c`, `main`): start-up, then per
    iteration a pending calibration, the magnetometer poll, the idle/running
    tick accounting around the wait for ADC data, the decimation filter and the
    algorithm branch, which services the SPI link once. */
module AhrsMain {
  import opened Common
  import opened AhrsTypes
  import opened AhrsDownsample
  import opened AhrsCalibration
  import opened AhrsFusion
  import opened AhrsLink

  /** Build-time constants and the functions the loop calls but this model does not define. */
  datatype Config = Config(fir: Fir, ekfRate: real, maths: Maths)

  ghost predicate ValidConfig(c: Config)
  {
    ValidFir(c.fir) && c.ekfRate != 0.0
  }

  /** Everything one iteration reads from the hardware and from code outside
      the model: the calibration run's 250 blocks and magnetometer polls (used
      only when a calibration is pending), this iteration's magnetometer poll,
      the timer before and after the wait, the ADC block, the link and the
      estimator's attitude after the correction. */
  datatype CycleInput = CycleInput(
    calibrationBlocks: seq<seq<seq<int>>>,
    calibrationMags: seq<Option<Vec3>>,
    magReading: Option<Vec3>,
    tWaitStart: int,
    tWaitEnd: int,
    block: seq<seq<int>>,
    link: LinkEnv,
    navQuaternion: Quaternion)

  ghost predicate ValidInput(fw: Firmware, cfg: Config, i: CycleInput)
  {
    && (fw.calibrationPending ==>
          |i.calibrationBlocks| == CalibrationCycles && |i.calibrationMags| == CalibrationCycles
          && ValidBlocks(i.calibrationBlocks, cfg.fir))
    && 0 <= i.tWaitStart < Word32 && 0 <= i.tWaitEnd < Word32
    && ValidBlock(i.block, cfg.fir)
    && ValidEnv(i.link)
  }

  datatype CycleOutcome =
    | Continue(fw: Firmware, actions: seq<LinkAction>, calls: seq<EstimatorCall>)
    | Reset(delayMs: int)

  /** What `main` keeps true from one iteration to the next. */
  ghost predicate LoopInvariant(fw: Firmware)
  {
    fw.vel.z == 0.0 && ValidLoad(fw.load)
  }

  /** `main` before the loop: power-on calibration, no GPS fix, the INS/GPS
      algorithm, a boxcar filter, one decimated sample and the estimator's
      initialisation. Every other global starts zeroed. */
  function Boot(frames: seq<seq<int>>): (r: (Firmware, seq<EstimatorCall>))
    requires ValidBlock(frames, Boxcar(Oversampling))
    ensures LoopInvariant(r.0)
    ensures r.0.algorithm == InsGps && r.0.gps.quality == NoFix && !r.0.gps.updated && !r.0.mag.updated
    ensures r.0.cal == ResetValues() && !r.0.calibrationPending
    ensures r.1 == ConvergeCalls(r.0.cal)
  {
    var cal := ResetValues();
    var fw := Firmware(
      cal,
      Downsample(frames, Boxcar(Oversampling), cal.accel, cal.gyro),
      MagData(Zero3, Zero3, false),
      GpsData(Zero3, 0.0, 0.0, NoFix, false),
      AltitudeData(0.0, false),
      Quaternion(0.0, 0.0, 0.0, 0.0),
      InsGps,
      false,
      Zero3,
      LoadCounters(0, 0, 0, 0));
    (fw, ConvergeCalls(cal))
  }

  /** The tick accounting around the wait for ADC data, in `uint32_t`
      arithmetic: the running time since the last wait ended, then the idle
      time of this wait. */
  function TimeCycle(l: LoadCounters, tWaitStart: int, tWaitEnd: int): (r: LoadCounters)
    requires ValidLoad(l) && 0 <= tWaitStart < Word32 && 0 <= tWaitEnd < Word32
    ensures ValidLoad(r)
    ensures r.lastIdleStart == tWaitStart && r.lastIdleEnd == tWaitEnd
    ensures l.lastIdleEnd <= tWaitStart ==> r.running == tWaitStart - l.lastIdleEnd
    ensures tWaitStart <= tWaitEnd ==> r.idle == tWaitEnd - tWaitStart
  {
    LoadCounters(tWaitStart, tWaitEnd, SubU32(tWaitEnd, tWaitStart), SubU32(tWaitStart, l.lastIdleEnd))
  }

  /** No tick is lost or counted twice: idle plus running covers exactly the
      time from the end of the previous wait to the end of this one, modulo 2^32,
      even when the timer wraps. */
  lemma TicksAccounted(l: LoadCounters, tWaitStart: int, tWaitEnd: int)
    requires ValidLoad(l) && 0 <= tWaitStart < Word32 && 0 <= tWaitEnd < Word32
    ensures var r := TimeCycle(l, tWaitStart, tWaitEnd);
      (r.idle + r.running) % Word32 == (tWaitEnd - l.lastIdleEnd) % Word32
  {
    var r := TimeCycle(l, tWaitStart, tWaitEnd);
    var a := tWaitEnd - tWaitStart;
    var b := tWaitStart - l.lastIdleEnd;
    ModAddCongruent(a, b);
  }

  lemma ModAddCongruent(a: int, b: int)
    ensures (a % Word32 + b % Word32) % Word32 == (a + b) % Word32
  {
    var qa := a / Word32;
    var qb := b / Word32;
    assert a == qa * Word32 + a % Word32;
    assert b == qb * Word32 + b % Word32;
    assert a + b == (qa + qb) * Word32 + (a % Word32 + b % Word32);
    ModShift(a % Word32 + b % Word32, qa + qb);
  }

  lemma ModShift(x: int, q: int)
    ensures (q * Word32 + x) % Word32 == x % Word32
  {
    var r := x % Word32;
    var d := x / Word32;
    assert x == d * Word32 + r;
    assert q * Word32 + x == (q + d) * Word32 + r;
  }

  /** The magnetometer poll: a new reading replaces the raw registers, is
      calibrated and marked fresh; without one nothing changes. */
  function ReadMagnetometer(m: MagData, cal: Calibration, reading: Option<Vec3>): (r: MagData)
    ensures reading.None? ==> r == m
    ensures reading.Some? ==> r.updated && r.raw == reading.value
    // each axis scaled and offset by its own calibration
    ensures reading.Some? ==>
      && r.scaled.x == reading.value.x * cal.scale.x + cal.bias.x
      && r.scaled.y == reading.value.y * cal.scale.y + cal.bias.y
      && r.scaled.z == reading.value.z * cal.scale.z + cal.bias.z
  {
    match reading
    case None => m
    case Some(raw) => MagData(raw, Add3(Mul3(raw, cal.scale), cal.bias), true)
  }

  /** With nonzero scales the calibration is invertible: the raw registers are
      recovered from the scaled value. */
  lemma MagCalibrationInvertible(m: MagData, cal: Calibration, raw: Vec3)
    requires cal.scale.x != 0.0 && cal.scale.y != 0.0 && cal.scale.z != 0.0
    ensures var s := ReadMagnetometer(m, cal, Some(raw)).scaled;
      && (s.x - cal.bias.x) / cal.scale.x == raw.x
      && (s.y - cal.bias.y) / cal.scale.y == raw.y
      && (s.z - cal.bias.z) / cal.scale.z == raw.z
  {
  }

  /** The globals a calibration run leaves behind: the new calibration, the
      last filtered sample and, when any arrived, the last magnetometer reading
      scaled with the zeroed bias. The fresh-data flag is not touched. */
  function AfterCalibration(fw: Firmware, run: CalibrationRun): (r: Firmware)
    ensures r.cal == ApplyRun(fw.cal, run) && r.sample == run.lastSample && !r.calibrationPending
    ensures r.mag.updated == fw.mag.updated
    ensures run.lastMagRaw.None? ==> r.mag == fw.mag
    // the registers hold the last reading, scaled with the zeroed bias
    ensures run.lastMagRaw.Some? ==> var raw := run.lastMagRaw.value;
      && r.mag.raw == raw
      && r.mag.scaled == Mul3(raw, fw.cal.mag.scale)
    ensures r == fw.(cal := r.cal, sample := r.sample, mag := r.mag, calibrationPending := false)
  {
    var mag := match run.lastMagRaw
      case None => fw.mag
      case Some(raw) => fw.mag.(raw := raw, scaled := Mul3(raw, fw.cal.mag.scale));
    fw.(cal := ApplyRun(fw.cal, run), sample := run.lastSample, mag := mag, calibrationPending := false)
  }

  /** The INS/GPS branch, from the fresh sample on: state prediction, the link
      service, covariance prediction, the chosen correction, and the
      estimator's attitude copied out. */
  function InsBranch(f: Firmware, cfg: Config, link: LinkEnv, navQuaternion: Quaternion): (out: CycleOutcome)
    requires ValidConfig(cfg) && ValidEnv(link)
    ensures out.Reset? <==> link.state == UserBusy && link.request.ReqReset?
    ensures out.Continue? ==>
      && |out.calls| >= 3
      && out.calls[0] == StatePrediction(f.sample.gyro, f.sample.accel, 1.0 / cfg.ekfRate)
      && OneFinalUpdate(out.calls)
      && out.fw.attitude == navQuaternion
      && out.fw.sample == f.sample && out.fw.load == f.load
      && out.actions == ProcessSpiRequest(f, link).actions
      && (out.fw.calibrationPending <==> f.calibrationPending || (link.state == UserBusy && IsMeasure(link.request)))
      && (f.vel.z == 0.0 ==> out.fw.vel.z == 0.0)
    // the correction is chosen on the state the link service leaves, and its
    // calls end the cycle
    ensures out.Continue? ==>
      var g := ProcessSpiRequest(f, link).fw;
      var sel := SelectCorrection(g.gps, g.mag.updated);
      var corr := ApplyCorrection(g, cfg.maths).calls;
      var last := out.calls[|out.calls| - 1];
      && |corr| <= |out.calls|
      && out.calls[|out.calls| - |corr|..] == corr
      && (last.FullCorrection? <==> sel == Full)
      && (last.MagCorrection? <==> sel == MagOnly)
      && (last.VelBaroCorrection? <==> sel == VelBaro)
    // a full correction consumes both readings; the GPS/baro-only fallback zeroes the velocity
    ensures out.Continue? ==> var last := out.calls[|out.calls| - 1];
      && (last.FullCorrection? ==> !out.fw.gps.updated && !out.fw.mag.updated)
      && (last.VelBaroCorrection? ==> out.fw.vel == Zero3)
  {
    match ProcessSpiRequest(f, link)
    case HardReset(delay) => Reset(delay)
    case Serviced(g, actions, linkCalls) => AfterLinkService(g, cfg, actions, linkCalls, navQuaternion)
  }

  /** The rest of the INS/GPS branch once the link service has left firmware
      `g`: the prediction calls around the link's configuration calls, then
      the chosen correction. */
  function AfterLinkService(g: Firmware, cfg: Config, actions: seq<LinkAction>, linkCalls: seq<EstimatorCall>,
                            navQuaternion: Quaternion): (out: CycleOutcome)
    requires ValidConfig(cfg)
    requires forall k :: 0 <= k < |linkCalls| ==> IsConfiguration(linkCalls[k])
    ensures out.Continue?
    ensures |out.calls| >= 3 && out.calls[0] == StatePrediction(g.sample.gyro, g.sample.accel, 1.0 / cfg.ekfRate)
    ensures OneFinalUpdate(out.calls)
    ensures out.fw.attitude == navQuaternion && out.actions == actions
    ensures out.fw.sample == g.sample && out.fw.load == g.load && out.fw.calibrationPending == g.calibrationPending
    ensures g.vel.z == 0.0 ==> out.fw.vel.z == 0.0
    ensures var last := out.calls[|out.calls| - 1];
      && (last.FullCorrection? ==> !out.fw.gps.updated && !out.fw.mag.updated)
      && (last.VelBaroCorrection? ==> out.fw.vel == Zero3)
    ensures var corr := ApplyCorrection(g, cfg.maths).calls;
      |corr| <= |out.calls| && out.calls[|out.calls| - |corr|..] == corr
  {
    var dt := 1.0 / cfg.ekfRate;
    var c := ApplyCorrection(g, cfg.maths);
    var calls := [StatePrediction(g.sample.gyro, g.sample.accel, dt)] + linkCalls + [CovariancePrediction(dt)] + c.calls;
    InsCallsShape(StatePrediction(g.sample.gyro, g.sample.accel, dt), linkCalls, CovariancePrediction(dt), c.calls);
    assert calls[|calls| - |c.calls|..] == c.calls;
    Continue(c.fw.(attitude := navQuaternion), actions, calls)
  }

  /** Exactly one measurement update, as the last call, and never the
      GPS/baro-only correction. */
  ghost predicate OneFinalUpdate(calls: seq<EstimatorCall>)
  {
    && |calls| > 0
    && IsMeasurementUpdate(calls[|calls| - 1])
    && (forall k :: 0 <= k < |calls| - 1 ==> !IsMeasurementUpdate(calls[k]))
    && (forall k :: 0 <= k < |calls| ==> !calls[k].GpsBaroCorrection?)
  }

  lemma InsCallsShape(pre: EstimatorCall, linkCalls: seq<EstimatorCall>, post: EstimatorCall, corr: seq<EstimatorCall>)
    requires !IsMeasurementUpdate(pre) && !IsMeasurementUpdate(post)
    requires forall k :: 0 <= k < |linkCalls| ==> IsConfiguration(linkCalls[k])
    requires 1 <= |corr| && IsMeasurementUpdate(corr[|corr| - 1])
    requires forall k :: 0 <= k < |corr| - 1 ==> corr[k].SetPosVelVar?
    requires forall k :: 0 <= k < |corr| ==> !corr[k].GpsBaroCorrection?
    ensures var calls := [pre] + linkCalls + [post] + corr;
      |calls| >= 3 && calls[0] == pre && OneFinalUpdate(calls)
  {
    var calls := [pre] + linkCalls + [post] + corr;
    var n := 2 + |linkCalls|;
    assert calls[n..] == corr;
    forall k | 0 <= k < |calls| - 1
      ensures !IsMeasurementUpdate(calls[k])
    {
      if k >= n {
        assert calls[k] == corr[k - n];
      } else if 1 <= k < n - 1 {
        assert calls[k] == linkCalls[k - 1];
      }
    }
    forall k | 0 <= k < |calls|
      ensures !calls[k].GpsBaroCorrection?
    {
      if k >= n {
        assert calls[k] == corr[k - n];
      } else if 1 <= k < n - 1 {
        assert calls[k] == linkCalls[k - 1];
      }
    }
  }

  /** The SIMPLE branch: attitude from accelerometer and magnetometer, then the
      link service. */
  function SimpleBranch(f: Firmware, cfg: Config, link: LinkEnv): (out: CycleOutcome)
    requires ValidEnv(link)
    ensures out.Reset? <==> link.state == UserBusy && link.request.ReqReset?
    ensures out.Continue? ==>
      && out.fw.attitude == cfg.maths.rpyToQuaternion(SimpleRpy(f, cfg.maths))
      && (forall k :: 0 <= k < |out.calls| ==> IsConfiguration(out.calls[k]))
      && out.fw.sample == f.sample && out.fw.load == f.load && out.fw.vel == f.vel && out.fw.mag == f.mag
      && out.actions == ProcessSpiRequest(SimpleAttitude(f, cfg.maths), link).actions
      && (out.fw.calibrationPending <==> f.calibrationPending || (link.state == UserBusy && IsMeasure(link.request)))
  {
    var g := SimpleAttitude(f, cfg.maths);
    var o := ProcessSpiRequest(g, link);
    match o
    case HardReset(delay) => Reset(delay)
    case Serviced(fw', actions, linkCalls) => Continue(fw', actions, linkCalls)
  }

  /** The part of an iteration before the algorithm branch: a pending
      calibration, the magnetometer poll, the tick accounting and the
      decimation filter. */
  method Prepare(fw: Firmware, cfg: Config, i: CycleInput) returns (f: Firmware, run: Option<CalibrationRun>)
    requires ValidConfig(cfg) && ValidInput(fw, cfg, i) && LoopInvariant(fw)
    ensures run.Some? <==> fw.calibrationPending
    ensures run.Some? ==> var s := Samples(i.calibrationBlocks, cfg.fir, fw.cal);
      run.value.accel == Calibration(Mean(Accels(s)), fw.cal.accel.scale, NaiveVariance(Accels(s)))
      && run.value.gyro == Calibration(Mean(Gyros(s)), fw.cal.gyro.scale, NaiveVariance(Gyros(s)))
      && f.cal == ApplyRun(fw.cal, run.value)
    ensures run.None? ==> f.cal == fw.cal
    ensures f.sample == Downsample(i.block, cfg.fir, f.cal.accel, f.cal.gyro)
    ensures f.load == TimeCycle(fw.load, i.tWaitStart, i.tWaitEnd)
    ensures i.magReading.Some? ==> f.mag.updated && f.mag.raw == i.magReading.value
    ensures !f.calibrationPending && f.algorithm == fw.algorithm && f.vel == fw.vel
    ensures LoopInvariant(f)
    // GPS, altitude, attitude, velocity and algorithm are left as they were
    ensures f == fw.(cal := f.cal, sample := f.sample, mag := f.mag, load := f.load, calibrationPending := false)
    ensures run.Some? ==> run.value.lastMagRaw == LastReading(i.calibrationMags)
    // a fresh reading is scaled with the calibration in force
    ensures i.magReading.Some? ==> var raw := i.magReading.value;
      f.mag.scaled == Vec3(raw.x * f.cal.mag.scale.x + f.cal.mag.bias.x,
                           raw.y * f.cal.mag.scale.y + f.cal.mag.bias.y,
                           raw.z * f.cal.mag.scale.z + f.cal.mag.bias.z)
    // without one the registers are those the calibration run, if any, left behind
    ensures i.magReading.None? ==> f.mag.updated == fw.mag.updated
    ensures i.magReading.None? && (run.None? || run.value.lastMagRaw.None?) ==> f.mag == fw.mag
    ensures i.magReading.None? && run.Some? && run.value.lastMagRaw.Some? ==> var raw := run.value.lastMagRaw.value;
      && f.mag.raw == raw
      && f.mag.scaled == Mul3(raw, fw.cal.mag.scale)
  {
    var c;
    c, run := CalibrateIfPending(fw, cfg, i);
    var s := DownsampleBlock(i.block, cfg.fir, c.cal.accel, c.cal.gyro);
    f := c.(mag := ReadMagnetometer(c.mag, c.cal.mag, i.magReading),
            load := TimeCycle(c.load, i.tWaitStart, i.tWaitEnd),
            sample := s);
  }

  /** The first step of an iteration: the calibration run, if one is pending,
      and the globals it leaves behind. */
  method CalibrateIfPending(fw: Firmware, cfg: Config, i: CycleInput) returns (c: Firmware, run: Option<CalibrationRun>)
    requires ValidConfig(cfg) && ValidInput(fw, cfg, i)
    ensures run.Some? <==> fw.calibrationPending
    ensures run.Some? ==> var s := Samples(i.calibrationBlocks, cfg.fir, fw.cal);
      && run.value.accel == Calibration(Mean(Accels(s)), fw.cal.accel.scale, NaiveVariance(Accels(s)))
      && run.value.gyro == Calibration(Mean(Gyros(s)), fw.cal.gyro.scale, NaiveVariance(Gyros(s)))
      && run.value.lastMagRaw == LastReading(i.calibrationMags)
      && c == AfterCalibration(fw, run.value)
    ensures run.None? ==> c == fw
  {
    c := fw;
    run := None;
    if fw.calibrationPending {
      var r := Calibrate(fw.cal, cfg.fir, i.calibrationBlocks, i.calibrationMags);
      run := Some(r);
      c := AfterCalibration(fw, r);
    }
  }

  /** One iteration of the main loop. */
  method Cycle(fw: Firmware, cfg: Config, i: CycleInput) returns (out: CycleOutcome, run: Option<CalibrationRun>, prepared: Firmware)
    requires ValidConfig(cfg) && ValidInput(fw, cfg, i)
    requires LoopInvariant(fw)
    // a pending calibration runs first, on the 250 calibration blocks
    ensures run.Some? <==> fw.calibrationPending
    ensures run.Some? ==> var s := Samples(i.calibrationBlocks, cfg.fir, fw.cal);
      run.value.accel == Calibration(Mean(Accels(s)), fw.cal.accel.scale, NaiveVariance(Accels(s)))
      && run.value.gyro == Calibration(Mean(Gyros(s)), fw.cal.gyro.scale, NaiveVariance(Gyros(s)))
    // a reset request ends the loop; it is seen only when an algorithm branch services the link
    ensures out.Reset? <==> !fw.algorithm.OtherAlgorithm? && i.link.state == UserBusy && i.link.request.ReqReset?
    // any other algorithm code does no estimation and never services the link
    ensures fw.algorithm.OtherAlgorithm? ==> out.Continue? && out.actions == [] && out.calls == []
    ensures out.Continue? ==> LoopInvariant(out.fw)
    ensures out.Continue? ==> out.fw.load == TimeCycle(fw.load, i.tWaitStart, i.tWaitEnd)
    // the pending flag is cleared, unless this iteration's request asks for a new calibration
    ensures out.Continue? ==> (out.fw.calibrationPending <==>
      !fw.algorithm.OtherAlgorithm? && i.link.state == UserBusy
      && IsMeasure(i.link.request))
    // INS/GPS: predict with the fresh sample, service the link, then end with
    // exactly one measurement update, never the GPS/baro-only one
    ensures fw.algorithm == InsGps && out.Continue? ==>
      && |out.calls| >= 3
      && out.calls[0].StatePrediction? && out.calls[0].dt == 1.0 / cfg.ekfRate
      && out.calls[0].gyro == out.fw.sample.gyro && out.calls[0].accel == out.fw.sample.accel
      && OneFinalUpdate(out.calls)
      && out.fw.attitude == i.navQuaternion
      && (out.calls[|out.calls| - 1].FullCorrection? ==> !out.fw.gps.updated && !out.fw.mag.updated)
      && (out.calls[|out.calls| - 1].VelBaroCorrection? ==> out.fw.vel == Zero3)
    // SIMPLE: the attitude comes from the accelerometer and the raw magnetometer;
    // the estimator is called only by the link
    ensures fw.algorithm == Simple && out.Continue? ==>
      && out.fw.attitude == cfg.maths.rpyToQuaternion(SimpleRpy(out.fw, cfg.maths))
      && (forall k :: 0 <= k < |out.calls| ==> IsConfiguration(out.calls[k]))
    // `prepared` is the state the algorithm branch starts from: before the branch
    // only the calibration, the sample, the magnetometer and the ticks change
    ensures prepared == fw.(cal := prepared.cal, sample := prepared.sample, mag := prepared.mag,
                            load := prepared.load, calibrationPending := false)
    ensures prepared.sample == Downsample(i.block, cfg.fir, prepared.cal.accel, prepared.cal.gyro)
    ensures i.magReading.Some? ==> prepared.mag.updated && prepared.mag.raw == i.magReading.value
    ensures i.magReading.None? && !fw.calibrationPending ==> prepared.mag == fw.mag
    ensures fw.algorithm.OtherAlgorithm? ==> out == Continue(prepared, [], [])
    // INS/GPS: the final measurement update is the one the fusion policy selects
    // on the state the link service leaves
    ensures fw.algorithm == InsGps && out.Continue? ==>
      var g := ProcessSpiRequest(prepared, i.link).fw;
      var sel := SelectCorrection(g.gps, g.mag.updated);
      var last := out.calls[|out.calls| - 1];
      && (last.FullCorrection? <==> sel == Full)
      && (last.MagCorrection? <==> sel == MagOnly)
      && (last.VelBaroCorrection? <==> sel == VelBaro)
  {
    prepared, run := Prepare(fw, cfg, i);
    out := RunAlgorithm(prepared, cfg, i.link, i.navQuaternion);
  }

  /** The algorithm switch of an iteration, on the prepared firmware `f`. */
  method RunAlgorithm(f: Firmware, cfg: Config, link: LinkEnv, navQuaternion: Quaternion) returns (out: CycleOutcome)
    requires ValidConfig(cfg) && ValidEnv(link)
    requires LoopInvariant(f)
    ensures out.Reset? <==> !f.algorithm.OtherAlgorithm? && link.state == UserBusy && link.request.ReqReset?
    ensures f.algorithm.OtherAlgorithm? ==> out == Continue(f, [], [])
    ensures out.Continue? ==> LoopInvariant(out.fw) && out.fw.load == f.load
    ensures out.Continue? ==> (out.fw.calibrationPending <==>
      f.calibrationPending || (!f.algorithm.OtherAlgorithm? && link.state == UserBusy && IsMeasure(link.request)))
    ensures f.algorithm == InsGps && out.Continue? ==>
      && |out.calls| >= 3
      && out.calls[0] == StatePrediction(out.fw.sample.gyro, out.fw.sample.accel, 1.0 / cfg.ekfRate)
      && OneFinalUpdate(out.calls)
      && out.fw.attitude == navQuaternion
      && (out.calls[|out.calls| - 1].FullCorrection? ==> !out.fw.gps.updated && !out.fw.mag.updated)
      && (out.calls[|out.calls| - 1].VelBaroCorrection? ==> out.fw.vel == Zero3)
    ensures f.algorithm == InsGps && out.Continue? ==>
      var g := ProcessSpiRequest(f, link).fw;
      var sel := SelectCorrection(g.gps, g.mag.updated);
      var last := out.calls[|out.calls| - 1];
      && (last.FullCorrection? <==> sel == Full)
      && (last.MagCorrection? <==> sel == MagOnly)
      && (last.VelBaroCorrection? <==> sel == VelBaro)
    ensures f.algorithm == Simple && out.Continue? ==>
      && out.fw.attitude == cfg.maths.rpyToQuaternion(SimpleRpy(out.fw, cfg.maths))
      && (forall k :: 0 <= k < |out.calls| ==> IsConfiguration(out.calls[k]))
  {
    match f.algorithm {
      case InsGps =>
        out := InsBranch(f, cfg, link, navQuaternion);
      case Simple =>
        out := SimpleBranch(f, cfg, link);
        if out.Continue? {
          assert out.fw.sample == f.sample && out.fw.mag == f.mag;
          assert SimpleRpy(out.fw, cfg.maths) == SimpleRpy(f, cfg.maths);
        }
      case OtherAlgorithm(_) =>
        out := Continue(f, [], []);
    }
  }
}

=== FILE: ahrs_types.dfy ===
/** The records the AHRS coprocessor firmware keeps as globals (`flight/AHRS/ahrs.c`),
    rendered as immutable values, plus the calls it makes into the estimator library,
    which is not part of this model and is represented only by the calls it receives. */
module AhrsTypes {
  import opened Common

  /** Per-axis bias, scale and variance of one sensor. */
  datatype Calibration = Calibration(bias: Vec3, scale: Vec3, variance: Vec3)

  /** The calibration blocks of `accel_data`, `gyro_data` and `mag_data`. */
  datatype SensorCalibrations = SensorCalibrations(accel: Calibration, gyro: Calibration, mag: Calibration)

  /** One decimated, scaled and biased accelerometer and gyro sample (the
      `filtered` parts of `accel_data` and `gyro_data`). */
  datatype Sample = Sample(accel: Vec3, gyro: Vec3)

  /** The magnetometer reading: raw chip registers, scaled value and the
      new-data flag consumed by the fusion policy. */
  datatype MagData = MagData(raw: Vec3, scaled: Vec3, updated: bool)

  datatype AltitudeData = AltitudeData(altitude: real, updated: bool)

  /** GPS data forwarded by the flight board; `quality == -1` means no fix was ever seen. */
  datatype GpsData = GpsData(ned: Vec3, heading: real, groundspeed: real, quality: real, updated: bool)

  datatype Quaternion = Quaternion(q1: real, q2: real, q3: real, q4: real)

  /** The value of `ahrs_algorithm`. The request carries a raw byte, so any
      other code can be stored as well. */
  datatype Algorithm = InsGps | Simple | OtherAlgorithm(code: int)

  /** The estimator library's entry points, recorded in call order. */
  datatype EstimatorCall =
    | InsInit
    | SetAccelVar(accelVar: Vec3)
    | SetGyroVar(gyroVar: Vec3)
    | SetMagVar(magVar: Vec3)
    | SetGyroBias(gyroBias: Vec3)
    | SetMagNorth(be: Vec3)
    | SetPosVelVar(posVelVar: real)
    | StatePrediction(gyro: Vec3, accel: Vec3, dt: real)
    | CovariancePrediction(dt: real)
    | FullCorrection(mag: Vec3, ned: Vec3, vel: Vec3, altitude: real)
    | GpsBaroCorrection(ned: Vec3, vel: Vec3, altitude: real)
    | MagCorrection(mag: Vec3)
    | VelBaroCorrection(vel: Vec3, altitude: real)

  /** The four measurement updates; every cycle of the INS/GPS branch ends with one. */
  predicate IsMeasurementUpdate(c: EstimatorCall)
  {
    c.FullCorrection? || c.GpsBaroCorrection? || c.MagCorrection? || c.VelBaroCorrection?
  }

  /** Calls that set up the estimator's noise model or reference field without
      advancing its state. */
  predicate IsConfiguration(c: EstimatorCall)
  {
    c.InsInit? || c.SetAccelVar? || c.SetGyroVar? || c.SetMagVar? || c.SetGyroBias? || c.SetMagNorth? || c.SetPosVelVar?
  }

  /** The estimator's navigation output as read by the link (`Nav.Pos`, `Nav.Vel`). */
  datatype NavOutput = NavOutput(pos: Vec3, vel: Vec3)

  /** Tick snapshots and the per-cycle idle/running counts (all `uint32_t`). */
  datatype LoadCounters = LoadCounters(lastIdleStart: int, lastIdleEnd: int, idle: int, running: int)

  ghost predicate ValidLoad(l: LoadCounters)
  {
    0 <= l.lastIdleStart < Word32 && 0 <= l.lastIdleEnd < Word32 && 0 <= l.idle < Word32 && 0 <= l.running < Word32
  }

  /** The firmware's globals that the modelled code reads and writes, plus the
      `vel` array that `main` keeps across loop iterations. */
  datatype Firmware = Firmware(
    cal: SensorCalibrations,
    sample: Sample,
    mag: MagData,
    gps: GpsData,
    altitude: AltitudeData,
    attitude: Quaternion,
    algorithm: Algorithm,
    calibrationPending: bool,
    vel: Vec3,
    load: LoadCounters)

  /** `reset_values`: the power-on calibration. */
  function ResetValues(): (c: SensorCalibrations)
    ensures c.accel.variance.x > 0.0 && c.accel.variance.y > 0.0 && c.accel.variance.z > 0.0
    ensures c.gyro.variance.x > 0.0 && c.gyro.variance.y > 0.0 && c.gyro.variance.z > 0.0
    ensures c.mag.variance.x > 0.0 && c.mag.variance.y > 0.0 && c.mag.variance.z > 0.0
    ensures c.accel.scale.x != 0.0 && c.accel.scale.y != 0.0 && c.accel.scale.z != 0.0
    ensures c.gyro.scale.x != 0.0 && c.gyro.scale.y != 0.0 && c.gyro.scale.z != 0.0
    ensures c.mag.scale == Vec3(1.0, 1.0, 1.0) && c.mag.bias == Zero3
  {
    SensorCalibrations(
      Calibration(Vec3(24.0, 24.0, -24.0), Vec3(0.012, 0.012, -0.012), Vec3(0.0001, 0.0001, 0.0001)),
      Calibration(Vec3(-24.0, -24.0, -24.0), Vec3(-0.014, 0.014, -0.014), Vec3(1.0, 1.0, 1.0)),
      Calibration(Zero3, Vec3(1.0, 1.0, 1.0), Vec3(1.0, 1.0, 1.0)))
  }

  /** The magnetometer's registers are (left, backward, up); the estimator wants
      (forward, right, down). */
  function MagToBody(scaled: Vec3): (m: Vec3)
    ensures Vec3(-m.y, -m.x, -m.z) == scaled
  {
    Vec3(-scaled.y, -scaled.x, -scaled.z)
  }

  /** The same axis swap applied to a per-axis variance, which has no sign. */
  function VarianceToBody(v: Vec3): (b: Vec3)
    ensures Vec3(b.y, b.x, b.z) == v
  {
    Vec3(v.y, v.x, v.z)
  }

  /** `converge_insgps`: initialise the estimator with the current variances,
      swapping the magnetometer's x and y to body order. */
  function ConvergeCalls(c: SensorCalibrations): (calls: seq<EstimatorCall>)
    ensures |calls| == 4 && calls[0] == InsInit
    ensures calls[1] == SetAccelVar(c.accel.variance) && calls[2] == SetGyroVar(c.gyro.variance)
    ensures calls[3].SetMagVar? && calls[3].magVar.x == c.mag.variance.y && calls[3].magVar.y == c.mag.variance.x
    ensures calls[3].magVar.z == c.mag.variance.z
  {
    [InsInit, SetAccelVar(c.accel.variance), SetGyroVar(c.gyro.variance), SetMagVar(VarianceToBody(c.mag.variance))]
  }
}

=== FILE: common.dfy ===
/** Small shared vocabulary: optional values, results, three-axis vectors and
    floating-point values that may be NaN. */
module Common {

  datatype Option<+T> = None | Some(value: T)

  datatype Result<+R, +E> = Success(value: R) | Failure(error: E)

  /** A three-axis quantity; index 0 is x, 1 is y, 2 is z, as in the firmware's
      `bias[3]`, `scale[3]` and `variance[3]` arrays. */
  datatype Vec3 = Vec3(x: real, y: real, z: real)

  const Zero3: Vec3 := Vec3(0.0, 0.0, 0.0)

  function Add3(a: Vec3, b: Vec3): Vec3
  {
    Vec3(a.x + b.x, a.y + b.y, a.z + b.z)
  }

  /** Component-wise product. */
  function Mul3(a: Vec3, b: Vec3): Vec3
  {
    Vec3(a.x * b.x, a.y * b.y, a.z * b.z)
  }

  function Square3(a: Vec3): Vec3
  {
    Mul3(a, a)
  }

  function Div3(a: Vec3, d: real): Vec3
    requires d != 0.0
  {
    Vec3(a.x / d, a.y / d, a.z / d)
  }

  function Sub3(a: Vec3, b: Vec3): Vec3
  {
    Vec3(a.x - b.x, a.y - b.y, a.z - b.z)
  }

  /** A C `double`/`float` as far as the modelled code inspects it: a number, or
      NaN (the value for which `x != x`). Infinities are not modelled. */
  datatype Float = Num(r: real) | NaN

  /** Width of the firmware's `uint32_t` counters. */
  const Word32: int := 0x1_0000_0000

  /** `a - b` on `uint32_t`, which wraps modulo 2^32. */
  function SubU32(a: int, b: int): (r: int)
    ensures 0 <= r < Word32
    ensures (r + b - a) % Word32 == 0
  {
    (a - b) % Word32
  }

  /** `a + b` on `uint32_t`. */
  function AddU32(a: int, b: int): (r: int)
    ensures 0 <= r < Word32
    ensures (r - a - b) % Word32 == 0
  {
    (a + b) % Word32
  }

  /** Integer division as C performs it: truncation toward zero. */
  function DivTrunc(a: int, b: int): (q: int)
    requires b != 0
    ensures (a >= 0) == (b > 0) || a == 0 ==> q >= 0
    ensures -(if a < 0 then -a else a) <= q * (if b < 0 then -b else b) <= (if a < 0 then -a else a)
  {
    var na := if a < 0 then -a else a;
    var nb := if b < 0 then -b else b;
    var m := na / nb;
    if (a < 0) == (b < 0) then m else -m
  }
}

=== FILE: gcs_control.dfy ===
/** The ground station's manual-control gadget
    (`ground/openpilotgcs/src/plugins/gcscontrol/gcscontrolgadget.cpp`): it
    mirrors the `ManualControlCommand` object on two on-screen sticks, writes
    stick movements back to the object, accepts the same four axes over UDP,
    and turns raw joystick axes into stick positions. */
module GcsControl {
  import opened Common

  /** The two on-screen sticks, each axis in [-1, 1]. */
  datatype Sticks = Sticks(leftX: real, leftY: real, rightX: real, rightY: real)

  /** Roll, pitch, yaw and throttle, in `ManualControlCommand` units. */
  datatype Rpyt = Rpyt(roll: real, pitch: real, yaw: real, throttle: real)

  const ZeroRpyt: Rpyt := Rpyt(0.0, 0.0, 0.0, 0.0)

  /** The fields of `ManualControlCommand` this gadget reads or writes. */
  datatype Command = Command(roll: real, pitch: real, yaw: real, throttle: real, thrust: real, connected: bool)

  /** One of the eight configured joystick buttons. */
  datatype ButtonSetting = ButtonSetting(actionId: int, functionId: int, amount: real)

  /** Which joystick axis the configuration assigns to each control; -1 means none. */
  datatype Channels = Channels(roll: int, pitch: int, yaw: int, throttle: int)

  /** The configuration loaded into the gadget. */
  datatype Gadget = Gadget(controlsMode: int, buttons: seq<ButtonSetting>, channels: Channels)

  /** The widget's two check boxes. */
  datatype Widget = Widget(gcsControl: bool, udpControl: bool)

  // ---------------------------------------------------------------------------
  // Mapping between the command and the sticks

  /** The command's throttle (0..1) as a stick position (-1..1). Values at or
      below -1 and above 1 are pinned to the nearer end; a throttle between -1
      and 0 is converted like an in-range one and lands below the stick's travel. */
  function ThrottleToStick(t: real): (s: real)
    ensures s <= 1.0
    ensures 0.0 <= t ==> -1.0 <= s
    ensures -1.0 < t < 0.0 ==> s < -1.0
    ensures -1.0 < t <= 1.0 ==> (s + 1.0) / 2.0 == t
    ensures t <= -1.0 ==> s == -1.0
    ensures t > 1.0 ==> s == 1.0
  {
    if -1.0 < t <= 1.0 then -1.0 + t * 2.0
    else if t <= -1.0 then -1.0
    else 1.0
  }

  /** Threshold below which the stick's throttle is replaced by the motor-off value. */
  const ThrottleCutoff: real := 0.01

  /** A stick position (-1..1) as the command's throttle; the bottom of the
      stick's travel stops the motors (-1) instead of commanding a small throttle. */
  function StickToThrottle(s: real): (t: real)
    ensures t == -1.0 || t > ThrottleCutoff
    ensures t == -1.0 <==> s <= -1.0 + 2.0 * ThrottleCutoff
    ensures t != -1.0 ==> ThrottleToStick(t) == s || t > 1.0
  {
    var t := (s + 1.0) / 2.0;
    if t <= ThrottleCutoff then -1.0 else t
  }

  /** The four stick modes: which control sits on which stick axis. */
  predicate KnownMode(mode: int)
  {
    1 <= mode <= 4
  }

  /** The stick an axis-pair carries the throttle on. */
  function ThrottleStick(mode: int, s: Sticks): real
  {
    if mode == 2 || mode == 4 then s.leftY else s.rightY
  }

  /** `manualControlCommandUpdated`: the sticks shown for a command; nothing is
      shown for an unknown mode. */
  function SticksFromCommand(mode: int, cmd: Command): (r: Option<Sticks>)
    ensures r.Some? <==> KnownMode(mode)
    ensures r.Some? ==> ThrottleStick(mode, r.value) == ThrottleToStick(cmd.throttle)
    ensures r.Some? && 0.0 <= cmd.throttle ==> -1.0 <= ThrottleStick(mode, r.value) <= 1.0
  {
    var t := ThrottleToStick(cmd.throttle);
    if mode == 1 then Some(Sticks(cmd.yaw, -cmd.pitch, cmd.roll, t))
    else if mode == 2 then Some(Sticks(cmd.yaw, t, cmd.roll, -cmd.pitch))
    else if mode == 3 then Some(Sticks(cmd.roll, -cmd.pitch, cmd.yaw, t))
    else if mode == 4 then Some(Sticks(cmd.roll, t, cmd.yaw, -cmd.pitch))
    else None
  }

  /** The controls the sticks stand for, before the throttle conversion; an
      unknown mode reads as all zero. */
  function RpytFromSticks(mode: int, s: Sticks): (r: Rpyt)
    ensures KnownMode(mode) ==> r.throttle == ThrottleStick(mode, s)
    ensures !KnownMode(mode) ==> r == ZeroRpyt
  {
    if mode == 1 then Rpyt(s.rightX, -s.leftY, s.leftX, s.rightY)
    else if mode == 2 then Rpyt(s.rightX, -s.rightY, s.leftX, s.leftY)
    else if mode == 3 then Rpyt(s.leftX, -s.leftY, s.rightX, s.rightY)
    else if mode == 4 then Rpyt(s.leftX, -s.rightY, s.rightX, s.leftY)
    else ZeroRpyt
  }

  /** In every stick mode the local remapping undoes the remote one: roll,
      pitch and yaw come back as they were, and the throttle as its stick
      position. */
  lemma RemapInverts(mode: int, cmd: Command)
    requires KnownMode(mode)
    ensures var s := SticksFromCommand(mode, cmd);
      s.Some? && RpytFromSticks(mode, s.value) == Rpyt(cmd.roll, cmd.pitch, cmd.yaw, ThrottleToStick(cmd.throttle))
  {
  }

  /** A button configured to drive `control` (1 roll, 2 pitch, 3 yaw,
      4 throttle) with action 1 or 2 takes that axis away from the sticks. */
  predicate AxisLocked(buttons: seq<ButtonSetting>, control: int)
  {
    exists i :: 0 <= i < |buttons| && buttons[i].functionId == control && (buttons[i].actionId == 1 || buttons[i].actionId == 2)
  }

  /** The outcome of a local stick movement: the command and whether it was published. */
  datatype LocalUpdate = LocalUpdate(cmd: Command, published: bool)

  /** `sticksChangedLocally`. */
  function SticksChangedLocally(g: Gadget, w: Widget, cmd: Command, s: Sticks): (r: LocalUpdate)
    // only in local GCS control, and never while UDP has control
    ensures !w.gcsControl || w.udpControl ==> r == LocalUpdate(cmd, false)
    // published exactly when some control differs from the command
    ensures w.gcsControl && !w.udpControl ==>
      var n := RpytFromSticks(g.controlsMode, s).(throttle := StickToThrottle(RpytFromSticks(g.controlsMode, s).throttle));
      && (r.published <==> n != Rpyt(cmd.roll, cmd.pitch, cmd.yaw, cmd.throttle))
      && (r.published ==> r.cmd.connected)
      && r.cmd.roll == (if r.published && !AxisLocked(g.buttons, 1) then n.roll else cmd.roll)
      && r.cmd.pitch == (if r.published && !AxisLocked(g.buttons, 2) then n.pitch else cmd.pitch)
      && r.cmd.yaw == (if r.published && !AxisLocked(g.buttons, 3) then n.yaw else cmd.yaw)
      && r.cmd.throttle == (if r.published && !AxisLocked(g.buttons, 4) then n.throttle else cmd.throttle)
    // thrust follows the throttle whenever the throttle is written
    ensures r.cmd.thrust == cmd.thrust || r.cmd.thrust == r.cmd.throttle
    ensures !r.published ==> r.cmd == cmd
  {
    var raw := RpytFromSticks(g.controlsMode, s);
    if !w.gcsControl || w.udpControl then LocalUpdate(cmd, false)
    else
      var n := raw.(throttle := StickToThrottle(raw.throttle));
      if n.throttle != cmd.throttle || n.pitch != cmd.pitch || n.yaw != cmd.yaw || n.roll != cmd.roll then
        var c1 := if AxisLocked(g.buttons, 1) then cmd else cmd.(roll := n.roll);
        var c2 := if AxisLocked(g.buttons, 2) then c1 else c1.(pitch := n.pitch);
        var c3 := if AxisLocked(g.buttons, 3) then c2 else c2.(yaw := n.yaw);
        var c4 := if AxisLocked(g.buttons, 4) then c3 else c3.(throttle := n.throttle, thrust := n.throttle);
        LocalUpdate(c4.(connected := true), true)
      else LocalUpdate(cmd, false)
  }

  /** The sticks echo a remote command without re-publishing it: when the
      widget shows a command and hands the same stick positions back, nothing
      is written (the two slots do not feed each other in a loop), provided the
      throttle is in the range the stick can represent. */
  lemma EchoIsQuiet(g: Gadget, w: Widget, cmd: Command)
    requires KnownMode(g.controlsMode) && w.gcsControl && !w.udpControl
    requires ThrottleCutoff < cmd.throttle <= 1.0
    ensures var s := SticksFromCommand(g.controlsMode, cmd);
      s.Some? && SticksChangedLocally(g, w, cmd, s.value) == LocalUpdate(cmd, false)
  {
    var s := SticksFromCommand(g.controlsMode, cmd).value;
    var raw := RpytFromSticks(g.controlsMode, s);
    assert raw == Rpyt(cmd.roll, cmd.pitch, cmd.yaw, ThrottleToStick(cmd.throttle));
    assert StickToThrottle(raw.throttle) == cmd.throttle;
  }

  /** Stick positions survive the round trip through the command: writing them
      and showing the result gives the same sticks back, unless the throttle
      stick is in the motor-off band at the bottom of its travel. */
  lemma SticksRoundTrip(g: Gadget, w: Widget, cmd: Command, s: Sticks)
    requires KnownMode(g.controlsMode) && w.gcsControl && !w.udpControl
    requires forall f :: 1 <= f <= 4 ==> !AxisLocked(g.buttons, f)
    requires -1.0 + 2.0 * ThrottleCutoff < ThrottleStick(g.controlsMode, s) <= 1.0
    ensures SticksFromCommand(g.controlsMode, SticksChangedLocally(g, w, cmd, s).cmd) == Some(s)
  {
    assert !AxisLocked(g.buttons, 1) && !AxisLocked(g.buttons, 2);
    assert !AxisLocked(g.buttons, 3) && !AxisLocked(g.buttons, 4);
    var raw := RpytFromSticks(g.controlsMode, s);
    var t := StickToThrottle(raw.throttle);
    assert ThrottleToStick(t) == raw.throttle;
  }

  /** A throttle stick at the bottom of its travel commands the motor-off value. */
  lemma LowStickStopsMotors(g: Gadget, w: Widget, cmd: Command, s: Sticks)
    requires KnownMode(g.controlsMode) && w.gcsControl && !w.udpControl && !AxisLocked(g.buttons, 4)
    requires ThrottleStick(g.controlsMode, s) <= -1.0 + 2.0 * ThrottleCutoff
    ensures var r := SticksChangedLocally(g, w, cmd, s);
      r.cmd.throttle == -1.0 && (r.published ==> r.cmd.thrust == -1.0)
  {
  }

  // ---------------------------------------------------------------------------
  // Saturation helpers

  /** `constrain`: clamp to [-1, 1]. */
  function Constrain(value: real): (r: real)
    ensures -1.0 <= r <= 1.0
    ensures -1.0 <= value <= 1.0 ==> r == value
    ensures value < -1.0 ==> r == -1.0
    ensures value > 1.0 ==> r == 1.0
  {
    if value < -1.0 then -1.0
    else if value > 1.0 then 1.0
    else value
  }

  /** `bound`: the same clamp, with the tests in the other order. */
  function Bound(input: real): (r: real)
    ensures -1.0 <= r <= 1.0
    ensures -1.0 <= input <= 1.0 ==> r == input
    ensures r == 1.0 <== input >= 1.0
    ensures r == -1.0 <== input <= -1.0
  {
    if input > 1.0 then 1.0
    else if input < -1.0 then -1.0
    else input
  }

  /** The two clamps agree everywhere. */
  lemma ConstrainIsBound(x: real)
    ensures Constrain(x) == Bound(x)
  {
  }

  /** `wrap`: bring a value into [-1, 1] by whole turns of 2. */
  method Wrap(input: real) returns (r: real, ghost turns: int)
    ensures -1.0 <= r <= 1.0
    ensures r == input - 2.0 * turns as real
    ensures -1.0 <= input <= 1.0 ==> r == input
    ensures input > 1.0 ==> -1.0 < r
    ensures input < -1.0 ==> r < 1.0
  {
    r := input;
    turns := 0;
    while r > 1.0
      invariant r == input - 2.0 * turns as real
      invariant input <= 1.0 ==> r == input
      invariant input > 1.0 ==> r > -1.0
      decreases r.Floor
    {
      r := r - 2.0;
      turns := turns + 1;
    }
    while r < -1.0
      invariant r == input - 2.0 * turns as real
      invariant r <= 1.0
      invariant -1.0 <= input <= 1.0 ==> r == input
      invariant input > 1.0 ==> r > -1.0
      invariant input < -1.0 ==> r < 1.0
      decreases (-r).Floor
    {
      r := r + 2.0;
      turns := turns - 1;
    }
  }

  // ---------------------------------------------------------------------------
  // UDP control

  /** Frame markers: a datagram is 42, pitch, yaw, roll, throttle, 36. */
  const FrameStart: real := 42.0
  const FrameEnd: real := 36.0

  /** The parser of `readUDPCommand`: its state, the bad-packet flag and the
      four values, which persist from one datagram to the next. */
  datatype Parser = Parser(state: int, bad: bool, v: Rpyt)

  /** One turn of the parsing loop; `atEnd` says whether the value just read
      was the last in the datagram. */
  function ParseStep(p: Parser, buffer: real, atEnd: bool): (r: Parser)
    // a datagram turns bad on a wrong start marker or a wrong or non-final end
    // marker, and never recovers
    ensures r.bad <==> p.bad || (p.state == 0 && buffer != FrameStart) || (p.state == 5 && (buffer != FrameEnd || !atEnd))
    // each accepted value before the end marker advances the state by one
    ensures 0 <= p.state < 5 && !r.bad ==> r.state == p.state + 1
    ensures p.state == 5 ==> r.state == 5
    // the markers carry no value
    ensures p.state == 0 || p.state >= 5 ==> r.v == p.v
  {
    if p.state == 0 then
      (if buffer == FrameStart then p.(state := 1) else p.(state := 0, bad := true))
    else if p.state == 1 then p.(v := p.v.(pitch := buffer), state := 2)
    else if p.state == 2 then p.(v := p.v.(yaw := buffer), state := 3)
    else if p.state == 3 then p.(v := p.v.(roll := buffer), state := 4)
    else if p.state == 4 then p.(v := p.v.(throttle := buffer), state := 5)
    else if p.state == 5 then
      (if buffer != FrameEnd || !atEnd then p.(bad := true) else p)
    else p
  }

  /** The parsing loop: read until the datagram ends or it is found bad. */
  function ParseFrom(d: seq<real>, p: Parser): (r: Parser)
    // a bad datagram is not read further
    ensures p.bad ==> r == p
    // a datagram that stays good advanced the state once per value, up to 5
    ensures 0 <= p.state <= 5 && !r.bad ==> r.state == (if p.state + |d| < 5 then p.state + |d| else 5)
    // once the four values are read, nothing overwrites them
    ensures p.state == 5 ==> r.v == p.v
    decreases |d|
  {
    if |d| == 0 || p.bad then p
    else ParseFrom(d[1..], ParseStep(p, d[0], |d| == 1))
  }

  /** What the parser as written rejects: a first value that is not the start
      marker, or a sixth value that is not a final end marker. */
  predicate Rejected(d: seq<real>)
  {
    |d| >= 1 && (d[0] != FrameStart || (|d| >= 6 && (d[5] != FrameEnd || |d| > 6)))
  }

  /** The parser as written, run on one datagram from the values carried over:
      it rejects exactly the `Rejected` datagrams, and a datagram that starts
      with the marker overwrites as many of the four values as it holds. */
  function ParseDatagram(d: seq<real>, v: Rpyt): (p: Parser)
    ensures p.bad <==> Rejected(d)
    ensures p.v == PartialValues(d, v)
  {
    ParseDatagramAccepts(d, v);
    ParseFrom(d, Parser(0, false, v))
  }

  /** The intended wire format: exactly the six values, with both markers. */
  predicate WellFramed(d: seq<real>)
  {
    |d| == 6 && d[0] == FrameStart && d[5] == FrameEnd
  }

  /** The four values a well-framed datagram carries. */
  function FrameValues(d: seq<real>): Rpyt
    requires |d| >= 5
  {
    Rpyt(d[3], d[1], d[2], d[4])
  }

  /** The values the parser leaves behind: a datagram that starts with the
      marker overwrites as many of the four as it holds. */
  function PartialValues(d: seq<real>, v: Rpyt): Rpyt
  {
    if |d| == 0 || d[0] != FrameStart then v
    else
      var v1 := if |d| > 1 then v.(pitch := d[1]) else v;
      var v2 := if |d| > 2 then v1.(yaw := d[2]) else v1;
      var v3 := if |d| > 3 then v2.(roll := d[3]) else v2;
      if |d| > 4 then v3.(throttle := d[4]) else v3
  }

  /** Once the four values are read, the parser only checks the end marker. */
  lemma {:induction false} ParseTail(d: seq<real>, p: Parser)
    requires p.state == 5 && !p.bad
    ensures ParseFrom(d, p).v == p.v
    ensures ParseFrom(d, p).bad <==> |d| >= 1 && (d[0] != FrameEnd || |d| > 1)
  {
    if |d| > 0 {
      var q := ParseStep(p, d[0], |d| == 1);
      if !q.bad {
        assert |d| == 1;
        assert ParseFrom(d[1..], q) == q;
      } else {
        assert ParseFrom(d[1..], q) == q;
      }
    }
  }

  /** What the parser as written accepts: a datagram is bad only when its first
      value is not the start marker, or when it reaches a sixth value that is
      not a final end marker. Datagrams cut short after the start marker,
      including the empty datagram, are accepted. */
  lemma {:induction false} ParseDatagramAccepts(d: seq<real>, v: Rpyt)
    ensures ParseFrom(d, Parser(0, false, v)).bad <==> Rejected(d)
    ensures ParseFrom(d, Parser(0, false, v)).v == PartialValues(d, v)
  {
    var p0 := Parser(0, false, v);
    if |d| == 0 {
    } else if d[0] != FrameStart {
      assert ParseFrom(d[1..], ParseStep(p0, d[0], |d| == 1)) == ParseStep(p0, d[0], |d| == 1);
    } else {
      var p1 := ParseStep(p0, d[0], |d| == 1);
      assert ParseFrom(d, p0) == ParseFrom(d[1..], p1);
      if |d| == 1 {
      } else {
        var p2 := ParseStep(p1, d[1], |d| == 2);
        assert ParseFrom(d[1..], p1) == ParseFrom(d[2..], p2);
        if |d| == 2 {
        } else {
          var p3 := ParseStep(p2, d[2], |d| == 3);
          assert ParseFrom(d[2..], p2) == ParseFrom(d[3..], p3);
          if |d| == 3 {
          } else {
            var p4 := ParseStep(p3, d[3], |d| == 4);
            assert ParseFrom(d[3..], p3) == ParseFrom(d[4..], p4);
            if |d| == 4 {
            } else {
              var p5 := ParseStep(p4, d[4], |d| == 5);
              assert ParseFrom(d[4..], p4) == ParseFrom(d[5..], p5);
              assert p5.v == PartialValues(d, v);
              ParseTail(d[5..], p5);
            }
          }
        }
      }
    }
  }

  /** The parser as written lets the empty datagram through, and a datagram
      holding only the start marker: both are then applied with whatever values
      are carried over (zero at the start of a read). */
  lemma TruncatedDatagramAccepted(v: Rpyt)
    ensures !ParseDatagram([], v).bad && ParseDatagram([], v).v == v
    ensures !ParseDatagram([FrameStart], v).bad && ParseDatagram([FrameStart], v).v == v
    ensures !WellFramed([]) && !WellFramed([FrameStart])
  {
    ParseDatagramAccepts([FrameStart], v);
  }

  /** The parser with the missing length check: a datagram that ends before
      its end marker is bad too. */
  function ParseFrame(d: seq<real>, v: Rpyt): (p: Parser)
    ensures !p.bad <==> WellFramed(d)
    ensures !p.bad ==> p.v == FrameValues(d)
    ensures p.v == PartialValues(d, v)
  {
    ParseDatagramAccepts(d, v);
    var p := ParseDatagram(d, v);
    if |d| < 6 then p.(bad := true) else p
  }

  /** Applying parsed values: a control is written, clamped, only when its
      value differs from the command's; the throttle also sets the thrust. */
  datatype UdpApply = UdpApply(cmd: Command, published: bool)

  function ApplyUdp(cmd: Command, v: Rpyt): (r: UdpApply)
    ensures r.published <==> v != Rpyt(cmd.roll, cmd.pitch, cmd.yaw, cmd.throttle)
    ensures -1.0 <= v.roll <= 1.0 ==> r.cmd.roll == v.roll
    ensures -1.0 <= v.pitch <= 1.0 ==> r.cmd.pitch == v.pitch
    ensures -1.0 <= v.yaw <= 1.0 ==> r.cmd.yaw == v.yaw
    ensures -1.0 <= v.throttle <= 1.0 ==> r.cmd.throttle == v.throttle
    ensures r.cmd.roll == Constrain(v.roll) || r.cmd.roll == cmd.roll
    ensures r.cmd.pitch == Constrain(v.pitch) || r.cmd.pitch == cmd.pitch
    ensures r.cmd.yaw == Constrain(v.yaw) || r.cmd.yaw == cmd.yaw
    ensures r.cmd.throttle == Constrain(v.throttle) || r.cmd.throttle == cmd.throttle
    ensures r.cmd.thrust == (if v.throttle != cmd.throttle then r.cmd.throttle else cmd.thrust)
    ensures r.cmd.connected == (r.published || cmd.connected)
  {
    var c1 := if v.pitch != cmd.pitch then cmd.(pitch := Constrain(v.pitch)) else cmd;
    var c2 := if v.yaw != cmd.yaw then c1.(yaw := Constrain(v.yaw)) else c1;
    var c3 := if v.roll != cmd.roll then c2.(roll := Constrain(v.roll)) else c2;
    var c4 := if v.throttle != cmd.throttle then c3.(throttle := Constrain(v.throttle), thrust := Constrain(v.throttle)) else c3;
    var published := v != Rpyt(cmd.roll, cmd.pitch, cmd.yaw, cmd.throttle);
    UdpApply(if published then c4.(connected := true) else c4, published)
  }

  predicate InRange(v: Rpyt)
  {
    -1.0 <= v.roll <= 1.0 && -1.0 <= v.pitch <= 1.0 && -1.0 <= v.yaw <= 1.0 && -1.0 <= v.throttle <= 1.0
  }

  /** Sending the same in-range values again publishes nothing. */
  lemma ApplyUdpIdempotent(cmd: Command, v: Rpyt)
    requires InRange(v)
    ensures var r := ApplyUdp(cmd, v);
      ApplyUdp(r.cmd, v) == UdpApply(r.cmd, false)
  {
  }

  /** An out-of-range value is stored clamped, so it never matches what was
      sent: every repeat of the datagram publishes the command again. */
  lemma OutOfRangeRepublishes(cmd: Command, v: Rpyt)
    requires !InRange(v) && InRange(Rpyt(cmd.roll, cmd.pitch, cmd.yaw, cmd.throttle))
    ensures var r := ApplyUdp(cmd, v);
      r.published && ApplyUdp(r.cmd, v).published
  {
  }

  /** The result of one `readUDPCommand`: the command, the values carried at
      the end, and how many times the command was published. */
  datatype UdpOutcome = UdpOutcome(cmd: Command, values: Rpyt, publications: nat)

  /** `readUDPCommand` over the datagrams pending on the socket, in arrival
      order, with `parse` as the datagram check. */
  function ReadUdpWith(parse: (seq<real>, Rpyt) -> Parser, ds: seq<seq<real>>, udpControl: bool, cmd: Command): (r: UdpOutcome)
    ensures r.publications <= |ds|
    ensures !udpControl ==> r.cmd == cmd && r.publications == 0
    decreases |ds|
  {
    if |ds| == 0 then UdpOutcome(cmd, ZeroRpyt, 0)
    else
      var prev := ReadUdpWith(parse, ds[..|ds| - 1], udpControl, cmd);
      var p := parse(ds[|ds| - 1], prev.values);
      if !p.bad && udpControl then
        var a := ApplyUdp(prev.cmd, p.v);
        UdpOutcome(a.cmd, p.v, prev.publications + if a.published then 1 else 0)
      else
        UdpOutcome(prev.cmd, p.v, prev.publications)
  }

  function RpytOf(cmd: Command): Rpyt
  {
    Rpyt(cmd.roll, cmd.pitch, cmd.yaw, cmd.throttle)
  }

  /** `readUDPCommand` as written. */
  function ReadUdpCommand(ds: seq<seq<real>>, udpControl: bool, cmd: Command): (r: UdpOutcome)
    ensures r.publications <= |ds|
    ensures !udpControl ==> r.cmd == cmd && r.publications == 0
    // the last datagram, when well framed with in-range values, decides the command
    ensures udpControl && |ds| > 0 && WellFramed(ds[|ds| - 1]) && InRange(FrameValues(ds[|ds| - 1])) ==>
      RpytOf(r.cmd) == FrameValues(ds[|ds| - 1])
    // an accepted datagram ending the traffic leaves its partial values in range in the command
    ensures udpControl && |ds| > 0 && !Rejected(ds[|ds| - 1]) && InRange(r.values) ==> RpytOf(r.cmd) == r.values
  {
    ReadUdpWith(ParseDatagram, ds, udpControl, cmd)
  }

  /** `readUDPCommand` with the corrected framing check. */
  function ReadUdpCommandFramed(ds: seq<seq<real>>, udpControl: bool, cmd: Command): (r: UdpOutcome)
    ensures r.publications <= |ds|
    ensures !udpControl ==> r.cmd == cmd && r.publications == 0
    ensures udpControl && |ds| > 0 && WellFramed(ds[|ds| - 1]) && InRange(FrameValues(ds[|ds| - 1])) ==>
      RpytOf(r.cmd) == FrameValues(ds[|ds| - 1])
  {
    ReadUdpWith(ParseFrame, ds, udpControl, cmd)
  }

  /** The last well-framed datagram with in-range values decides the command,
      for the reader as written and the corrected one alike. */
  lemma LastFrameWins(ds: seq<seq<real>>, cmd: Command)
    requires |ds| > 0 && WellFramed(ds[|ds| - 1]) && InRange(FrameValues(ds[|ds| - 1]))
    ensures RpytOf(ReadUdpCommand(ds, true, cmd).cmd) == FrameValues(ds[|ds| - 1])
    ensures RpytOf(ReadUdpCommandFramed(ds, true, cmd).cmd) == FrameValues(ds[|ds| - 1])
  {
  }

  /** Traffic whose every datagram the datagram check rejects leaves the command alone. */
  lemma {:induction false} RejectedTrafficIgnored(parse: (seq<real>, Rpyt) -> Parser, ds: seq<seq<real>>, udpControl: bool, cmd: Command)
    requires forall i, v :: 0 <= i < |ds| ==> parse(ds[i], v).bad
    ensures ReadUdpWith(parse, ds, udpControl, cmd).cmd == cmd
    ensures ReadUdpWith(parse, ds, udpControl, cmd).publications == 0
  {
    if |ds| > 0 {
      var init := ds[..|ds| - 1];
      assert forall i, v :: 0 <= i < |init| ==> parse(init[i], v).bad by {
        forall i, v | 0 <= i < |init| ensures parse(init[i], v).bad {
          assert init[i] == ds[i];
        }
      }
      RejectedTrafficIgnored(parse, init, udpControl, cmd);
    }
  }

  /** The corrected reader: traffic without a single well-framed datagram
      leaves the command alone. The reader as written does so only for traffic
      it rejects outright, which excludes datagrams cut short after the start
      marker. */
  lemma MalformedTrafficIgnored(ds: seq<seq<real>>, udpControl: bool, cmd: Command)
    requires forall i :: 0 <= i < |ds| ==> !WellFramed(ds[i])
    ensures ReadUdpCommandFramed(ds, udpControl, cmd).cmd == cmd
    ensures ReadUdpCommandFramed(ds, udpControl, cmd).publications == 0
    ensures (forall i :: 0 <= i < |ds| ==> Rejected(ds[i])) ==>
      ReadUdpCommand(ds, udpControl, cmd).cmd == cmd && ReadUdpCommand(ds, udpControl, cmd).publications == 0
  {
    RejectedTrafficIgnored(ParseFrame, ds, udpControl, cmd);
    if forall i :: 0 <= i < |ds| ==> Rejected(ds[i]) {
      RejectedTrafficIgnored(ParseDatagram, ds, udpControl, cmd);
    }
  }

  /** The two readers differ only on short datagrams: on traffic whose every
      datagram holds at least six values they agree. */
  lemma {:induction false} ReadersAgreeOnFullDatagrams(ds: seq<seq<real>>, udpControl: bool, cmd: Command)
    requires forall i :: 0 <= i < |ds| ==> |ds[i]| >= 6
    ensures ReadUdpCommandFramed(ds, udpControl, cmd) == ReadUdpCommand(ds, udpControl, cmd)
  {
    if |ds| > 0 {
      var init := ds[..|ds| - 1];
      assert forall i :: 0 <= i < |init| ==> |init[i]| >= 6 by {
        forall i | 0 <= i < |init| ensures |init[i]| >= 6 {
          assert init[i] == ds[i];
        }
      }
      ReadersAgreeOnFullDatagrams(init, udpControl, cmd);
    }
  }

  /** As written, an empty datagram is applied: at the start of a read the
      carried values are zero, so the sticks centre and the throttle is set to
      zero rather than the motor-off value. */
  lemma EmptyDatagramZeroesCommand(cmd: Command)
    requires cmd.throttle == -1.0
    ensures var p := ParseDatagram([], ZeroRpyt);
      !p.bad && ApplyUdp(cmd, p.v).published && ApplyUdp(cmd, p.v).cmd.throttle == 0.0
    ensures ParseFrame([], ZeroRpyt).bad
  {
  }

  // ---------------------------------------------------------------------------
  // Joystick axes

  const MaxRcValue: real := 32767.0
  const StickDeadZone: real := 0.15

  /** The dead zone in raw axis units. */
  const DeadZoneScaled: real := StickDeadZone * MaxRcValue

  function Abs(x: int): nat
  {
    if x < 0 then -x else x
  }

  /** `GRApplyDeadZone`: zero inside the dead zone, and the rest of the travel
      rescaled so that full deflection stays at full scale. */
  function ApplyDeadZone(raw: int): (r: real)
    ensures Abs(raw) as real <= DeadZoneScaled ==> r == 0.0
    ensures raw as real > DeadZoneScaled ==> r > 0.0
    ensures (raw as real) < -DeadZoneScaled ==> r < 0.0
    ensures raw == 32767 ==> r == MaxRcValue
    ensures raw == -32767 ==> r == -MaxRcValue
  {
    var sign := if raw >= 0 then 1.0 else -1.0;
    var a := Abs(raw) as real;
    if a > DeadZoneScaled then sign * (a - DeadZoneScaled) * MaxRcValue / (MaxRcValue - DeadZoneScaled)
    else 0.0
  }

  /** The dead zone treats both directions alike. */
  lemma DeadZoneOdd(raw: int)
    ensures ApplyDeadZone(-raw) == -ApplyDeadZone(raw)
  {
  }

  /** Over the axis range the rescaled value never exceeds full scale, except
      that the most negative reading goes slightly beyond it. */
  lemma DeadZoneRange(raw: int)
    requires -32767 <= raw <= 32767
    ensures -MaxRcValue <= ApplyDeadZone(raw) <= MaxRcValue
    ensures ApplyDeadZone(-32768) < -MaxRcValue
  {
    var k := MaxRcValue / (MaxRcValue - DeadZoneScaled);
    var a := Abs(raw) as real;
    if a > DeadZoneScaled {
      assert (a - DeadZoneScaled) * MaxRcValue / (MaxRcValue - DeadZoneScaled) <= MaxRcValue;
    }
  }

  /** The failure of `axesValues` as written: a read of an axis the pad does not have. */
  datatype AxisError = AxisOutOfRange(index: int)

  /** Fixed axis indices read by `axesValues`, whatever the configured channels. */
  const RollAxis: int := 2
  const PitchAxis: int := 3
  const YawAxis: int := 0
  const ThrottleAxis: int := 1
  const AuxThrottleUpAxis: int := 4
  const AuxThrottleDownAxis: int := 5

  /** The joystick update rate limit, in milliseconds. */
  const JoystickUpdateRate: int := 50

  /** What one call of `axesValues` does: the stick call made, if any, and
      whether the rate-limit timer restarts. */
  datatype AxesOutcome = AxesOutcome(call: Option<Sticks>, restart: bool)

  /** The guard as written: every configured channel must exist on the pad. */
  predicate ChannelsFit(c: Channels, count: int)
  {
    c.roll < count && c.pitch < count && c.yaw < count && c.throttle < count
  }

  /** The axes read, in the order they are read. */
  function AxesRead(c: Channels): (r: seq<int>)
    ensures |r| >= 2 && r[|r| - 2] == AuxThrottleUpAxis && r[|r| - 1] == AuxThrottleDownAxis
    ensures forall i :: 0 <= i < |r| ==> 0 <= r[i] <= AuxThrottleDownAxis
  {
    (if c.roll > -1 then [RollAxis] else []) + (if c.pitch > -1 then [PitchAxis] else [])
      + (if c.yaw > -1 then [YawAxis] else []) + (if c.throttle > -1 then [ThrottleAxis] else [])
      + [AuxThrottleUpAxis, AuxThrottleDownAxis]
  }

  /** The first of the axes read that the pad does not have. */
  function FirstMissing(read: seq<int>, count: int): (r: Option<int>)
    ensures r.Some? <==> exists i :: 0 <= i < |read| && read[i] >= count
    ensures r.Some? ==> r.value >= count && r.value in read
  {
    if |read| == 0 then None
    else if read[0] >= count then Some(read[0])
    else
      var rest := FirstMissing(read[1..], count);
      assert forall i :: 1 <= i < |read| ==> read[i] == read[1..][i - 1];
      rest
  }

  /** One axis, dead-banded and scaled to stick units: zero inside the dead
      zone, the sign of the reading outside it, and full deflection at the ends
      of the axis range. */
  function StickOf(raw: int): (r: real)
    ensures Abs(raw) as real <= DeadZoneScaled ==> r == 0.0
    ensures raw as real > DeadZoneScaled ==> r > 0.0
    ensures (raw as real) < -DeadZoneScaled ==> r < 0.0
    ensures -32767 <= raw <= 32767 ==> -1.0 <= r <= 1.0
    ensures raw == 32767 ==> r == 1.0
    ensures raw == -32767 ==> r == -1.0
  {
    InRangeDeadZone(raw);
    ApplyDeadZone(raw) / MaxRcValue
  }

  lemma InRangeDeadZone(raw: int)
    ensures -32767 <= raw <= 32767 ==> -MaxRcValue <= ApplyDeadZone(raw) <= MaxRcValue
  {
    if -32767 <= raw <= 32767 {
      DeadZoneRange(raw);
    }
  }

  /** The four mode layouts of the joystick's roll, pitch, yaw and throttle
      values; mode 2 takes the throttle from the trigger pair instead. */
  function Arrange(mode: int, rv: real, pv: real, yv: real, tv: real, triggers: real): (r: Option<Sticks>)
    ensures r.Some? <==> KnownMode(mode)
    ensures r.Some? && -1.0 <= rv <= 1.0 && -1.0 <= pv <= 1.0 && -1.0 <= yv <= 1.0 && -1.0 <= tv <= 1.0 && -1.0 <= triggers <= 1.0 ==>
      -1.0 <= r.value.leftX <= 1.0 && -1.0 <= r.value.leftY <= 1.0 && -1.0 <= r.value.rightX <= 1.0 && -1.0 <= r.value.rightY <= 1.0
    // read back through the mode's stick layout, the sticks give roll, pitch and
    // yaw unchanged and the throttle (the triggers in mode 2) with its sign flipped
    ensures r.Some? ==> RpytFromSticks(mode, r.value) == Rpyt(rv, pv, yv, if mode == 2 then -triggers else -tv)
  {
    match mode
    case 1 => Some(Sticks(yv, -pv, rv, -tv))
    case 2 => Some(Sticks(yv, -triggers, rv, -pv))
    case 3 => Some(Sticks(rv, -pv, yv, -tv))
    case 4 => Some(Sticks(rv, -tv, yv, -pv))
    case _ => None
  }

  /** The stick positions computed from a full set of axes. */
  function AxesToSticks(g: Gadget, values: seq<int>): (r: Option<Sticks>)
    requires |values| >= 6
    ensures r.Some? <==> KnownMode(g.controlsMode)
    // each control comes from its fixed axis when a channel is configured for
    // it, and is centred otherwise; mode 2 takes the throttle from the triggers
    ensures var c := g.channels;
      r.Some? ==> RpytFromSticks(g.controlsMode, r.value) == Rpyt(
        if c.roll > -1 then StickOf(values[RollAxis]) else 0.0,
        if c.pitch > -1 then StickOf(values[PitchAxis]) else 0.0,
        if c.yaw > -1 then StickOf(values[YawAxis]) else 0.0,
        if g.controlsMode == 2 then -(DivTrunc(values[AuxThrottleUpAxis] - values[AuxThrottleDownAxis], 2) as real / MaxRcValue)
        else if c.throttle > -1 then -StickOf(values[ThrottleAxis]) else 0.0)
  {
    var c := g.channels;
    Arrange(g.controlsMode,
      StickOf(if c.roll > -1 then values[RollAxis] else 0),
      StickOf(if c.pitch > -1 then values[PitchAxis] else 0),
      StickOf(if c.yaw > -1 then values[YawAxis] else 0),
      StickOf(if c.throttle > -1 then values[ThrottleAxis] else 0),
      DivTrunc(values[AuxThrottleUpAxis] - values[AuxThrottleDownAxis], 2) as real / MaxRcValue)
  }

  /** `axesValues` as written: the guard checks the configured channels, but
      the reads use fixed axes 0 to 5, so a pad with fewer than six axes can
      pass the guard and be read out of range. */
  function AxesValuesAsWritten(g: Gadget, values: seq<int>, elapsed: int): (r: Result<AxesOutcome, AxisError>)
    ensures r.Failure? <==> ChannelsFit(g.channels, |values|) && FirstMissing(AxesRead(g.channels), |values|).Some?
    ensures r.Failure? ==> r.error.index >= |values|
    ensures !ChannelsFit(g.channels, |values|) ==> r == Success(AxesOutcome(None, false))
  {
    var count := |values|;
    if !ChannelsFit(g.channels, count) then Success(AxesOutcome(None, false))
    else match FirstMissing(AxesRead(g.channels), count)
      case Some(i) => Failure(AxisOutOfRange(i))
      case None =>
        assert AuxThrottleDownAxis < count;
        if elapsed > JoystickUpdateRate then Success(AxesOutcome(AxesToSticks(g, values), true))
        else Success(AxesOutcome(None, false))
  }

  /** `axesValues` with the guard covering every axis read: a pad with fewer
      than six axes is ignored like one that lacks a configured channel. */
  function AxesValues(g: Gadget, values: seq<int>, elapsed: int): (r: AxesOutcome)
    ensures !ChannelsFit(g.channels, |values|) || |values| <= AuxThrottleDownAxis ==> r == AxesOutcome(None, false)
    ensures r.call.Some? <==> ChannelsFit(g.channels, |values|) && |values| > AuxThrottleDownAxis && elapsed > JoystickUpdateRate && KnownMode(g.controlsMode)
    ensures r.restart <==> ChannelsFit(g.channels, |values|) && |values| > AuxThrottleDownAxis && elapsed > JoystickUpdateRate
  {
    if !ChannelsFit(g.channels, |values|) || |values| <= AuxThrottleDownAxis then AxesOutcome(None, false)
    else if elapsed > JoystickUpdateRate then AxesOutcome(AxesToSticks(g, values), true)
    else AxesOutcome(None, false)
  }

  /** The discrepancy: a four-axis pad (the smallest the gamepad library
      accepts) configured on its four axes passes the guard as written and is
      read at axis 4. */
  lemma FourAxisPadReadOutOfRange(g: Gadget, values: seq<int>, elapsed: int)
    requires |values| == 4 && g.channels == Channels(0, 1, 2, 3)
    ensures AxesValuesAsWritten(g, values, elapsed) == Failure(AxisOutOfRange(AuxThrottleUpAxis))
  {
    assert AxesRead(g.channels) == [2, 3, 0, 1, 4, 5];
    assert FirstMissing([4, 5], 4) == Some(4);
    assert FirstMissing([1, 4, 5], 4) == Some(4);
    assert FirstMissing([0, 1, 4, 5], 4) == Some(4);
    assert FirstMissing([3, 0, 1, 4, 5], 4) == Some(4);
  }

  /** The correction changes nothing for a pad with six or more axes. */
  lemma AxesValuesAgree(g: Gadget, values: seq<int>, elapsed: int)
    requires |values| > AuxThrottleDownAxis
    ensures AxesValuesAsWritten(g, values, elapsed) == Success(AxesValues(g, values, elapsed))
  {
    assert FirstMissing(AxesRead(g.channels), |values|).None?;
  }

  /** Within the axis range the sticks stay within their travel. */
  lemma AxesStayOnSticks(g: Gadget, values: seq<int>, elapsed: int)
    requires forall i :: 0 <= i < |values| ==> -32767 <= values[i] <= 32767
    requires AxesValues(g, values, elapsed).call.Some?
    ensures var s := AxesValues(g, values, elapsed).call.value;
      -1.0 <= s.leftX <= 1.0 && -1.0 <= s.rightX <= 1.0 && -1.0 <= s.rightY <= 1.0 && -1.0 <= s.leftY <= 1.0
  {
    ScaledAxisRange(values[0]);
    ScaledAxisRange(values[1]);
    ScaledAxisRange(values[2]);
    ScaledAxisRange(values[3]);
    ScaledAxisRange(0);
    TriggerRange(values[AuxThrottleUpAxis], values[AuxThrottleDownAxis]);
  }

  /** One axis, dead-banded and scaled to stick units. */
  lemma ScaledAxisRange(raw: int)
    requires -32767 <= raw <= 32767
    ensures -1.0 <= StickOf(raw) <= 1.0
  {
    DeadZoneRange(raw);
  }

  /** The trigger pair, halved with C's truncating division and scaled. */
  lemma TriggerRange(up: int, down: int)
    requires -32767 <= up <= 32767 && -32767 <= down <= 32767
    ensures -1.0 <= DivTrunc(up - down, 2) as real / MaxRcValue <= 1.0
  {
    var t := DivTrunc(up - down, 2);
    assert -32767 <= t <= 32767;
  }
}

=== FILE: map_content.dfy ===
/** The map shown in a monitor gadget
    (`ground/openpilotgcs/src/plugins/monitor/mapcontent/mapcontent.cpp`):
    coordinate sanitising on the way into the map widget, the UAV heading, the
    button sets offered to the monitor and the zoom level. The map widget is
    seen only through the few properties the content sets on it. */
module MapContent {
  import opened Common

  /** The two map contents: the navigation overview and the satellite detail. */
  datatype MapKind = NavMap | SatMap

  /** `UAVMapFollowType`. */
  datatype FollowType = FollowNone | CenterMap | CenterAndRotateMap

  datatype LatLng = LatLng(lat: real, lng: real)

  /** A `QPointF` whose coordinates may be NaN. */
  datatype PointF = PointF(x: Float, y: Float)

  /** The map widget's properties that the content sets. */
  datatype MapWidget = MapWidget(
    currentPosition: LatLng,
    homeCoord: LatLng,
    homeAltitude: Float,
    follow: FollowType,
    rotation: real,
    interactive: bool,
    zoom: int)

  /** `m_home_position`. */
  datatype HomePosition = HomePosition(coord: LatLng, altitude: Float, locked: bool)

  /** The content's state; `widget` is None when there is no map widget. */
  datatype Content = Content(kind: MapKind, widget: Option<MapWidget>, home: HomePosition, currentZoom: int, defaultZoom: int)

  // ---------------------------------------------------------------------------
  // Coordinates

  /** A latitude pinned to [-90, 90]. */
  function ClampLat(lat: real): (r: real)
    ensures -90.0 <= r <= 90.0
    ensures -90.0 <= lat <= 90.0 ==> r == lat
    ensures lat > 90.0 ==> r == 90.0
    ensures lat < -90.0 ==> r == -90.0
  {
    if lat > 90.0 then 90.0 else if lat < -90.0 then -90.0 else lat
  }

  /** A longitude pinned to [-180, 180]. */
  function ClampLon(lon: real): (r: real)
    ensures -180.0 <= r <= 180.0
    ensures -180.0 <= lon <= 180.0 ==> r == lon
    ensures lon > 180.0 ==> r == 180.0
    ensures lon < -180.0 ==> r == -180.0
  {
    if lon > 180.0 then 180.0 else if lon < -180.0 then -180.0 else lon
  }

  /** A latitude with NaN read as 0, then pinned. */
  function SanitizeLat(lat: Float): (r: real)
    ensures -90.0 <= r <= 90.0
    ensures lat.NaN? ==> r == 0.0
    ensures lat.Num? ==> r == ClampLat(lat.r)
  {
    if lat.NaN? then 0.0 else ClampLat(lat.r)
  }

  /** A longitude with NaN read as 0, then pinned. */
  function SanitizeLon(lon: Float): (r: real)
    ensures -180.0 <= r <= 180.0
    ensures lon.NaN? ==> r == 0.0
    ensures lon.Num? ==> r == ClampLon(lon.r)
  {
    if lon.NaN? then 0.0 else ClampLon(lon.r)
  }

  predicate ValidLatLng(p: LatLng)
  {
    -90.0 <= p.lat <= 90.0 && -180.0 <= p.lng <= 180.0
  }

  /** Sanitising is a projection onto the valid coordinates: a valid
      coordinate passes unchanged, and sanitising twice changes nothing. */
  lemma SanitizeIsProjection(lat: Float, lon: Float)
    ensures ValidLatLng(LatLng(SanitizeLat(lat), SanitizeLon(lon)))
    ensures lat.Num? && lon.Num? && ValidLatLng(LatLng(lat.r, lon.r)) ==> SanitizeLat(lat) == lat.r && SanitizeLon(lon) == lon.r
    ensures SanitizeLat(Num(SanitizeLat(lat))) == SanitizeLat(lat) && SanitizeLon(Num(SanitizeLon(lon))) == SanitizeLon(lon)
  {
  }

  /** A position as the three `double`s of an LLA or NED triple. */
  datatype Triple = Triple(a: Float, b: Float, c: Float)

  /** The `GPSPositionSensor` fields read: latitude and longitude in 1e-7 degrees. */
  datatype GpsSensor = GpsSensor(latitude: int, longitude: int, altitude: real)

  /** The `HomeLocation` fields read, in the same units. */
  datatype HomeLocation = HomeLocation(latitude: int, longitude: int, altitude: real)

  /** The UAV position returned by `getUAVPosition`, which always reports success. */
  datatype UavPosition = UavPosition(lat: real, lon: real, alt: real)

  /** `getUAVPosition`. With the position estimate exactly at the origin the raw
      GPS fix is used; otherwise the estimate is converted to latitude, longitude
      and altitude around the home location by `nedToLla` (not part of this
      model) and sanitised. */
  function GetUavPosition(ned: Triple, gps: GpsSensor, home: HomeLocation, nedToLla: (Triple, Triple) -> Triple): (r: UavPosition)
    ensures ned == Triple(Num(0.0), Num(0.0), Num(0.0)) ==>
      r == UavPosition(gps.latitude as real / 10000000.0, gps.longitude as real / 10000000.0, gps.altitude)
    ensures ned != Triple(Num(0.0), Num(0.0), Num(0.0)) ==>
      var lla := nedToLla(Triple(Num(home.latitude as real / 10000000.0), Num(home.longitude as real / 10000000.0), Num(home.altitude)), ned);
      && ValidLatLng(LatLng(r.lat, r.lon))
      && r.lat == SanitizeLat(lla.a) && r.lon == SanitizeLon(lla.b)
      && r.alt == (if lla.c.NaN? then 0.0 else lla.c.r)
  {
    if ned == Triple(Num(0.0), Num(0.0), Num(0.0)) then
      UavPosition(gps.latitude as real / 10000000.0, gps.longitude as real / 10000000.0, gps.altitude)
    else
      var homeLla := Triple(Num(home.latitude as real / 10000000.0), Num(home.longitude as real / 10000000.0), Num(home.altitude));
      var lla := nedToLla(homeLla, ned);
      UavPosition(SanitizeLat(lla.a), SanitizeLon(lla.b), if lla.c.NaN? then 0.0 else lla.c.r)
  }

  /** A conversion that yields a valid, NaN-free position reaches the map
      unchanged: sanitising only ever replaces what the map cannot show. */
  lemma EstimatePassesThrough(ned: Triple, gps: GpsSensor, home: HomeLocation, nedToLla: (Triple, Triple) -> Triple)
    requires ned != Triple(Num(0.0), Num(0.0), Num(0.0))
    requires var lla := nedToLla(Triple(Num(home.latitude as real / 10000000.0), Num(home.longitude as real / 10000000.0), Num(home.altitude)), ned);
      lla.a.Num? && lla.b.Num? && lla.c.Num? && ValidLatLng(LatLng(lla.a.r, lla.b.r))
    ensures var lla := nedToLla(Triple(Num(home.latitude as real / 10000000.0), Num(home.longitude as real / 10000000.0), Num(home.altitude)), ned);
      GetUavPosition(ned, gps, home, nedToLla) == UavPosition(lla.a.r, lla.b.r, lla.c.r)
  {
  }

  /** The raw-GPS path is not clamped: a sensor latitude beyond 90 degrees is
      passed to the map as it is. */
  lemma GpsPathUnclamped(gps: GpsSensor, home: HomeLocation, nedToLla: (Triple, Triple) -> Triple)
    requires gps.latitude == 1000000000
    ensures GetUavPosition(Triple(Num(0.0), Num(0.0), Num(0.0)), gps, home, nedToLla).lat == 100.0
  {
  }

  /** `setPosition`: centre the map on a point given as (longitude, latitude);
      a NaN coordinate or a missing map leaves everything unchanged. */
  function SetPosition(c: Content, pos: PointF): (r: Content)
    ensures c.widget.None? || pos.x.NaN? || pos.y.NaN? ==> r == c
    ensures c.widget.Some? && pos.x.Num? && pos.y.Num? ==>
      r == c.(widget := Some(c.widget.value.(currentPosition := LatLng(ClampLat(pos.y.r), ClampLon(pos.x.r)))))
    ensures r.widget.Some? ==> ValidLatLng(r.widget.value.currentPosition) || r.widget == c.widget
  {
    if c.widget.None? || pos.y.NaN? || pos.x.NaN? then c
    else c.(widget := Some(c.widget.value.(currentPosition := LatLng(ClampLat(pos.y.r), ClampLon(pos.x.r)))))
  }

  /** `setHomePosition`: the same for the home marker on the map. The content's
      own home position is not changed. */
  function SetHomePosition(c: Content, pos: PointF): (r: Content)
    ensures c.widget.None? || pos.x.NaN? || pos.y.NaN? ==> r == c
    ensures c.widget.Some? && pos.x.Num? && pos.y.Num? ==>
      r == c.(widget := Some(c.widget.value.(homeCoord := LatLng(ClampLat(pos.y.r), ClampLon(pos.x.r)))))
    ensures r.home == c.home
  {
    if c.widget.None? || pos.y.NaN? || pos.x.NaN? then c
    else c.(widget := Some(c.widget.value.(homeCoord := LatLng(ClampLat(pos.y.r), ClampLon(pos.x.r)))))
  }

  /** Centring and setting the home marker from the same point put both at the
      same place, the way the configuration is applied. */
  lemma ConfigurationPositionsAgree(c: Content, pos: PointF)
    requires c.widget.Some? && pos.x.Num? && pos.y.Num?
    ensures var r := SetHomePosition(SetPosition(c, pos), pos);
      r.widget.value.homeCoord == r.widget.value.currentPosition && ValidLatLng(r.widget.value.homeCoord)
  {
  }

  /** Errors of the code as written. */
  datatype MapError = NullMapDereference

  /** `setHome(PointLatLng, altitude)` as written. The test of `m_map` is
      inverted: with a map the marker is never moved, and without one the
      missing map is dereferenced. */
  function SetHomeAsWritten(c: Content, pos: LatLng, latNaN: bool, lngNaN: bool, altitude: Float): (r: Result<Content, MapError>)
    ensures latNaN || lngNaN ==> r == Success(c)
    ensures !latNaN && !lngNaN ==> (r.Failure? <==> c.widget.None?)
    ensures r.Success? ==> r.value.widget == c.widget
  {
    if latNaN || lngNaN then Success(c)
    else
      var home := HomePosition(LatLng(ClampLat(pos.lat), ClampLon(pos.lng)), altitude, c.home.locked);
      if c.widget.None? then Failure(NullMapDereference)
      else Success(c.(home := home))
  }

  /** `setHome(PointLatLng, altitude)` as intended: record the sanitised home
      position and, when there is a map, move its home marker there. */
  function SetHome(c: Content, lat: Float, lng: Float, altitude: Float): (r: Content)
    ensures lat.NaN? || lng.NaN? ==> r == c
    ensures lat.Num? && lng.Num? ==>
      && r.home == HomePosition(LatLng(ClampLat(lat.r), ClampLon(lng.r)), altitude, c.home.locked)
      && ValidLatLng(r.home.coord)
      && (c.widget.Some? ==> r.widget == Some(c.widget.value.(homeCoord := r.home.coord, homeAltitude := altitude)))
      && (c.widget.None? ==> r.widget == None)
    ensures r.kind == c.kind && r.currentZoom == c.currentZoom && r.defaultZoom == c.defaultZoom
  {
    if lat.NaN? || lng.NaN? then c
    else
      var home := HomePosition(LatLng(ClampLat(lat.r), ClampLon(lng.r)), altitude, c.home.locked);
      var widget := if c.widget.Some? then Some(c.widget.value.(homeCoord := home.coord, homeAltitude := altitude)) else None;
      c.(home := home, widget := widget)
  }

  /** The discrepancy: with a map present, the code as written records the new
      home position but leaves the marker where it was; the corrected version
      moves the marker. */
  lemma HomeMarkerNotMoved(c: Content, pos: LatLng, altitude: Float)
    requires c.widget.Some? && c.widget.value.homeCoord != LatLng(ClampLat(pos.lat), ClampLon(pos.lng))
    ensures var w := SetHomeAsWritten(c, pos, false, false, altitude);
      w.Success? && w.value.widget.value.homeCoord != w.value.home.coord
    ensures var f := SetHome(c, Num(pos.lat), Num(pos.lng), altitude);
      f.widget.value.homeCoord == f.home.coord
  {
  }

  /** Both versions record the same home position whenever the code as
      written does not fault. */
  lemma SetHomeAgreesOnRecord(c: Content, pos: LatLng, altitude: Float)
    requires c.widget.Some?
    ensures SetHomeAsWritten(c, pos, false, false, altitude).value.home == SetHome(c, Num(pos.lat), Num(pos.lng), altitude).home
  {
  }

  /** `setHome(QPointF)` on the corrected `SetHome`: latitude from `x`,
      longitude from `y` (the reverse of `setPosition`), longitude NaN read as
      0, no altitude. A NaN latitude survives the clamp and is refused by the
      overload it calls. */
  function SetHomePoint(c: Content, pos: PointF): (r: Content)
    ensures pos.x.NaN? ==> r == c
    ensures pos.x.Num? ==> r == SetHome(c, Num(ClampLat(pos.x.r)), Num(SanitizeLon(pos.y)), Num(0.0))
    ensures pos.x.Num? ==> r.home.coord == LatLng(ClampLat(pos.x.r), SanitizeLon(pos.y)) && r.home.altitude == Num(0.0)
  {
    var lat := if pos.x.NaN? then NaN else Num(ClampLat(pos.x.r));
    SetHome(c, lat, Num(SanitizeLon(pos.y)), Num(0.0))
  }

  /** `setHome(QPointF)` as written: the point overload feeds the faulty
      `SetHomeAsWritten`, so with a map it records the home position without
      moving the marker, and without one it faults. */
  function SetHomePointAsWritten(c: Content, pos: PointF): (r: Result<Content, MapError>)
    ensures pos.x.NaN? ==> r == Success(c)
    ensures pos.x.Num? ==> (r.Failure? <==> c.widget.None?)
    ensures r.Success? ==> r.value.widget == c.widget
    ensures pos.x.Num? && r.Success? ==>
      r.value.home == HomePosition(LatLng(ClampLat(pos.x.r), SanitizeLon(pos.y)), Num(0.0), c.home.locked)
  {
    var lat := if pos.x.NaN? then 0.0 else ClampLat(pos.x.r);
    SetHomeAsWritten(c, LatLng(lat, SanitizeLon(pos.y)), pos.x.NaN?, false, Num(0.0))
  }

  /** Where the point overload as written does not fault, it records the same
      home position as the corrected one. */
  lemma SetHomePointAgreesOnRecord(c: Content, pos: PointF)
    ensures SetHomePointAsWritten(c, pos).Success? ==> SetHomePointAsWritten(c, pos).value.home == SetHomePoint(c, pos).home
  {
  }

  /** With the coordinates of a point swapped, the corrected point overload
      puts the home marker exactly where `setPosition` centres the map. */
  lemma SwappedPointsAgree(c: Content, a: real, b: real)
    requires c.widget.Some?
    ensures SetHomePoint(c, PointF(Num(a), Num(b))).widget.value.homeCoord
         == SetPosition(c, PointF(Num(b), Num(a))).widget.value.currentPosition
  {
  }

  /** The two point conventions differ: the same point centres the map at one
      latitude and sets the home position at another. */
  lemma PointConventionsDiffer(c: Content)
    requires c.widget.Some?
    ensures var p := PointF(Num(10.0), Num(20.0));
      SetPosition(c, p).widget.value.currentPosition.lat == 20.0 && SetHomePoint(c, p).home.coord.lat == 10.0
  {
  }

  // ---------------------------------------------------------------------------
  // Heading

  /** `getUAV_Yaw`: the attitude's yaw brought into [0, 360); NaN reads as 0 and
      without an object manager the heading is 0. */
  method GetUavYaw(hasObjectManager: bool, yaw: Float) returns (r: real, ghost turns: int)
    ensures 0.0 <= r < 360.0
    ensures !hasObjectManager || yaw.NaN? ==> r == 0.0
    ensures hasObjectManager && yaw.Num? ==> r == yaw.r - 360.0 * turns as real
    ensures hasObjectManager && yaw.Num? && 0.0 <= yaw.r < 360.0 ==> r == yaw.r
  {
    turns := 0;
    if !hasObjectManager {
      return 0.0, 0;
    }
    r := if yaw.NaN? then 0.0 else yaw.r;
    ghost var start := r;
    while r < 0.0
      invariant r == start - 360.0 * turns as real
      invariant start >= 0.0 ==> r == start && turns == 0
      decreases (-r).Floor
    {
      r := r + 360.0;
      turns := turns - 1;
    }
    while r >= 360.0
      invariant r >= 0.0
      invariant r == start - 360.0 * turns as real
      invariant 0.0 <= start < 360.0 ==> r == start && turns == 0
      decreases r.Floor
    {
      r := r - 360.0;
      turns := turns + 1;
    }
  }

  // ---------------------------------------------------------------------------
  // Buttons, modes and zoom

  /** The monitor's button bits: `B1` is 1, `B2` is 2, ..., `B5` is 16. */
  predicate HasButton(buttons: int, k: int)
    requires 1 <= k <= 5
  {
    (buttons / Pow2(k - 1)) % 2 == 1
  }

  function Pow2(n: nat): (r: nat)
    ensures r >= 1
  {
    if n == 0 then 1 else 2 * Pow2(n - 1)
  }

  /** The mode button that selects a follow type: 1 free, 2 centre, 3 centre and rotate. */
  function ModeButton(f: FollowType): (k: int)
    ensures 1 <= k <= 3
  {
    match f
    case FollowNone => 1
    case CenterMap => 2
    case CenterAndRotateMap => 3
  }

  /** `getModeButtons`: offer the two modes that are not active. */
  function GetModeButtons(w: MapWidget): (b: int)
    ensures b == 3 || b == 5 || b == 6
    ensures !HasButton(b, ModeButton(w.follow))
    ensures forall k :: 1 <= k <= 3 && k != ModeButton(w.follow) ==> HasButton(b, k)
    ensures !HasButton(b, 4) && !HasButton(b, 5)
  {
    var b1 := if w.follow != FollowNone then 1 else 0;
    var b2 := if w.follow != CenterMap then 2 else 0;
    var b3 := if w.follow != CenterAndRotateMap then 4 else 0;
    assert Pow2(1) == 2 && Pow2(2) == 4 && Pow2(3) == 8 && Pow2(4) == 16;
    assert w.follow == FollowNone || w.follow == CenterMap || w.follow == CenterAndRotateMap;
    b1 + b2 + b3
  }

  /** `getCursorButtons`: all five cursor buttons while the map moves freely,
      none while it follows the UAV. */
  function GetCursorButtons(w: MapWidget): (b: int)
    ensures b == 0 || b == 31
    ensures b == 31 <==> w.follow == FollowNone
  {
    if w.follow != FollowNone then 0 else 1 + 2 + 4 + 8 + 16
  }

  /** `mode1`, `mode2`, `mode3`: select a follow type; the free mode makes the
      map interactive, and the non-rotating modes reset its rotation. */
  function SelectMode(w: MapWidget, k: int): (r: MapWidget)
    requires 1 <= k <= 3
    ensures ModeButton(r.follow) == k
    ensures r.interactive <==> k == 1
    ensures k != 3 ==> r.rotation == 0.0
    ensures k == 3 ==> r.rotation == w.rotation
    ensures r == w.(follow := r.follow, interactive := r.interactive, rotation := r.rotation)
  {
    if k == 1 then w.(follow := FollowNone, rotation := 0.0, interactive := true)
    else if k == 2 then w.(follow := CenterMap, rotation := 0.0, interactive := false)
    else w.(follow := CenterAndRotateMap, interactive := false)
  }

  /** Pressing a mode button removes it from the offered set and offers the
      other two; the cursor buttons appear exactly in the free mode. */
  lemma ModeButtonsFollowSelection(w: MapWidget, k: int)
    requires 1 <= k <= 3
    ensures var r := SelectMode(w, k);
      && !HasButton(GetModeButtons(r), k)
      && (forall j :: 1 <= j <= 3 && j != k ==> HasButton(GetModeButtons(r), j))
      && (GetCursorButtons(r) == 31 <==> k == 1)
  {
  }

  /** The zoom level a map content starts at and returns to. */
  function DefaultZoom(kind: MapKind): (z: int)
    ensures kind == NavMap ==> z == 15
    ensures kind == SatMap ==> z == 19
  {
    match kind
    case NavMap => 15
    case SatMap => 19
  }

  /** The map shows the content's zoom level. */
  predicate ZoomShown(c: Content)
  {
    c.widget.Some? && c.widget.value.zoom == c.currentZoom
  }

  /** `zoomIn`: one level closer, passed to the map. */
  function ZoomIn(c: Content): (r: Content)
    requires c.widget.Some?
    ensures r.currentZoom == c.currentZoom + 1 && ZoomShown(r)
    ensures r == c.(currentZoom := r.currentZoom, widget := r.widget)
  {
    c.(currentZoom := c.currentZoom + 1, widget := Some(c.widget.value.(zoom := c.currentZoom + 1)))
  }

  /** `zoomOut`: one level further, passed to the map. */
  function ZoomOut(c: Content): (r: Content)
    requires c.widget.Some?
    ensures r.currentZoom == c.currentZoom - 1 && ZoomShown(r)
    ensures r == c.(currentZoom := r.currentZoom, widget := r.widget)
  {
    c.(currentZoom := c.currentZoom - 1, widget := Some(c.widget.value.(zoom := c.currentZoom - 1)))
  }

  /** `zoomReset`: back to the default level. */
  function ZoomReset(c: Content): (r: Content)
    requires c.widget.Some?
    ensures r.currentZoom == c.defaultZoom && ZoomShown(r)
    ensures r == c.(currentZoom := r.currentZoom, widget := r.widget)
  {
    c.(currentZoom := c.defaultZoom, widget := Some(c.widget.value.(zoom := c.defaultZoom)))
  }

  /** Zooming in and out are inverse, the level is not bounded here, and reset
      is idempotent and forgets any zooming done before it. */
  lemma ZoomLaws(c: Content)
    requires ZoomShown(c)
    ensures ZoomOut(ZoomIn(c)) == c && ZoomIn(ZoomOut(c)) == c
    ensures ZoomReset(ZoomReset(c)) == ZoomReset(c)
    ensures ZoomReset(ZoomIn(c)) == ZoomReset(c) && ZoomReset(ZoomOut(c)) == ZoomReset(c)
  {
  }
}

=== FILE: monitor_provider.dfy ===
/** The content bookkeeping shared by all monitor gadgets
    (`ground/openpilotgcs/src/plugins/monitor/monitorcontentprovider.cpp`).
    Each unique content (satellite map, navigation map, GPS, camera) exists at
    most once and is shown by at most one monitor; asking for a content that
    another monitor shows moves it, and that monitor receives the content the
    asking monitor gave up. Empty content is created afresh for each monitor. */
module MonitorProvider {
  import opened Common

  /** `CONTENT_TYPE`. */
  const Invalid: int := -1
  const Sat: int := 0
  const Nav: int := 1
  const Gps: int := 2
  const Cam: int := 3
  const Empty: int := 4

  /** `MAX_CONTENT`: the number of unique contents, and the size of the
      provider's three arrays. */
  const MaxContent: int := Empty

  /** A monitor gadget, by identity. */
  type Monitor = nat

  /** A content type a monitor can show: SAT, NAV, GPS, CAM or EMPTY. */
  type Kind = t: int | 0 <= t <= Empty

  /** The provider's arrays: whether each unique content exists (`m_content`),
      whether its update timer runs, which monitor shows it (`m_monitor`) and
      whether it is in use (`m_isUsed`). */
  datatype Provider = Provider(created: seq<bool>, running: seq<bool>, holder: seq<Option<Monitor>>, isUsed: seq<bool>)

  /** The provider with the content type each monitor shows; a monitor that
      shows nothing is absent (its type reads INVALID). */
  datatype State = State(p: Provider, shown: map<Monitor, Kind>)

  predicate IsUnique(t: int)
  {
    0 <= t < MaxContent
  }

  /** `MonitorGadget::getContentType`. */
  function TypeOf(s: State, m: Monitor): (t: int)
    ensures t == Invalid <==> m !in s.shown
  {
    if m in s.shown then s.shown[m] else Invalid
  }

  predicate WellSized(p: Provider)
  {
    |p.created| == MaxContent && |p.running| == MaxContent && |p.holder| == MaxContent && |p.isUsed| == MaxContent
  }

  /** The bookkeeping agrees with what the monitors show: a unique content is
      in use exactly when a monitor holds it, that monitor shows it, every
      monitor showing a unique content is its recorded holder (so no content
      is shown twice), and a content's timer runs exactly while it is shown. */
  ghost predicate Valid(s: State)
  {
    && WellSized(s.p)
    && (forall t :: IsUnique(t) ==> (s.p.isUsed[t] <==> s.p.holder[t].Some?))
    && (forall t :: IsUnique(t) && s.p.holder[t].Some? ==>
          s.p.created[t] && s.p.holder[t].value in s.shown && s.shown[s.p.holder[t].value] == t)
    && (forall m :: m in s.shown && IsUnique(s.shown[m]) ==> s.p.holder[s.shown[m]] == Some(m))
    && (forall t :: IsUnique(t) ==> (s.p.running[t] <==> s.p.isUsed[t]))
  }

  /** The constructor: no content, nothing in use. */
  function Init(shown: map<Monitor, Kind>): (s: State)
    requires forall m :: m in shown ==> shown[m] == Empty
    ensures Valid(s)
    ensures forall t :: IsUnique(t) ==> !s.p.created[t] && !s.p.isUsed[t] && s.p.holder[t].None?
  {
    var none := seq(MaxContent, _ => false);
    State(Provider(none, none, seq(MaxContent, _ => None), none), shown)
  }

  // ---------------------------------------------------------------------------
  // The three helpers

  /** `removeContent`: take the monitor's content away and return its type.
      A unique content is stopped and released; empty content is discarded. */
  function RemoveContent(s: State, m: Monitor): (r: (State, int))
    requires WellSized(s.p)
    ensures r.1 == TypeOf(s, m)
    ensures m !in r.0.shown && r.0.shown == s.shown - {m}
    ensures IsUnique(r.1) ==> r.0.p == s.p.(running := s.p.running[r.1 := false], holder := s.p.holder[r.1 := None], isUsed := s.p.isUsed[r.1 := false])
    ensures !IsUnique(r.1) ==> r.0.p == s.p
  {
    var t := TypeOf(s, m);
    if t == Invalid then (s, t)
    else if t == Empty then (s.(shown := s.shown - {m}), t)
    else
      var p := s.p.(running := s.p.running[t := false], holder := s.p.holder[t := None], isUsed := s.p.isUsed[t := false]);
      (State(p, s.shown - {m}), t)
  }

  /** The failure of the code as written. */
  datatype ProviderError = ContentIndexOutOfRange(index: int)

  /** `removeContent` as written: it stops `m_content[type]` for every type
      but INVALID, and EMPTY is one past the end of the array. */
  function RemoveContentAsWritten(s: State, m: Monitor): (r: Result<(State, int), ProviderError>)
    requires WellSized(s.p)
    ensures r.Failure? <==> TypeOf(s, m) == Empty
    ensures r.Success? ==> r.value == RemoveContent(s, m)
  {
    var t := TypeOf(s, m);
    if t != Invalid && !IsUnique(t) then Failure(ContentIndexOutOfRange(t))
    else Success(RemoveContent(s, m))
  }

  /** `freeContent`: stop a unique content and take it from the monitor that
      shows it, returning that monitor. */
  function FreeContent(s: State, t: int): (r: (State, Option<Monitor>))
    requires WellSized(s.p) && IsUnique(t)
    ensures r.1 == (if s.p.isUsed[t] then s.p.holder[t] else None)
    ensures WellSized(r.0.p)
    ensures !r.0.p.running[t] && r.0.p.created == s.p.created
    ensures r.1.Some? ==> r.0.shown == s.shown - {r.1.value} && !r.0.p.isUsed[t] && r.0.p.holder[t].None?
    ensures r.1.None? ==> r.0.shown == s.shown && r.0.p.isUsed == s.p.isUsed && r.0.p.holder == s.p.holder
    ensures forall u :: IsUnique(u) && u != t ==>
      r.0.p.running[u] == s.p.running[u] && r.0.p.isUsed[u] == s.p.isUsed[u] && r.0.p.holder[u] == s.p.holder[u]
  {
    var p := s.p.(running := s.p.running[t := false]);
    if s.p.isUsed[t] then
      match s.p.holder[t]
      case Some(other) =>
        (State(p.(holder := p.holder[t := None], isUsed := p.isUsed[t := false]), s.shown - {other}), Some(other))
      case None => (State(p, s.shown), None)
    else (State(p, s.shown), None)
  }

  /** `applyContent`: show an existing unique content on a monitor and start it. */
  function ApplyContent(s: State, m: Monitor, t: int): (r: State)
    requires WellSized(s.p) && IsUnique(t) && s.p.created[t]
    ensures WellSized(r.p)
    ensures TypeOf(r, m) == t && r.shown == s.shown[m := t]
    ensures r.p.holder[t] == Some(m) && r.p.isUsed[t] && r.p.running[t] && r.p.created == s.p.created
    ensures forall u :: IsUnique(u) && u != t ==>
      r.p.running[u] == s.p.running[u] && r.p.isUsed[u] == s.p.isUsed[u] && r.p.holder[u] == s.p.holder[u]
  {
    State(s.p.(holder := s.p.holder[t := Some(m)], isUsed := s.p.isUsed[t := true], running := s.p.running[t := true]), s.shown[m := t])
  }

  // ---------------------------------------------------------------------------
  // setContent

  /** The result of `setContent`: the new state and the type of the content
      created, if one was (`setContent` returns a non-null object exactly then). */
  datatype SetResult = SetResult(s: State, created: Option<int>)

  /** Whether a request is carried out at all: a monitor is given and the type
      is SAT, NAV, GPS, CAM or EMPTY. */
  predicate Accepted(monitor: Option<Monitor>, newType: int)
  {
    monitor.Some? && Invalid < newType <= Empty
  }

  /** The second half of `setContent`, after the monitor's own content is
      removed: show the new content, then hand the old one to the monitor the
      new content was taken from. */
  function Place(s1: State, m: Monitor, newType: int, oldType: int): (r: SetResult)
    requires WellSized(s1.p) && Invalid < newType <= Empty
    requires IsUnique(oldType) ==> s1.p.created[oldType]
    ensures r.created.Some? <==> newType == Empty || !s1.p.created[newType]
    ensures r.created.Some? ==> r.created.value == newType
    ensures WellSized(r.s.p)
  {
    if newType < Empty && s1.p.created[newType] then
      var (s2, other) := FreeContent(s1, newType);
      var s3 := ApplyContent(s2, m, newType);
      if other.Some? && IsUnique(oldType) then SetResult(ApplyContent(s3, other.value, oldType), None)
      else SetResult(s3, None)
    else if newType != Empty then
      var s2 := s1.(p := s1.p.(created := s1.p.created[newType := true]));
      SetResult(ApplyContent(s2, m, newType), Some(newType))
    else
      SetResult(s1.(shown := s1.shown[m := Empty]), Some(Empty))
  }

  /** `setContent`, with `removeContent` corrected not to touch the content
      array for EMPTY. */
  function SetContent(s: State, monitor: Option<Monitor>, newType: int): (r: SetResult)
    requires Valid(s)
    ensures !Accepted(monitor, newType) ==> r == SetResult(s, None)
    ensures Accepted(monitor, newType) ==> TypeOf(r.s, monitor.value) == newType
    ensures r.created.Some? <==> Accepted(monitor, newType) && (newType == Empty || !s.p.created[newType])
    ensures r.created.Some? ==> r.created.value == newType
    ensures WellSized(r.s.p)
  {
    if !Accepted(monitor, newType) then SetResult(s, None)
    else
      var m := monitor.value;
      var (s1, oldType) := RemoveContent(s, m);
      RemoveContentValid(s, m);
      PlaceShows(s1, m, newType, oldType);
      Place(s1, m, newType, oldType)
  }

  /** The monitor that asked always ends up showing the requested content. */
  lemma PlaceShows(s1: State, m: Monitor, newType: int, oldType: int)
    requires Valid(s1) && Invalid < newType <= Empty
    requires IsUnique(oldType) ==> s1.p.created[oldType]
    requires m !in s1.shown
    ensures TypeOf(Place(s1, m, newType, oldType).s, m) == newType
  {
    if newType < Empty && s1.p.created[newType] {
      var (s2, other) := FreeContent(s1, newType);
      var s3 := ApplyContent(s2, m, newType);
      if other.Some? && IsUnique(oldType) {
        assert other.value != m;
      }
    }
  }

  /** `setContent` as written: identical, except that a monitor showing EMPTY
      makes `removeContent` index past the content array. */
  function SetContentAsWritten(s: State, monitor: Option<Monitor>, newType: int): (r: Result<SetResult, ProviderError>)
    requires Valid(s)
    ensures r.Failure? <==> Accepted(monitor, newType) && TypeOf(s, monitor.value) == Empty
    ensures r.Success? ==> r.value == SetContent(s, monitor, newType)
  {
    if !Accepted(monitor, newType) then Success(SetResult(s, None))
    else match RemoveContentAsWritten(s, monitor.value)
      case Failure(e) => Failure(e)
      case Success(_) => Success(SetContent(s, monitor, newType))
  }

  /** The discrepancy: any request from a monitor that shows EMPTY, including
      the request to show EMPTY again, faults as written; the corrected
      version serves it. */
  lemma EmptyMonitorFaults(s: State, m: Monitor, newType: int)
    requires Valid(s) && m in s.shown && s.shown[m] == Empty && Invalid < newType <= Empty
    ensures SetContentAsWritten(s, Some(m), newType) == Failure(ContentIndexOutOfRange(Empty))
    ensures TypeOf(SetContent(s, Some(m), newType).s, m) == newType
  {
  }

  // ---------------------------------------------------------------------------
  // Properties of setContent

  /** The invariant holds after every request. */
  lemma SetContentValid(s: State, monitor: Option<Monitor>, newType: int)
    requires Valid(s)
    ensures Valid(SetContent(s, monitor, newType).s)
  {
    if Accepted(monitor, newType) {
      var m := monitor.value;
      var (s1, oldType) := RemoveContent(s, m);
      RemoveContentValid(s, m);
      PlaceValid(s1, m, newType, oldType);
    }
  }

  /** After `removeContent` the state is valid and the monitor shows nothing. */
  lemma RemoveContentValid(s: State, m: Monitor)
    requires Valid(s)
    ensures var (s1, oldType) := RemoveContent(s, m);
      Valid(s1) && m !in s1.shown && (IsUnique(oldType) ==> s1.p.created[oldType] && !s1.p.isUsed[oldType])
  {
    var (s1, t) := RemoveContent(s, m);
    if IsUnique(t) {
      assert s.p.holder[t] == Some(m);
      forall u | IsUnique(u) && s1.p.holder[u].Some?
        ensures s1.p.created[u] && s1.p.holder[u].value in s1.shown && s1.shown[s1.p.holder[u].value] == u
      {
        assert u != t;
        assert s.p.holder[u].value != m;
      }
    } else {
      forall u | IsUnique(u) && s1.p.holder[u].Some?
        ensures s1.p.holder[u].value in s1.shown
      {
        assert s.p.holder[u].value != m;
      }
    }
  }

  /** Placing the content keeps the state valid. */
  lemma PlaceValid(s1: State, m: Monitor, newType: int, oldType: int)
    requires Valid(s1) && m !in s1.shown && Invalid < newType <= Empty
    requires IsUnique(oldType) ==> s1.p.created[oldType] && !s1.p.isUsed[oldType]
    ensures Valid(Place(s1, m, newType, oldType).s)
  {
    if newType < Empty && s1.p.created[newType] {
      var (s2, other) := FreeContent(s1, newType);
      FreeContentValid(s1, newType);
      ApplyContentValid(s2, m, newType);
      var s3 := ApplyContent(s2, m, newType);
      if other.Some? && IsUnique(oldType) {
        assert other.value != m;
        assert oldType != newType;
        ApplyContentValid(s3, other.value, oldType);
      }
    } else if newType != Empty {
      var s2 := s1.(p := s1.p.(created := s1.p.created[newType := true]));
      assert !s1.p.isUsed[newType];
      ApplyContentValid(s2, m, newType);
    } else {
      var r := s1.(shown := s1.shown[m := Empty]);
      forall u | IsUnique(u) && r.p.holder[u].Some?
        ensures r.p.holder[u].value in r.shown && r.shown[r.p.holder[u].value] == u
      {
        assert s1.p.holder[u].value != m;
      }
    }
  }

  /** Freeing a content keeps the state valid, with the content unused. */
  lemma FreeContentValid(s: State, t: int)
    requires Valid(s) && IsUnique(t)
    ensures var (s2, other) := FreeContent(s, t);
      Valid(s2) && !s2.p.isUsed[t] && (other.Some? ==> other.value !in s2.shown)
  {
    var (s2, other) := FreeContent(s, t);
    if s.p.isUsed[t] {
      var o := s.p.holder[t].value;
      forall u | IsUnique(u) && s2.p.holder[u].Some?
        ensures s2.p.holder[u].value in s2.shown && s2.shown[s2.p.holder[u].value] == u
      {
        assert u != t;
        assert s.p.holder[u].value != o;
      }
    }
  }

  /** Applying an unused content to a monitor that shows nothing keeps the
      state valid. */
  lemma ApplyContentValid(s: State, m: Monitor, t: int)
    requires Valid(s) && IsUnique(t) && s.p.created[t] && !s.p.isUsed[t] && m !in s.shown
    ensures Valid(ApplyContent(s, m, t))
  {
    var r := ApplyContent(s, m, t);
    forall u | IsUnique(u) && r.p.holder[u].Some?
      ensures r.p.holder[u].value in r.shown && r.shown[r.p.holder[u].value] == u
    {
      if u != t {
        assert s.p.holder[u].value != m;
      }
    }
  }

  /** Asking for a content another monitor shows swaps the two monitors'
      unique contents. */
  lemma SetContentSwaps(s: State, m: Monitor, o: Monitor, newType: int)
    requires Valid(s) && m != o && IsUnique(newType)
    requires o in s.shown && s.shown[o] == newType
    requires m in s.shown && IsUnique(s.shown[m])
    ensures var r := SetContent(s, Some(m), newType);
      TypeOf(r.s, m) == newType && TypeOf(r.s, o) == s.shown[m] && r.created.None?
  {
    var oldType := s.shown[m];
    var (s1, t) := RemoveContent(s, m);
    assert s.p.holder[newType] == Some(o);
    assert s1.p.holder[newType] == Some(o) && s1.p.isUsed[newType];
  }

  /** A monitor that gave up EMPTY or nothing leaves the other monitor empty-handed. */
  lemma SetContentTakesFromNonUnique(s: State, m: Monitor, o: Monitor, newType: int)
    requires Valid(s) && m != o && IsUnique(newType)
    requires o in s.shown && s.shown[o] == newType
    requires m !in s.shown || s.shown[m] == Empty
    ensures TypeOf(SetContent(s, Some(m), newType).s, o) == Invalid
  {
    var (s1, t) := RemoveContent(s, m);
    assert s.p.holder[newType] == Some(o);
    assert s1.p.holder[newType] == Some(o) && s1.p.isUsed[newType];
  }

  /** Monitors not involved in a request keep their content. */
  lemma SetContentLocal(s: State, m: Monitor, newType: int, x: Monitor)
    requires Valid(s) && x != m && x in s.shown
    requires !(IsUnique(newType) && s.shown[x] == newType)
    ensures TypeOf(SetContent(s, Some(m), newType).s, x) == TypeOf(s, x)
  {
    if Accepted(Some(m), newType) {
      var (s1, oldType) := RemoveContent(s, m);
      if newType < Empty && s1.p.created[newType] {
        var (s2, other) := FreeContent(s1, newType);
        if s1.p.isUsed[newType] {
          assert s1.p.holder[newType] == s.p.holder[newType];
          assert s1.p.holder[newType].Some? ==> s1.p.holder[newType].value != x;
        }
      }
    }
  }

  /** EMPTY content is never cached: a request for it creates a fresh one,
      leaves the set of existing unique contents alone and records the
      monitor in no slot. */
  lemma EmptyNeverStored(s: State, m: Monitor)
    requires Valid(s)
    ensures var r := SetContent(s, Some(m), Empty);
      && r.created == Some(Empty) && TypeOf(r.s, m) == Empty
      && r.s.p.created == s.p.created
      && forall t :: IsUnique(t) ==> r.s.p.holder[t] != Some(m)
  {
    SetContentValid(s, Some(m), Empty);
  }

  /** Idempotence: asking for the unique content a monitor already shows (as
      it does after any request for it) changes nothing any monitor shows and
      creates nothing. */
  lemma ReselectKeepsShown(s: State, m: Monitor, t: int)
    requires Valid(s) && IsUnique(t) && m in s.shown && s.shown[m] == t
    ensures var r := SetContent(s, Some(m), t);
      r.s.shown == s.shown && r.created.None?
  {
    assert s.p.holder[t] == Some(m) && s.p.created[t];
    var (s1, oldType) := RemoveContent(s, m);
    assert oldType == t && !s1.p.isUsed[t] && s1.p.created[t];
    var (s2, other) := FreeContent(s1, t);
    assert other.None? && s2.shown == s1.shown;
    assert s1.shown[m := t] == s.shown;
  }
}

=== FILE: receiver.dfy ===
/** One iteration of the receiver task's loop (`flight/modules/Receiver/receiver.c`,
    `receiverTask`): the GCS-control failsafe. When the ground station holds
    control and its link has timed out, the command falls back to the
    configured failsafe channel values. */
module Receiver {

  /** `SystemSettings.ThrustControl`. */
  datatype ThrustControl = ThrottleThrust | CollectiveThrust | OtherThrust(code: int)

  /** `FlightStatus.FailsafeLevel`; other levels can be present on entry. */
  datatype FailsafeLevel = FailsafeNone | Failsafe1 | OtherLevel(code: int)

  /** Severities written to the receiver alarm. `ReceiverId` is the alarm's own
      identifier, which one branch passes where a severity is expected. */
  datatype Severity = Warning | ReceiverId

  datatype AlarmWrite = AlarmSet(severity: Severity) | AlarmClear

  /** Access of the `ManualControlCommand` metadata. */
  datatype Access = ReadOnly | ReadWrite

  /** The fields of `ManualControlCommand` this loop reads or writes. */
  datatype Command = Command(
    gcsControl: bool,
    throttle: real, roll: real, pitch: real, yaw: real, collective: real, thrust: real,
    flightModeSwitchPosition: int)

  /** `ManualControlSettings.FailsafeChannel` and the flight-mode settings. */
  datatype FailsafeChannel = FailsafeChannel(throttle: real, roll: real, pitch: real, yaw: real, collective: real)

  datatype Settings = Settings(
    failsafeChannel: FailsafeChannel,
    failsafeFlightModeSwitchPosition: int,
    flightModeNumber: int)

  datatype FlightStatus = FlightStatus(gcsControlTimeout: bool, failsafeLevel: FailsafeLevel)

  /** What one iteration publishes: the command and flight status (both always
      written back), the metadata access, whether the metadata was rewritten,
      and the alarm writes in order. */
  datatype Step = Step(
    cmd: Command,
    status: FlightStatus,
    access: Access,
    metadataWritten: bool,
    alarms: seq<AlarmWrite>)

  /** The failsafe condition: GCS control requested and the GCS link timed out. */
  predicate InFailsafe(cmd: Command, status: FlightStatus)
  {
    cmd.gcsControl && status.gcsControlTimeout
  }

  /** The failsafe flight-mode position is applied only when it names one of
      the configured flight modes. */
  predicate ValidFailsafeMode(s: Settings)
  {
    0 <= s.failsafeFlightModeSwitchPosition < s.flightModeNumber
  }

  /** The command with every stick channel taken from the failsafe settings. */
  function FailsafeCommand(cmd: Command, s: Settings, thrustType: ThrustControl): (r: Command)
    ensures r.gcsControl == cmd.gcsControl
    ensures r.throttle == s.failsafeChannel.throttle && r.roll == s.failsafeChannel.roll
    ensures r.pitch == s.failsafeChannel.pitch && r.yaw == s.failsafeChannel.yaw
    ensures r.collective == s.failsafeChannel.collective
    ensures thrustType == ThrottleThrust ==> r.thrust == s.failsafeChannel.throttle
    ensures thrustType == CollectiveThrust ==> r.thrust == s.failsafeChannel.collective
    ensures thrustType.OtherThrust? ==> r.thrust == cmd.thrust
    ensures r.flightModeSwitchPosition == (if ValidFailsafeMode(s) then s.failsafeFlightModeSwitchPosition else cmd.flightModeSwitchPosition)
  {
    var fc := s.failsafeChannel;
    var thrust := match thrustType
      case ThrottleThrust => fc.throttle
      case CollectiveThrust => fc.collective
      case OtherThrust(_) => cmd.thrust;
    var mode := if ValidFailsafeMode(s) then s.failsafeFlightModeSwitchPosition else cmd.flightModeSwitchPosition;
    Command(cmd.gcsControl, fc.throttle, fc.roll, fc.pitch, fc.yaw, fc.collective, thrust, mode)
  }

  /** One loop iteration after the settings, status and command are read. */
  function ReceiverStep(s: Settings, status: FlightStatus, cmd: Command, thrustType: ThrustControl, access: Access): (r: Step)
    // the level is FAILSAFE1 exactly in the failsafe condition, NONE otherwise
    ensures r.status.failsafeLevel == (if InFailsafe(cmd, status) then Failsafe1 else FailsafeNone)
    ensures r.status.gcsControlTimeout == status.gcsControlTimeout
    // the final alarm state is a warning in failsafe and cleared otherwise
    ensures |r.alarms| == 2
    ensures r.alarms[1] == (if InFailsafe(cmd, status) then AlarmSet(Warning) else AlarmClear)
    // outside failsafe the command is published unchanged
    ensures !InFailsafe(cmd, status) ==> r.cmd == cmd && r.access == access && !r.metadataWritten
    // in failsafe the command takes the failsafe values and becomes writable
    ensures InFailsafe(cmd, status) ==> r.cmd == FailsafeCommand(cmd, s, thrustType) && r.access == ReadWrite
    ensures r.metadataWritten <==> InFailsafe(cmd, status) && access == ReadOnly
    ensures r.cmd.gcsControl == cmd.gcsControl
  {
    var first := if cmd.gcsControl && !status.gcsControlTimeout then AlarmSet(Warning) else AlarmSet(ReceiverId);
    if InFailsafe(cmd, status) then
      Step(FailsafeCommand(cmd, s, thrustType), status.(failsafeLevel := Failsafe1),
           ReadWrite, access == ReadOnly, [first, AlarmSet(Warning)])
    else
      Step(cmd, status.(failsafeLevel := FailsafeNone), access, false, [first, AlarmClear])
  }

  /** Failsafe is a fixed point: once the command holds the failsafe values,
      another iteration under the same conditions publishes the same command
      and status, and no longer touches the metadata. */
  lemma FailsafeStable(s: Settings, status: FlightStatus, cmd: Command, thrustType: ThrustControl, access: Access)
    requires InFailsafe(cmd, status)
    ensures var r := ReceiverStep(s, status, cmd, thrustType, access);
      var again := ReceiverStep(s, r.status, r.cmd, thrustType, r.access);
      again.cmd == r.cmd && again.status == r.status && again.access == ReadWrite && !again.metadataWritten
  {
  }

  /** Recovery: when the GCS link comes back, the failsafe level drops to NONE
      and the alarm is cleared, but the command keeps the failsafe values until
      the ground station sends new ones. */
  lemma RecoveryKeepsCommand(s: Settings, status: FlightStatus, cmd: Command, thrustType: ThrustControl, access: Access)
    requires InFailsafe(cmd, status)
    ensures var r := ReceiverStep(s, status, cmd, thrustType, access);
      var back := ReceiverStep(s, r.status.(gcsControlTimeout := false), r.cmd, thrustType, r.access);
      && back.status.failsafeLevel == FailsafeNone && back.alarms[1] == AlarmClear
      && back.cmd == FailsafeCommand(cmd, s, thrustType)
  {
  }

  /** The flight-mode override never selects a mode outside the configured
      range: starting from a valid position, the position stays valid. */
  lemma FlightModeStaysInRange(s: Settings, status: FlightStatus, cmd: Command, thrustType: ThrustControl, access: Access)
    requires 0 <= cmd.flightModeSwitchPosition < s.flightModeNumber
    ensures var r := ReceiverStep(s, status, cmd, thrustType, access);
      0 <= r.cmd.flightModeSwitchPosition < s.flightModeNumber
  {
  }
}

=== FILE: sdl_gamepad.dfy ===
/** The joystick poller of the ground station
    (`ground/openpilotgcs/src/libs/sdlgamepad/sdlgamepad.cpp`). SDL itself is
    not part of this model: what it reports (whether it started, how many
    joysticks there are, what opening one yields, the current axis and button
    readings) is passed in. */
module SdlGamepad {
  import opened Common

  /** What SDL reports for a joystick it has opened. */
  datatype Device = Device(buttons: int, axes: int)

  /** The poller's state: the open SDL handle (by joystick index), the counts
      and index it accepted (-1 when none), the run flag and the last button
      readings. */
  datatype Gamepad = Gamepad(handle: Option<int>, buttons: int, axes: int, index: int, loop: bool, buttonStates: seq<int>)

  /** A gamepad needs at least this many axes to be accepted. */
  const MinAxes: int := 4

  /** The state right after construction. */
  const Constructed: Gamepad := Gamepad(None, -1, -1, -1, false, [])

  /** Either a gamepad is accepted, with an open handle and enough axes, or
      nothing is accepted and the counts read -1. */
  ghost predicate Consistent(g: Gamepad)
  {
    && (g.index != -1 ==> g.index >= 0 && g.handle == Some(g.index) && g.axes >= MinAxes)
    && (g.index == -1 ==> g.axes == -1 && g.buttons == -1)
  }

  // ---------------------------------------------------------------------------
  // Channel maps

  /** `mapAxes`: ground-station axis (0 roll, 1 pitch, 2 throttle, 3 yaw, then
      auxiliaries) to the pad's axis; unknown axes read axis 4. */
  function MapAxes(opAxis: int): (r: int)
    ensures 0 <= r <= 9
    ensures (opAxis < 0 || opAxis > 9) ==> r == 4
    ensures 4 <= opAxis <= 9 ==> r == opAxis
  {
    match opAxis
    case 0 => 2
    case 1 => 3
    case 2 => 1
    case 3 => 0
    case 4 => 4
    case 5 => 5
    case 6 => 6
    case 7 => 7
    case 8 => 8
    case 9 => 9
    case _ => 4
  }

  /** The pad's axis back to the ground-station axis. */
  function UnmapAxes(padAxis: int): int
  {
    match padAxis
    case 2 => 0
    case 3 => 1
    case 1 => 2
    case 0 => 3
    case _ => padAxis
  }

  /** On the ten known axes the map is a permutation: `UnmapAxes` undoes it in
      both directions. */
  lemma MapAxesPermutes(a: int)
    requires 0 <= a <= 9
    ensures UnmapAxes(MapAxes(a)) == a
    ensures 0 <= UnmapAxes(a) <= 9 && MapAxes(UnmapAxes(a)) == a
  {
  }

  /** `mapButtons`: the thirteen named buttons to the pad's button numbers,
      skipping 6 and 7; everything else reads button 15. */
  function MapButtons(opButton: int): (r: int)
    ensures 0 <= r <= 15 && r != 6 && r != 7
    ensures r == 15 <==> opButton < 0 || opButton > 12
    ensures 0 <= opButton <= 5 ==> r == opButton
    ensures 6 <= opButton <= 12 ==> r == opButton + 2
  {
    match opButton
    case 0 => 0
    case 1 => 1
    case 2 => 2
    case 3 => 3
    case 4 => 4
    case 5 => 5
    case 6 => 8
    case 7 => 9
    case 8 => 10
    case 9 => 11
    case 10 => 12
    case 11 => 13
    case 12 => 14
    case _ => 15
  }

  /** No two named buttons share a pad button. */
  lemma MapButtonsInjective(a: int, b: int)
    requires 0 <= a <= 12 && 0 <= b <= 12 && a != b
    ensures MapButtons(a) != MapButtons(b)
  {
  }

  // ---------------------------------------------------------------------------
  // Selecting and starting

  datatype Selection = Selection(pad: Gamepad, ok: bool)

  /** `setGamepad`: switch to joystick `index`; `device` is what SDL's open
      call returned for it. A pad with fewer than four axes is refused but its
      handle stays open. */
  function SetGamepad(g: Gamepad, index: int, device: Option<Device>): (r: Selection)
    ensures index == g.index ==> r == Selection(g, false)
    ensures r.ok <==> index != g.index && device.Some? && device.value.axes >= MinAxes
    ensures r.ok ==> r.pad.index == index && r.pad.handle == Some(index)
    ensures r.ok ==> r.pad.axes == device.value.axes && r.pad.buttons == device.value.buttons
    ensures index != g.index && !r.ok ==> r.pad.index == -1 && r.pad.axes == -1 && r.pad.buttons == -1
    ensures index != g.index ==> (r.pad.handle.Some? <==> device.Some?)
    ensures r.pad.loop == g.loop && r.pad.buttonStates == g.buttonStates
  {
    if index == g.index then Selection(g, false)
    else match device
      case None => Selection(g.(handle := None, buttons := -1, axes := -1, index := -1), false)
      case Some(d) =>
        if d.axes >= MinAxes then Selection(g.(handle := Some(index), buttons := d.buttons, axes := d.axes, index := index), true)
        else Selection(g.(handle := Some(index), buttons := -1, axes := -1, index := -1), false)
  }

  /** Selecting a joystick keeps the poller consistent. */
  lemma SetGamepadConsistent(g: Gamepad, index: int, device: Option<Device>)
    requires Consistent(g) && index >= 0
    ensures Consistent(SetGamepad(g, index, device).pad)
  {
  }

  /** A refused pad is still open: the poller keeps reading it, with no axes
      and no buttons. */
  lemma RefusedPadStaysOpen(g: Gamepad, index: int, d: Device)
    requires index != g.index && d.axes < MinAxes
    ensures var r := SetGamepad(g, index, Some(d));
      !r.ok && r.pad.handle == Some(index) && r.pad.axes < 0 && r.pad.buttons < 0
  {
  }

  function Max0(n: int): nat
  {
    if n < 0 then 0 else n
  }

  /** `init`: start SDL's joystick subsystem, select joystick 0 and record one
      released state per button. */
  method Init(g: Gamepad, sdlStarted: bool, joysticks: int, device: Option<Device>) returns (pad: Gamepad, ok: bool)
    ensures ok <==> sdlStarted && joysticks > 0 && SetGamepad(g, 0, device).ok
    ensures ok ==> pad.loop && pad.index == 0 && pad.axes >= MinAxes
    ensures ok ==> |pad.buttonStates| == |g.buttonStates| + Max0(pad.buttons)
    ensures ok ==> pad.buttonStates[..|g.buttonStates|] == g.buttonStates
    ensures ok ==> forall i :: |g.buttonStates| <= i < |pad.buttonStates| ==> pad.buttonStates[i] == 0
    ensures !ok ==> pad.loop == g.loop
    ensures !sdlStarted || joysticks <= 0 ==> pad == g
    // the poller stays consistent, and a fresh one holds one state per button
    ensures Consistent(g) ==> Consistent(pad)
    ensures ok && g.buttonStates == [] ==> |pad.buttonStates| == Max0(pad.buttons)
  {
    if !sdlStarted {
      return g, false;
    }
    if joysticks <= 0 {
      return g, false;
    }
    var sel := SetGamepad(g, 0, device);
    if Consistent(g) {
      SetGamepadConsistent(g, 0, device);
    }
    if !sel.ok {
      return sel.pad, false;
    }
    pad := sel.pad;
    var i := 0;
    while i < pad.buttons
      invariant 0 <= i <= Max0(pad.buttons)
      invariant pad.loop == g.loop && pad.index == 0 && pad.axes >= MinAxes && pad.buttons == sel.pad.buttons
      invariant |pad.buttonStates| == |g.buttonStates| + i
      invariant pad.buttonStates[..|g.buttonStates|] == g.buttonStates
      invariant forall j :: |g.buttonStates| <= j < |pad.buttonStates| ==> pad.buttonStates[j] == 0
      invariant pad == sel.pad.(buttonStates := pad.buttonStates)
    {
      pad := pad.(buttonStates := pad.buttonStates + [0]);
      i := i + 1;
    }
    pad := pad.(loop := true);
    ok := true;
  }

  // ---------------------------------------------------------------------------
  // Polling

  /** The dead band applied to each axis reading: a reading strictly inside
      the band reads zero, any other passes unchanged. */
  function DeadBand(value: int, nullRange: int): (r: int)
    ensures r == 0 || r <= -nullRange || r >= nullRange
    ensures value <= -nullRange || value >= nullRange ==> r == value
    ensures r != value ==> r == 0 && -nullRange < value < nullRange
  {
    if -nullRange < value < nullRange then 0 else value
  }

  /** After the dead band no reading lies strictly inside it except zero, and
      readings outside it pass unchanged; applying it twice changes nothing. */
  lemma DeadBandShape(value: int, nullRange: int)
    ensures var r := DeadBand(value, nullRange);
      (r == 0 || r <= -nullRange || r >= nullRange)
      && (value <= -nullRange || value >= nullRange ==> r == value)
      && DeadBand(r, nullRange) == r
  {
  }

  /** `updateAxes`: one reading per accepted axis, dead-banded; nothing is
      emitted without an open handle. */
  method UpdateAxes(g: Gamepad, readings: seq<int>, nullRange: int) returns (emitted: Option<seq<int>>)
    requires |readings| >= g.axes
    ensures emitted.Some? <==> g.handle.Some?
    ensures emitted.Some? ==> |emitted.value| == Max0(g.axes)
    ensures emitted.Some? ==> forall i :: 0 <= i < |emitted.value| ==> emitted.value[i] == DeadBand(readings[i], nullRange)
  {
    if g.handle.None? {
      return None;
    }
    var values: seq<int> := [];
    var i := 0;
    while i < g.axes
      invariant 0 <= i <= Max0(g.axes) && |values| == i
      invariant forall j :: 0 <= j < i ==> values[j] == DeadBand(readings[j], nullRange)
    {
      var value := readings[i];
      if value > -nullRange && value < nullRange {
        value := 0;
      }
      values := values + [value];
      i := i + 1;
    }
    return Some(values);
  }

  /** A button whose reading changed, and whether it is now pressed. */
  datatype ButtonEvent = ButtonEvent(number: int, pressed: bool)

  /** The events for buttons `0 .. n - 1`, in button order. */
  function Edges(previous: seq<int>, readings: seq<int>, n: nat): (e: seq<ButtonEvent>)
    requires n <= |previous| && n <= |readings|
    ensures |e| <= n
    ensures forall k :: 0 <= k < |e| ==> 0 <= e[k].number < n
  {
    if n == 0 then []
    else Edges(previous, readings, n - 1) + EdgeAt(previous, readings, n - 1)
  }

  /** The event for button `b`, if its reading changed. */
  function EdgeAt(previous: seq<int>, readings: seq<int>, b: nat): seq<ButtonEvent>
    requires b < |previous| && b < |readings|
  {
    if previous[b] != readings[b] then [ButtonEvent(b, readings[b] > 0)] else []
  }

  /** `updateButtons`: report each button whose reading changed and remember
      the new readings. `readings` holds SDL's answer for every button the pad
      reports. The stored states are sized only by `init`, so after a switch to
      a pad with more buttons the loop reads past them: `fault` is the index of
      that out-of-range read, and the events before it have been emitted. */
  method UpdateButtons(g: Gamepad, readings: seq<int>) returns (states: seq<int>, events: seq<ButtonEvent>, fault: Option<int>)
    requires |readings| >= g.buttons
    ensures g.handle.None? ==> states == g.buttonStates && events == [] && fault.None?
    ensures fault.Some? <==> g.handle.Some? && |g.buttonStates| < g.buttons
    ensures fault.Some? ==> fault.value == |g.buttonStates| && events == Edges(g.buttonStates, readings, |g.buttonStates|)
    ensures g.handle.Some? && fault.None? ==> events == Edges(g.buttonStates, readings, Max0(g.buttons))
    ensures |states| == |g.buttonStates|
    ensures g.handle.Some? ==> forall j :: 0 <= j < |states| ==> states[j] == if j < g.buttons then readings[j] else g.buttonStates[j]
  {
    states := g.buttonStates;
    events := [];
    fault := None;
    if g.handle.None? {
      return;
    }
    var i := 0;
    while i < g.buttons
      invariant 0 <= i <= Max0(g.buttons) && i <= |states| && |states| == |g.buttonStates|
      invariant forall j :: 0 <= j < |states| ==> states[j] == if j < i then readings[j] else g.buttonStates[j]
      invariant events == Edges(g.buttonStates, readings, i)
    {
      if i >= |states| {
        fault := Some(i);
        return;
      }
      var state := readings[i];
      if states[i] != state {
        events := events + [ButtonEvent(i, state > 0)];
        states := states[i := state];
      }
      i := i + 1;
    }
  }

  /** The fault is reachable: a consistent poller switched to a pad with more
      buttons keeps its old states, fewer than the new button count. */
  lemma SwitchOutgrowsButtonStates(g: Gamepad, index: int, d: Device)
    requires |g.buttonStates| == Max0(g.buttons)
    requires index != g.index && d.axes >= MinAxes && d.buttons > Max0(g.buttons)
    ensures var p := SetGamepad(g, index, Some(d)).pad;
      p.handle.Some? && |p.buttonStates| < p.buttons
  {
  }

  /** Button numbers strictly increase along a list of events. */
  predicate ButtonsIncrease(e: seq<ButtonEvent>)
  {
    forall k, l :: 0 <= k < l < |e| ==> e[k].number < e[l].number
  }

  /** Every event names a button whose reading changed, with its new state,
      and each button is reported at most once, in order. */
  lemma EdgesSound(previous: seq<int>, readings: seq<int>, n: nat)
    requires n <= |previous| && n <= |readings|
    ensures forall ev :: ev in Edges(previous, readings, n) ==>
      0 <= ev.number < n && previous[ev.number] != readings[ev.number] && ev.pressed == (readings[ev.number] > 0)
    ensures ButtonsIncrease(Edges(previous, readings, n))
  {
    EdgesChanged(previous, readings, n);
    EdgesOrdered(previous, readings, n);
  }

  /** An event is a changed button carrying its new pressed state. */
  predicate ChangedEvent(previous: seq<int>, readings: seq<int>, n: nat, ev: ButtonEvent)
    requires n <= |previous| && n <= |readings|
  {
    0 <= ev.number < n && previous[ev.number] != readings[ev.number] && ev.pressed == (readings[ev.number] > 0)
  }

  lemma {:induction false} EdgesChanged(previous: seq<int>, readings: seq<int>, n: nat)
    requires n <= |previous| && n <= |readings|
    ensures forall k :: 0 <= k < |Edges(previous, readings, n)| ==> ChangedEvent(previous, readings, n, Edges(previous, readings, n)[k])
  {
    if n > 0 {
      EdgesChanged(previous, readings, n - 1);
      var e0 := Edges(previous, readings, n - 1);
      var t := EdgeAt(previous, readings, n - 1);
      var e := Edges(previous, readings, n);
      assert e == e0 + t;
      forall k | 0 <= k < |e|
        ensures ChangedEvent(previous, readings, n, e[k])
      {
        if k < |e0| {
          assert e[k] == e0[k] && ChangedEvent(previous, readings, n - 1, e0[k]);
        } else {
          assert e[k] == t[0];
        }
      }
    }
  }

  lemma {:induction false} EdgesOrdered(previous: seq<int>, readings: seq<int>, n: nat)
    requires n <= |previous| && n <= |readings|
    ensures ButtonsIncrease(Edges(previous, readings, n))
  {
    if n > 0 {
      EdgesOrdered(previous, readings, n - 1);
      var e0 := Edges(previous, readings, n - 1);
      var t := EdgeAt(previous, readings, n - 1);
      var e := Edges(previous, readings, n);
      assert e == e0 + t;
      forall k, l | 0 <= k < l < |e|
        ensures e[k].number < e[l].number
      {
        assert e[k] == e0[k] && e0[k].number < n - 1;
        if l < |e0| {
          assert e[l] == e0[l];
        } else {
          assert e[l] == t[0];
        }
      }
    }
  }

  /** Every changed button is reported. */
  lemma {:induction false} EdgesComplete(previous: seq<int>, readings: seq<int>, n: nat, b: int)
    requires n <= |previous| && n <= |readings| && 0 <= b < n && previous[b] != readings[b]
    ensures ButtonEvent(b, readings[b] > 0) in Edges(previous, readings, n)
  {
    if b < n - 1 {
      EdgesComplete(previous, readings, n - 1, b);
    }
  }

  /** Unchanged readings produce no events. */
  lemma {:induction false} SteadyButtonsQuiet(previous: seq<int>, readings: seq<int>, n: nat)
    requires n <= |previous| && n <= |readings|
    requires forall i :: 0 <= i < n ==> previous[i] == readings[i]
    ensures Edges(previous, readings, n) == []
  {
    if n > 0 {
      SteadyButtonsQuiet(previous, readings, n - 1);
    }
  }

  /** Polling the same readings twice reports each change once: the second
      poll is silent. */
  method PollTwice(g: Gamepad, readings: seq<int>) returns (first: seq<ButtonEvent>, second: seq<ButtonEvent>)
    requires g.handle.Some? && |readings| >= g.buttons
    ensures |g.buttonStates| >= g.buttons ==> first == Edges(g.buttonStates, readings, Max0(g.buttons)) && second == []
  {
    var states, again, fault;
    states, first, fault := UpdateButtons(g, readings);
    again, second, fault := UpdateButtons(g.(buttonStates := states), readings);
    if |g.buttonStates| >= g.buttons {
      SteadyButtonsQuiet(states, readings, Max0(g.buttons));
    }
  }
}
